=== FILE: README.md ===
# devlog in Dafny

A model of the deterministic core of devlog, a blogging site. The backend is
Express over PostgreSQL; the frontend is React. Each database table is a
sequence of rows in insertion order. Each `SERIAL` column is a counter kept
beside its rows. The follow table is a set of edges. Each request handler is
a pure function from the tables and the request to the new tables and the
HTTP reply (`Common.Step`, `Common.Reply`).

The modules follow the source files:

- `Slug`: `slugify`.
- `Suffix`: the "first free name" search that both `generateUniqueSlug` and
  the Google sign-in username loop run.
- `Posts`, `Users`, `Follows`, `Feedbacks`, `ValidateFeedback`, `Comments`:
  the controllers and the feedback middleware.
- `OAuth`: the Google verify callback.
- `DashboardRoute`, `Profile`, `Search`: the route handlers with inline
  SQL.
- `CommentTree`: `buildCommentTree` of the comment list.
- `Feed`: the infinite-scroll state machine of the trending and following
  pages.
- `WriteForm`: the editor's submit handler.
- `Trend`: the views trend on the dashboard page.
- `FollowToggle`: the follow buttons of the suggested-users panel.
- `Common` and `Schema`: shared vocabulary and the table rows.

Clocks and ids enter as parameters. `created_at DESC` is modelled as the
reverse of insertion order, and `created_at ASC` as insertion order.

## Model

| member | source | states |
|---|---|---|
| Common.OrElse | backend/controllers/postController.js:36-37 | `parseInt(q) \|\| d` keeps a parsed value that is truthy; `NaN` and `0` fall back to the default |
| Common.Window | backend/controllers/postController.js:39-42 | `LIMIT l OFFSET o` returns the rows from position o on, at most l of them, none past the end |
| Common.PageOffset | backend/controllers/postController.js:38 | `(page - 1) * limit` is never negative for page ≥ 1 and limit ≥ 0, and page 1 starts at row 0 |
| Common.Lower | backend/utils/slugify.js:2 | `toLowerCase` maps each character on its own and leaves no ASCII capital |
| Common.Trim | backend/routes/search.js:8-12 | `trim` leaves no white space at either end; the result is empty exactly when the input is all white space; it uses only characters of the input; an already trimmed string comes back unchanged |
| Common.Split | devlogsh/src/pages/Write.jsx:144 | `split(',')` gives at least one piece, no piece holds the separator, and joining the pieces with it gives back the input |
| Common.SplitJoin | devlogsh/src/pages/Write.jsx:144 | splitting a join of separator-free pieces gives the pieces back |
| Slug.Collapse | backend/utils/slugify.js:2 | `replace(/[^a-z0-9]+/g, '-')` leaves only `[a-z0-9-]`, never two hyphens in a row, and the same letters and digits in order |
| Slug.CollapseAlnums | backend/utils/slugify.js:2 | the collapse keeps exactly the letters and digits, in order |
| Slug.CollapseWord | backend/utils/slugify.js:2 | a run of slug characters passes through the collapse unchanged |
| Slug.CollapseWords | backend/utils/slugify.js:2 | the collapse is the words joined by single hyphens, with one hyphen in front when the string starts with a non-slug run and one behind when it ends with one |
| Slug.WordsEmpty | backend/utils/slugify.js:2 | a string has no words exactly when it has no slug character |
| Slug.HyphenateEnds | backend/utils/slugify.js:2 | words joined by hyphens start and end with a slug character |
| Slug.TrimCollapse | backend/utils/slugify.js:2 | the two replacements together give exactly the words joined by single hyphens |
| Slug.CollapseFixed | backend/utils/slugify.js:2 | a string of slug characters separated by single hyphens is unchanged by the collapse |
| Slug.TrimHyphens | backend/utils/slugify.js:2 | `replace(/(^-\|-$)/g, '')` removes one hyphen at the start and one at the end and nothing else; on a collapsed string it leaves no hyphen at either end and keeps the letters and digits |
| Slug.Slugify | backend/utils/slugify.js:1-2 | the slug is the words (maximal runs of `a-z0-9`) of the lowered title joined by single hyphens: only `a-z`, `0-9` and `-`, no leading, trailing or double hyphen, and exactly the letters and digits of the lowered title, in order |
| Slug.SlugifyFixed | backend/utils/slugify.js:2 | every string of that shape is its own slug |
| Slug.SlugifyIdempotent | backend/utils/slugify.js:2 | `slugify(slugify(x)) == slugify(x)` |
| Slug.SlugifyKeepsAlnum | backend/utils/slugify.js:2 | a string of lower-case ASCII letters and digits is returned unchanged |
| Slug.SlugifyEmpty | backend/utils/slugify.js:2 | the slug is empty exactly when the title has no ASCII letter or digit (and the empty slug is not refused) |
| Suffix.NatToString | backend/controllers/postController.js:13 | the numeral a template literal prints is a non-empty string of digits |
| Suffix.NatToStringRoundTrip | backend/controllers/postController.js:13 | reading the numeral back gives the number |
| Suffix.NatToStringInjective | backend/controllers/postController.js:13 | different suffixes print differently |
| Suffix.Candidates | backend/controllers/postController.js:5-13 | the names tried, in order: `base`, then `base` with suffix 1, 2, … |
| Suffix.CandidateInjective | backend/controllers/postController.js:13 | no name is tried twice, so the loop always makes progress |
| Suffix.FirstFreeFrom | backend/controllers/postController.js:6-14 | from any start, the search stops at a free name and every name it passed was taken |
| Suffix.FirstFree | backend/controllers/postController.js:4-16 | the chosen name is free; it is `base` when `base` is free; every earlier candidate is taken |
| Suffix.FirstFreeUnique | backend/controllers/postController.js:6-14 | a candidate that is free after only taken ones is the one chosen |
| Suffix.Search | backend/controllers/postController.js:6-15 | the query-per-candidate loop returns exactly the first free name |
| Posts.UniqueSlug | backend/controllers/postController.js:4-16 | `generateUniqueSlug` returns a slug no post holds except a truthy `excludeSlug`; `base` when no post holds it; otherwise the first free one of `base`, `base-1`, `base-2`, … |
| Posts.UniqueSlugKeepsExcluded | backend/controllers/postController.js:70-71 | an update without a new title keeps its (non-empty) slug, because the excluded slug always counts as free |
| Posts.CreatePost | backend/controllers/postController.js:18-32 | a missing title is a 500 with nothing stored; otherwise one row is appended with 201 under the next serial id, with a slug no earlier post holds (the first free variant of the slugified title), the given title, content and cover image, `tags` defaulting to `[]`, and no `is_published`; unique slugs stay unique |
| Posts.GetPosts | backend/controllers/postController.js:34-48 | limit and page fall back to 10 and 1 on `NaN` or 0; a negative limit or offset is a 500; otherwise the page of rows at offset `(page - 1) * limit`, newest first |
| Posts.GetPostsDefaults | backend/controllers/postController.js:36-38 | page 1 starts at offset 0, page 3 of 10 at 20, and `limit=abc&page=0` answers like `limit=10&page=1` |
| Posts.GetPostBySlug | backend/controllers/postController.js:50-60 | 404 exactly when no post has the slug; otherwise 200 with a post that has it, the only one when slugs are unique |
| Posts.Rewrite | backend/controllers/postController.js:73-85 | `UPDATE … WHERE slug = $7` merges every row with the slug and leaves every other row as it was |
| Posts.RewriteKeepsUnique | backend/controllers/postController.js:70-85 | writing a slug that is free among the other rows keeps slugs unique |
| Posts.UpdatePost | backend/controllers/postController.js:62-91 | 404 and no change on an unknown slug; otherwise every row with the slug is merged and no other row changes; the returned post keeps its id, author and creation time, takes the first free slug of the slugified new title (or of the old slug), `updated_at` now, each truthy text field and any given `tags` or `is_published` (an explicit `false` included), the old value otherwise; no new title keeps the slug; unique slugs stay unique |
| Posts.Without | backend/controllers/postController.js:96 | `DELETE … WHERE slug = $1` keeps exactly the rows with another slug |
| Posts.WithoutFilters | backend/controllers/postController.js:96 | the rows left are a subsequence of the table, in table order, and each row with another slug is kept as often as it occurred |
| Posts.WithoutRemovesOne | backend/controllers/postController.js:96 | with unique slugs the delete removes exactly one row |
| Posts.DeletePost | backend/controllers/postController.js:93-103 | 404 and no change when no post has the slug; otherwise 200, exactly that post is gone, and the other rows keep their order and multiplicity |
| Posts.RepeatedCreate | backend/controllers/postController.js:21 | n creates with the same base slug, into a table holding none of its variants, store `base`, `base-1`, …, `base-(n-1)` in that order |
| Posts.NextSlug | backend/controllers/postController.js:4-16 | after the first m variants were stored, the next create gets the m-th |
| OAuth.RemoveSpaces | backend/oauth/passportStrategies.js:25 | `replace(/\s+/g, '')` leaves no white space and returns a space-free string unchanged |
| OAuth.RemoveSpacesFilters | backend/oauth/passportStrategies.js:25 | the result is a subsequence of the input holding every non-space character as often as the input does and no space |
| OAuth.RemoveSpacesMembers | backend/oauth/passportStrategies.js:25 | every character left was in the input |
| OAuth.RemoveSpacesAppend | backend/oauth/passportStrategies.js:25 | removing spaces distributes over concatenation |
| OAuth.BaseUsername | backend/oauth/passportStrategies.js:25 | the base name is the lowered display name (or `user` when it is empty) with every white-space character removed, so it has no white space and no capitals |
| OAuth.SplitAtSpace | backend/oauth/passportStrategies.js:25 | two space-free words around one space lose exactly the space |
| OAuth.BaseUsernameExample | backend/oauth/passportStrategies.js:25 | the display name `Jane Doe` gives the base name `janedoe` |
| OAuth.UniqueUsername | backend/oauth/passportStrategies.js:26-35 | the chosen username is held by no user; it is the base when free; otherwise the first free one of `base`, `base1`, `base2`, … (no separator) |
| OAuth.EncodeUriComponent | backend/oauth/passportStrategies.js:37 | `encodeURIComponent` yields only unreserved characters and `%` escapes, never shortens its input, and leaves an already safe name alone |
| OAuth.PercentBytes | backend/oauth/passportStrategies.js:37 | each UTF-8 byte becomes exactly `%` followed by its two upper-case hex digits, in order |
| OAuth.EncodeChar | backend/oauth/passportStrategies.js:37 | one character is kept when unreserved and otherwise replaced by the `%XX` escapes of its UTF-8 bytes |
| OAuth.EncodeAppend | backend/oauth/passportStrategies.js:37 | the encoding works character by character: it distributes over concatenation |
| OAuth.EncodeSpace | backend/oauth/passportStrategies.js:37 | `a b` encodes as `a%20b` |
| OAuth.FindByEmail | backend/oauth/passportStrategies.js:20 | the lookup finds the first user with the email, or none exactly when no user has it |
| OAuth.GoogleVerify | backend/oauth/passportStrategies.js:15-49 | no email: an error and nothing stored; a known email: that user, nothing stored; otherwise one user is appended with the next id, the email, the marker hash `oauth_google_user`, the first free username, the dicebear avatar seeded with the URI-encoded username, the default role, no bio, and both timestamps at sign-in time |
| OAuth.SecondSignInReuses | backend/oauth/passportStrategies.js:20-48 | signing in twice with the same profile returns the same user and stores nothing the second time |
| OAuth.CreatedUserIsFound | backend/oauth/passportStrategies.js:39-46 | the row a first sign-in inserts is the one the next email lookup finds |
| Users.GetUserById | backend/controllers/userController.js:3-25 | an id that parses to `NaN` or ≤ 0 is a 400 before any lookup; a positive id past the 32-bit `integer` range fails in the store, a 500; an unknown id is a 404; a known id is a 200 with a user's public columns, and with distinct ids exactly that user's |
| Users.DedupeAfter | backend/controllers/userController.js:64-65 | `Array.from(new Set(…))` keeps each id once, and exactly the ids of the input |
| Users.DedupeOrder | backend/controllers/userController.js:64-65 | the kept ids come in the order of their first occurrences, as a `Set` iterates in insertion order |
| Users.DedupeAppend | backend/controllers/userController.js:65 | deduplicating a concatenation deduplicates the first list, then the second without the first's ids |
| Users.Unfollowed | backend/controllers/userController.js:66 | the filter keeps exactly the ids not followed, and no duplicates appear |
| Users.UnfollowedFilters | backend/controllers/userController.js:66 | `filter` keeps a subsequence holding every occurrence of an unfollowed id and none of a followed one |
| Users.UnfollowedKeepsOrder | backend/controllers/userController.js:66 | the filter keeps the first-occurrence order |
| Users.UnfollowedAppend | backend/controllers/userController.js:66 | the filter distributes over concatenation |
| Users.Merged | backend/controllers/userController.js:64-66 | before the cut: no duplicates, exactly the friends-of-friends and popular ids not followed, friends-of-friends first |
| Users.MergedOrder | backend/controllers/userController.js:64-66 | the merged ids come in the order of their first occurrence in the friends-of-friends list followed by the popular list |
| Users.MergeSuggestions | backend/controllers/userController.js:64-66 | `slice(0, 12)` is the first min(12, n) merged ids: at most 12, no duplicates, none followed, all from the two sources, friends-of-friends first, and every candidate present when fewer than 12 |
| Schema.WithIds | backend/controllers/userController.js:70-73 | `WHERE id = ANY($1)` (and the follow joins onto `users.id`) selects exactly the rows whose id is listed |
| Schema.WithIdsFilters | backend/controllers/userController.js:70-73 | the selection is a subsequence of the table, and each listed row appears as often as in the table |
| Schema.WithIdsKeepsUnique | backend/controllers/followController.js:59-64 | with `id` a primary key, the selected rows have distinct ids, so the join returns each user once |
| Users.Cards | backend/controllers/userController.js:70-73 | one card per selected row, in order, each holding that row's id, username, avatar and bio; a card is in the answer exactly when some user with a listed id has it |
| Users.GetSuggestedUsers | backend/controllers/userController.js:28-80 | a falsy or `NaN` caller id is a 400; otherwise a 200 whose cards are exactly the id, username, avatar and bio of the users with a merged id; no card is the caller or someone the caller follows |
| Follows.Follow | backend/controllers/followController.js:3-22 | following yourself is a 400 with no change; a `NaN` target or one outside the 32-bit `integer` range is a 500 with no change; otherwise the edge is added (a set insertion) with 200 |
| Follows.Unfollow | backend/controllers/followController.js:24-38 | a target the store cannot take is a 500 with no change; otherwise removes exactly that edge, and succeeds whether or not it was there |
| Follows.FollowStatus | backend/controllers/followController.js:40-54 | a 500 exactly for a target the store cannot take; otherwise `isFollowing` is true exactly when the edge is present |
| Follows.UsersIn | backend/controllers/followController.js:59-64 | one brief per selected user row, in table order, each holding that row's id, username and avatar; a brief is listed exactly when some user with a listed id has it; no brief twice when ids are unique |
| Follows.Followers | backend/controllers/followController.js:56-70 | a 500 exactly for a user id the store cannot take; otherwise 200 with one brief per user row with an edge into the target, copied from that row; a brief is listed exactly when such a user has it, and none twice when ids are unique |
| Follows.Following | backend/controllers/followController.js:72-86 | a 500 exactly for a user id the store cannot take; otherwise 200 with one brief per user row the target has an edge to, copied from that row; a brief is listed exactly when such a user has it, and none twice when ids are unique |
| Follows.FollowIdempotent | backend/controllers/followController.js:11-16 | following twice is following once |
| Follows.FollowThenUnfollow | backend/controllers/followController.js:11-32 | following then unfollowing a new edge restores the edge set |
| Follows.StatusAfterToggle | backend/controllers/followController.js:45-49 | the status is true after a follow and false after an unfollow |
| Follows.FollowMakesFollower | backend/controllers/followController.js:59-64 | after following, the caller is listed among the target's followers |
| Feedbacks.StoredComment | backend/controllers/feedbackController.js:14 | `comment \|\| null`: an absent or empty comment is stored as null, any other kept |
| Feedbacks.CreateFeedback | backend/controllers/feedbackController.js:3-21 | the upsert keeps (post, user) unique; an existing pair's row is rewritten in place with the same id; otherwise one row with the next id is appended; the serial counter advances on both paths; `updated_at` is the request time on both paths and `created_at` too on insert; 201 either way |
| Feedbacks.ResubmitOverwrites | backend/controllers/feedbackController.js:8-15 | submitting twice leaves the rows as one submission of the second rating and comment would, with the serial counter drawn twice |
| Feedbacks.ResubmitAfterUpdate | backend/controllers/feedbackController.js:8-15 | when the pair already had feedback, the second submission finds the same row and gives the same rows and reply as submitting only the second |
| Feedbacks.ResubmitAfterInsert | backend/controllers/feedbackController.js:8-15 | when the first submission inserts, the second finds the new last row and gives the same rows as submitting only the second, and the same reply apart from the id, which is the first submission's |
| Feedbacks.CeilDiv | backend/controllers/feedbackController.js:43 | `Math.ceil(total / limit)`: the least page count whose pages hold every row |
| Feedbacks.PostEntriesExact | backend/controllers/feedbackController.js:34-37 | the joined rows are exactly the post's rows whose author exists, each with that author's name |
| Feedbacks.PostEntriesOrder | backend/controllers/feedbackController.js:34-37 | the joined rows are a subsequence of the table read from its end, last-inserted first |
| Feedbacks.PostEntriesCounts | backend/controllers/feedbackController.js:34-37 | each row of the post whose author exists is joined as often as it occurs in the table, and no other row is |
| Feedbacks.PostEntriesNewestFirst | backend/controllers/feedbackController.js:35 | with rows inserted in creation order, the joined entries come newest first (`ORDER BY pf.created_at DESC`) |
| Feedbacks.CountPost | backend/controllers/feedbackController.js:38-42 | the count is 0 exactly when the post has no feedback |
| Feedbacks.CountPostExact | backend/controllers/feedbackController.js:38-42 | `COUNT(*)` is the number of rows whose post is the given one |
| Feedbacks.FeedbackPageOf | backend/controllers/feedbackController.js:31-49 | the page holds min(limit, rest) entries taken in order from offset `(page - 1) * limit`, none past the end; `total` counts the post's rows and `totalPages` is its ceiling over `limit` |
| Feedbacks.GetFeedbackForPost | backend/controllers/feedbackController.js:23-54 | a `NaN` or < 1 page or limit is a 400 before any query; a `post_id` that is not a 32-bit integer makes the query fail, a 500; otherwise a 200 with that page; defaults are page 1 and limit 10 |
| Feedbacks.RemoveAt | backend/controllers/feedbackController.js:72-75 | removing one row keeps exactly the rows with another id, in order, takes one occurrence of the row out of the multiset, and keeps keys unique |
| Feedbacks.DeleteFeedback | backend/controllers/feedbackController.js:56-81 | an id that is not a 32-bit integer is a 500; 404 when missing; 403 when the caller does not own it; the owner gets 200 with the row, only that row is removed, and the rest keep their order |
| Feedbacks.OnPost | backend/controllers/feedbackController.js:87 | `WHERE post_id = $1` selects exactly the post's rows |
| Feedbacks.OnPostFilters | backend/controllers/feedbackController.js:87 | the selection is a subsequence of the table, and each row of the post appears as often as in the table |
| Feedbacks.Ratings | backend/controllers/feedbackController.js:87 | as many ratings as the post has rows, each the rating of one of them |
| Feedbacks.RatingsOfPost | backend/controllers/feedbackController.js:87 | the ratings are the `rating` column of the post's rows, in order |
| Feedbacks.AverageRating | backend/controllers/feedbackController.js:82-102 | a post id the store cannot take as `integer` is a 500; otherwise 200, and the average is 0 for a post with no feedback; otherwise, taken once per row of the post, it gives the sum of their ratings, and it lies between 1 and 5 when every rating does |
| Common.Average | backend/controllers/feedbackController.js:87 | `AVG` of a non-empty column: the value that, taken once per element, gives the sum |
| Common.AverageBounds | backend/controllers/feedbackController.js:87 | the mean of values between two bounds lies between them |
| ValidateFeedback.Validate | backend/middlewares/validateFeedback.js:1-13 | the request passes exactly when all three fields are truthy and 1 ≤ rating ≤ 5; a falsy field gets "required"; a rating out of range gets the range error |
| ValidateFeedback.ZeroRatingIsMissing | backend/middlewares/validateFeedback.js:4-8 | rating 0 gets the "required" error, not the range error |
| ValidateFeedback.RejectionsAre400 | backend/middlewares/validateFeedback.js:4-10 | every rejection is a 400 with one of the two messages |
| Comments.StoredParent | backend/controllers/commentController.js:11 | `parent_comment_id \|\| null`: a missing or zero parent makes a top-level comment |
| Comments.CreateComment | backend/controllers/commentController.js:3-19 | appends one row with the next id, the caller and the stored parent, and answers 201 with it |
| Comments.KeptPositions | backend/controllers/commentController.js:25-30 | the positions, ascending, of exactly the post's rows whose author exists |
| Comments.CommentsByPost | backend/controllers/commentController.js:21-37 | the listing is exactly the post's comments with an existing author, oldest first, each with the author's name |
| Comments.GetCommentsByPost | backend/controllers/commentController.js:21-37 | a `post_id` that is not a 32-bit integer makes the query fail, a 500; otherwise a 200 with that listing, every entry a stored comment of the post |
| Comments.Authorize | backend/controllers/commentController.js:45-48 | an id that is not a 32-bit integer is a 500; 404 for a missing id; otherwise allowed exactly for the owner or an admin, 403 for anyone else |
| Comments.UpdateComment | backend/controllers/commentController.js:39-60 | on refusal nothing changes; an authorised caller always succeeds, and then only that comment's content and `updated_at` change |
| Comments.WithoutId | backend/controllers/commentController.js:72 | the delete keeps exactly the rows with another id |
| Comments.WithoutIdFilters | backend/controllers/commentController.js:72 | the rows left are a subsequence of the table, and each row with another id is kept as often as it occurred |
| Comments.WithoutKeepsUnique | backend/controllers/commentController.js:72 | removing rows keeps ids distinct |
| Comments.WithoutUniqueCount | backend/controllers/commentController.js:72 | with distinct ids the delete removes exactly one row |
| Comments.DeleteComment | backend/controllers/commentController.js:62-78 | on refusal nothing changes; an authorised caller always succeeds, and then exactly the comment with the id is removed while the other rows keep their order and multiplicity |
| Comments.StrangerChangesNothing | backend/controllers/commentController.js:45-70 | a caller who is neither owner nor admin gets 403 from both handlers and the table stays as it was |
| DashboardRoute.Label | backend/routes/dashboardRoute.js:22 | titles over 12 characters become their first 12 plus `...`; others are unchanged; no label exceeds 15 |
| DashboardRoute.Authored | backend/routes/dashboardRoute.js:11-16 | exactly the caller's posts |
| DashboardRoute.AuthoredFilters | backend/routes/dashboardRoute.js:11-16 | the caller's posts are a subsequence of the table, each as often as in the table |
| DashboardRoute.Rated | backend/routes/dashboardRoute.js:26-34 | `WHERE post_id IN (…)` selects exactly the feedback rows on one of the posts |
| DashboardRoute.RatedFilters | backend/routes/dashboardRoute.js:26-34 | the selection is a subsequence of the feedback table, and each selected row appears as often as in the table |
| DashboardRoute.Ratings | backend/routes/dashboardRoute.js:26-34 | every rating collected belongs to a feedback row on one of the posts |
| DashboardRoute.RatingsOfRated | backend/routes/dashboardRoute.js:26-34 | the ratings are the `rating` column of the selected rows, in order |
| DashboardRoute.AverageOf | backend/routes/dashboardRoute.js:26-35 | "0.00" exactly for no ratings; otherwise a mean that, taken once per rating, gives their sum, and lies between 1 and 5 when every rating does |
| DashboardRoute.Dashboard | backend/routes/dashboardRoute.js:7-46 | the count is the number of the caller's posts; one bar per post in order with views copied; the total is the sum of the bars; "0.00" exactly when none of the caller's posts has feedback; the average is the mean of the ratings on the caller's posts |
| DashboardRoute.DashboardAverageBounds | backend/routes/dashboardRoute.js:26-35 | with ratings between 1 and 5 the dashboard average lies between 1 and 5 |
| DashboardRoute.RatingsEmpty | backend/routes/dashboardRoute.js:26-34 | no rating is collected exactly when no feedback is on one of the posts |
| DashboardRoute.BarsSum | backend/routes/dashboardRoute.js:19-24 | relabelling keeps the views, so the sum over the bars is the sum over the posts |
| DashboardRoute.PostCountIsAuthoredRows | backend/routes/dashboardRoute.js:11-18 | the post count equals the number of the caller's rows, counted as a set of row positions |
| DashboardRoute.TotalViewsNonNegative | backend/routes/dashboardRoute.js:19 | with non-negative view counts the dashboard's total is non-negative, whatever the feedback table |
| Profile.HasClash | backend/routes/authRoutes.js:15-18 | the check finds a clash exactly when another user has the requested username or email |
| Profile.KeepIfBlank | backend/routes/authRoutes.js:25-26 | `COALESCE(NULLIF($n, ''), col)`: a null or empty value keeps the column |
| Profile.KeepIfMissing | backend/routes/authRoutes.js:27-28 | `COALESCE($n, col)`: only a null keeps the column; an empty string is written |
| Profile.UpdateProfile | backend/routes/authRoutes.js:10-39 | a clash is a 400 with no change; otherwise only the caller's row changes, field by field as the two merge rules say |
| Profile.UpdateKeepsNamesUnique | backend/routes/authRoutes.js:15-31 | an accepted update never makes two users share a username or an email |
| Profile.OwnNamesAreNoClash | backend/routes/authRoutes.js:16 | sending back one's own username and email is never a clash |
| Search.LikeContains | backend/routes/search.js:12-18 | for a term without wildcards, `%term%` matches exactly the strings containing the term |
| Search.ILikeContains | backend/routes/search.js:18 | the same for `ILIKE`, ignoring ASCII case |
| Search.NewestMatching | backend/routes/search.js:15-19 | exactly the matching posts, each once, newest first |
| Search.Insert | backend/routes/search.js:27 | inserting adds exactly the one row |
| Search.InsertSorted | backend/routes/search.js:27 | inserting into a list sorted by username keeps it sorted |
| Search.SortByName | backend/routes/search.js:23-28 | `ORDER BY username ASC` is a sorted permutation |
| Search.MatchingUsers | backend/routes/search.js:23-26 | exactly the users whose username matches |
| Search.Take | backend/routes/search.js:20 | `LIMIT 5` keeps the first five, or all when fewer |
| Search.TopPosts | backend/routes/search.js:15-20 | the five newest matching posts, with the selected columns |
| Search.TopUsers | backend/routes/search.js:23-28 | min(5, n) of the n matching users, sorted by username, taken from the matching users, and no left-out match sorts before a returned one |
| Search.TakeSmallest | backend/routes/search.js:27-28 | the first k of a list sorted by username are no greater than any element left out |
| Search.TopOfSorted | backend/routes/search.js:23-28 | the first min(5, n) of a sorted permutation of the matches come from the matches, and are all of them when fewer than five |
| Search.SearchAll | backend/routes/search.js:6-44 | a missing or blank `q` is a 400; otherwise the trimmed term wrapped in `%` selects the posts and users |
| Search.PostHitContainsTerm | backend/routes/search.js:18 | a post is a hit exactly when its title or content contains the term, ignoring ASCII case |
| Search.UserHitsContainTerm | backend/routes/search.js:12-26 | every user returned has a username containing the trimmed query |
| Search.BlankQueryRefused | backend/routes/search.js:8-10 | white-space-only, empty and missing queries are all refused |
| CommentTree.Roots | devlogsh/src/components/comments/CommentList.jsx:57 | the roots are exactly the comments with a falsy parent |
| CommentTree.RootsFilters | devlogsh/src/components/comments/CommentList.jsx:57 | `filter(c => !c.parent_comment_id)` keeps a subsequence with every top-level comment and no reply |
| CommentTree.Children | devlogsh/src/components/comments/CommentList.jsx:62 | the replies are exactly the comments whose parent is the id |
| CommentTree.ChildrenFilters | devlogsh/src/components/comments/CommentList.jsx:62 | the filter keeps a subsequence with every comment whose parent is the id and no other |
| CommentTree.ExtendChain | devlogsh/src/components/comments/CommentList.jsx:60-62 | with distinct ids a reply is never already on the path above it, so each recursive call uses up one more id and `addReplies` ends |
| CommentTree.Build | devlogsh/src/components/comments/CommentList.jsx:60-64 | a node keeps its comment and has one reply per child, in list order |
| CommentTree.BuildAll | devlogsh/src/components/comments/CommentList.jsx:62 | the mapped replies are in the children's order |
| CommentTree.BuildAllAt | devlogsh/src/components/comments/CommentList.jsx:62 | the i-th reply is the tree built for the i-th child |
| CommentTree.Forest | devlogsh/src/components/comments/CommentList.jsx:53-58 | one tree per top-level comment, in list order: the i-th tree holds the i-th comment `Roots` keeps |
| CommentTree.BuildSound | devlogsh/src/components/comments/CommentList.jsx:60-64 | every comment in a built tree is in the list and reachable from a top-level comment |
| CommentTree.ForestSound | devlogsh/src/components/comments/CommentList.jsx:55-58 | everything in the forest is reachable |
| CommentTree.ForestComplete | devlogsh/src/components/comments/CommentList.jsx:56-63 | the last comment of every reply path from a top-level comment appears in the forest |
| CommentTree.ForestIsReachable | devlogsh/src/components/comments/CommentList.jsx:53-65 | a comment is in the forest exactly when it is reachable |
| CommentTree.OrphanDropped | devlogsh/src/components/comments/CommentList.jsx:56-62 | a reply whose parent is not in the list does not appear |
| Feed.Start | devlogsh/src/pages/Trending.jsx:17-20 | no request while loading or when there is nothing more; otherwise `loading` is set and the current page is requested |
| Feed.Finish | devlogsh/src/pages/FollowingFeed.jsx:31-46 | an array is appended, the page moves on by one and `hasMore` is "the page was full"; a non-OK status, a thrown error or (on the following feed) an object body only sets `error`; on the trending page an object body ends the feed, moves the page on and breaks the page; `loading` is cleared in every case |
| Feed.EndIsFinal | devlogsh/src/pages/Trending.jsx:18-30 | once `hasMore` is false no event changes the posts, the page or `hasMore` |
| Feed.CountedHolds | devlogsh/src/pages/Trending.jsx:18-31 | while there is more, the posts are exactly the full pages fetched so far, and a request is only out while there is more |
| Feed.InitCounted | devlogsh/src/pages/Trending.jsx:9-13 | the initial state satisfies that invariant |
| Feed.NoDoubleRequest | devlogsh/src/pages/FollowingFeed.jsx:19-21 | a scroll while a request is out issues no second request |
| WriteForm.TrimEach | devlogsh/src/pages/Write.jsx:144 | `map((t) => t.trim())` trims each piece in place |
| WriteForm.TrimEachClean | devlogsh/src/pages/Write.jsx:144 | trimming comma-free pieces gives comma-free, trimmed pieces |
| WriteForm.NonEmpty | devlogsh/src/pages/Write.jsx:144 | `filter(Boolean)` keeps exactly the non-empty pieces, in order |
| WriteForm.NonEmptyFilters | devlogsh/src/pages/Write.jsx:144 | `filter(Boolean)` keeps a subsequence holding every non-empty piece as often as the input does and no empty one |
| WriteForm.NonEmptyAppend | devlogsh/src/pages/Write.jsx:144 | the filter distributes over concatenation |
| WriteForm.ParseTags | devlogsh/src/pages/Write.jsx:144 | no tag is empty, holds a comma or has white space at either end |
| WriteForm.ParseTagsPieces | devlogsh/src/pages/Write.jsx:144 | parsing comma-joined comma-free pieces is trimming each and dropping the empty ones |
| WriteForm.ParseTagsExample | devlogsh/src/pages/Write.jsx:144 | `react, dafny` gives the tags `react` and `dafny` |
| WriteForm.ParseTagsSkipsEmpty | devlogsh/src/pages/Write.jsx:144 | `a,,b` gives the tags `a` and `b` |
| WriteForm.ParseTagsJoin | devlogsh/src/pages/Write.jsx:144 | clean non-empty tags joined with commas parse back to themselves |
| WriteForm.NoTags | devlogsh/src/pages/Write.jsx:144 | an empty tag field gives no tags |
| WriteForm.Submit | devlogsh/src/pages/Write.jsx:126-147 | refused exactly when the title or content is blank after trimming; otherwise the fields as typed, the parsed tags, `''` for no cover, and `is_published` true |
| WriteForm.AfterResponse | devlogsh/src/pages/Write.jsx:150-157 | success goes to the post's page; a failed response shows the server's error, or "Something went wrong" without one; a thrown error shows its message, or "Failed to publish post" without one; an error shown is never empty |
| WriteForm.Catch | devlogsh/src/pages/Write.jsx:154-157 | `setError(err.message \|\| 'Failed to publish post')` shows a non-empty message: the error's own when it has one |
| Trend.FirstHalf | devlogsh/src/pages/home/Dashboard.jsx:58 | `slice(0, n / 2)` is the first floor(n/2) bars |
| Trend.SecondHalf | devlogsh/src/pages/home/Dashboard.jsx:59 | `slice(n / 2)` is the rest |
| Trend.HalvesCover | devlogsh/src/pages/home/Dashboard.jsx:58-61 | the halves make up the whole list, and their sums add up to the total views |
| Trend.ViewsTrend | devlogsh/src/pages/home/Dashboard.jsx:60-64 | up exactly when the second half's views are no fewer; the percentage is never negative, 0 when the first half has no views, and otherwise the change relative to the first half |
| Trend.FlatIsUp | devlogsh/src/pages/home/Dashboard.jsx:62-64 | equal halves show an upward trend of 0% |
| Trend.ViewsPerPostTile | devlogsh/src/pages/home/Dashboard.jsx:114-116 | a placeholder exactly while loading or with no bars; otherwise total views per bar |
| FollowToggle.InitialFollowing | devlogsh/src/components/GetSuggestedUsers.jsx:53-56 | exactly the ids of the users flagged `is_following` |
| FollowToggle.NothingFollowedAtFirst | devlogsh/src/components/GetSuggestedUsers.jsx:53-56 | without the flag, no card starts as followed |
| FollowToggle.StartToggle | devlogsh/src/components/GetSuggestedUsers.jsx:90-101 | without a token only the error is set and no request goes out; otherwise DELETE exactly when the id is followed, POST otherwise, and the id joins the loading list |
| FollowToggle.Drop | devlogsh/src/components/GetSuggestedUsers.jsx:128 | every copy of the id leaves the loading list, and nothing else does |
| FollowToggle.DropFilters | devlogsh/src/components/GetSuggestedUsers.jsx:128 | the other ids stay in their order, each as often as before |
| FollowToggle.FinishToggle | devlogsh/src/components/GetSuggestedUsers.jsx:110-129 | on success the id's membership flips and no other id moves; on failure the set is kept and the error is the server's message or the fallback |
| FollowToggle.ToggleTwice | devlogsh/src/components/GetSuggestedUsers.jsx:97-124 | two accepted toggles give back the starting set |
| FollowToggle.FailedToggleKeepsSet | devlogsh/src/components/GetSuggestedUsers.jsx:110-127 | a failed toggle leaves the set as it was |

## Left out

- The handlers whose bodies are not among the files modelled are left out: `getTopPosts`, `getLatestPosts`, `getMyPosts`, `getPostsByUser`, `getFollowedPosts`, `incrementPostView`. So is the response body of the top-posts endpoint that the trending page reads, so `Feed` is generic in the post type.
- Password hashing, token signing and checking (`authController.js`, the JWT part of `passportStrategies.js`, the auth middleware) are left out: they are foreign cryptographic libraries. The caller id and role are parameters.
- `searchController.js` is left out: it relies on PostgreSQL full-text search, and the server mounts `routes/search.js` instead.
- Concurrency is left out: the check-then-insert races of the two suffix loops, `Promise.all`, and stale React closures. Every request and event is one sequential step.
- Floating point and formatting are left out: `numeric(3,2)` and `numeric(10,2)` rounding, `toFixed`, `Math.round` on the Views/Post card, `parseFloat`, and dates. Averages and percentages are exact reals.
- Feedbacks.AverageRating: states the exact mean, not the mean rounded to two decimals by `numeric(3,2)`, because the rounding is decimal formatting. The same holds for DashboardRoute.AverageOf and `numeric(10,2)`.
- Unicode is left out: `toLowerCase` lowers ASCII letters only, and strings are code-point sequences rather than UTF-16. `\s` and `trim` use the full JavaScript white-space set.
- SQL ordering is left out where the query has none (`getUserById`, the follow lists, the suggestion cards, the clash check): rows come in table order. Username order is code-point order, not a collation.
- Search.SearchAll: an array-valued `q` (`?q=a&q=b`) is not modelled; `q` is one string or missing.
- Search.LikeContains: proved for terms without `%`, `_` and `\`; a term holding them acts as a pattern in the store, and only `Like` itself models that.
- ValidateFeedback.Validate: fields are JSON numbers or missing; strings and other JSON values are left out. The middleware is also not mounted on any route.
- The `CHECK` on the rating column and the other table constraints the store enforces are left out, except the unique keys and serial ids the model keeps as invariants.
- Users.GetSuggestedUsers: the two id lists are inputs that satisfy what their queries promise; the popularity ranking itself is not computed. The handler never sends `is_following`, hence FollowToggle.NothingFollowedAtFirst.
- CommentTree.Forest: requires distinct positive ids (a serial primary key). That every comment appears at most once in the forest is not proved. A node's author name is not modelled.
- Feedbacks.GetFeedbackForPost: `post_id` is either a 32-bit integer or text PostgreSQL cannot cast to `integer` (not a number, or out of range), which fails the query with a 500; other database failures are left out. The same holds for Comments.GetCommentsByPost, Comments.Authorize and Feedbacks.DeleteFeedback.
- Integer width: ids are PostgreSQL `integer`. Ids taken from a path (`getUserById`, the follow handlers, comment and feedback ids, and the `post_id` of the feedback listing and average routes) go to the 500 branch outside [-2^31, 2^31). Ids read from a JSON body (`post_id`, `parent_comment_id`) and `LIMIT`/`OFFSET` values (`bigint`) are unbounded in the model: their out-of-range failures are not modelled, nor is JavaScript's rounding of numbers past 2^53.
- Comments.CommentsByPost: the listing a successful query returns; the 500 for a `post_id` that is no integer belongs to Comments.GetCommentsByPost.
- Feedbacks.PostEntriesNewestFirst: `created_at DESC` is proved for tables whose rows were inserted in creation order; rows with equal timestamps may come in either order in the store.
- Feed.Finish: a `null` or string JSON body is left out; the model has arrays and objects. On the trending page the spread of an object body throws inside the posts updater, outside the handler's `try`. The page then breaks instead of showing an error, which the `broken` flag records.
- All rendering, uploads to storage, debounce timers, random gradients, routing, and the remaining pages and components are left out: they are I/O and presentation.

Differences between the code and its documentation, where the model follows the code:

- `updatePost` and `deletePost` check no ownership: any authenticated caller may change any post.
- `createPost` stores no author, so the dashboard of a post's creator does not count that post.
- `generateUniqueSlug` tests `excludeSlug` for truthiness, so an empty current slug excludes nothing.

=== FILE: comment_tree.dfy ===
/** `buildCommentTree` of the comment list: the flat list the comments
    endpoint returns becomes a forest, one tree per top-level comment, each
    reply under the comment it answers, in the order of the list. */
module CommentTree {
  import opened Common
  import opened Schema

  datatype Node = Node(comment: Comment, replies: seq<Node>)

  /** `!c.parent_comment_id`: no parent, or the falsy id 0. */
  predicate IsRoot(c: Comment) {
    c.parentId.None? || c.parentId == Some(0)
  }

  /** `comments.filter((c) => !c.parent_comment_id)`. */
  function Roots(cs: seq<Comment>): (r: seq<Comment>)
    ensures |r| <= |cs|
    ensures forall c :: c in r <==> c in cs && IsRoot(c)
  {
    if cs == [] then []
    else (if IsRoot(cs[0]) then [cs[0]] else []) + Roots(cs[1..])
  }

  /** `comments.filter((c) => c.parent_comment_id === id)`. */
  function Children(cs: seq<Comment>, id: int): (r: seq<Comment>)
    ensures |r| <= |cs|
    ensures forall c :: c in r <==> c in cs && c.parentId == Some(id)
  {
    if cs == [] then []
    else (if cs[0].parentId == Some(id) then [cs[0]] else []) + Children(cs[1..], id)
  }

  /** `Roots` is that filter: every top-level comment, every occurrence, in
      list order, and nothing else. */
  lemma {:induction false} RootsFilters(cs: seq<Comment>)
    ensures Subsequence(Roots(cs), cs)
    ensures forall c :: multiset(Roots(cs))[c] == if IsRoot(c) then multiset(cs)[c] else 0
  {
    if cs != [] {
      assert cs == [cs[0]] + cs[1..];
      RootsFilters(cs[1..]);
      var t := Roots(cs[1..]);
      if IsRoot(cs[0]) {
        assert ([cs[0]] + t)[1..] == t;
      } else {
        assert [] + t == t;
      }
    }
  }

  /** `Children` is that filter: every reply to `id`, every occurrence, in
      list order, and nothing else. */
  lemma {:induction false} ChildrenFilters(cs: seq<Comment>, id: int)
    ensures Subsequence(Children(cs, id), cs)
    ensures forall c :: multiset(Children(cs, id))[c] == if c.parentId == Some(id) then multiset(cs)[c] else 0
  {
    if cs != [] {
      assert cs == [cs[0]] + cs[1..];
      ChildrenFilters(cs[1..], id);
      var t := Children(cs[1..], id);
      if cs[0].parentId == Some(id) {
        assert ([cs[0]] + t)[1..] == t;
      } else {
        assert [] + t == t;
      }
    }
  }

  /** What the endpoint's rows guarantee: ids come from a serial primary
      key, so they are distinct and positive. Without this the recursion of
      `addReplies` need not end (a comment 0 answering comment 0, or two rows
      sharing an id where one answers the other). */
  predicate WellFormed(cs: seq<Comment>) {
    && (forall i, j :: 0 <= i < j < |cs| ==> cs[i].id != cs[j].id)
    && (forall i :: 0 <= i < |cs| ==> cs[i].id > 0)
  }

  function IdSet(cs: seq<Comment>): set<int> {
    set c | c in cs :: c.id
  }

  /** A path from a top-level comment down through replies, defined from
      its last element back: each element answers the one before it, and no
      id repeats. */
  predicate Chain(cs: seq<Comment>, chain: seq<Comment>)
    decreases |chain|
  {
    && |chain| >= 1
    && chain[|chain| - 1] in cs
    && if |chain| == 1 then IsRoot(chain[0])
       else
         && Chain(cs, chain[..|chain| - 1])
         && chain[|chain| - 1].parentId == Some(chain[|chain| - 2].id)
         && chain[|chain| - 1].id !in IdSet(chain[..|chain| - 1])
  }

  /** The same path, stated position by position. */
  predicate Linked(cs: seq<Comment>, chain: seq<Comment>) {
    && |chain| >= 1
    && (forall i :: 0 <= i < |chain| ==> chain[i] in cs)
    && IsRoot(chain[0])
    && (forall i :: 1 <= i < |chain| ==> chain[i].parentId == Some(chain[i - 1].id))
    && (forall i, j :: 0 <= i < j < |chain| ==> chain[i].id != chain[j].id)
  }

  lemma {:induction false} ChainLinked(cs: seq<Comment>, chain: seq<Comment>)
    requires Chain(cs, chain)
    ensures Linked(cs, chain)
    decreases |chain|
  {
    var n := |chain|;
    if n > 1 {
      var front := chain[..n - 1];
      ChainLinked(cs, front);
      forall i | 0 <= i < n ensures chain[i] in cs {
        if i < n - 1 {
          assert chain[i] == front[i];
        }
      }
      forall i | 1 <= i < n ensures chain[i].parentId == Some(chain[i - 1].id) {
        if i < n - 1 {
          assert chain[i] == front[i] && chain[i - 1] == front[i - 1];
        }
      }
      forall i, j | 0 <= i < j < n ensures chain[i].id != chain[j].id {
        assert chain[i] == front[i];
        if j == n - 1 {
          assert front[i] in front;
        } else {
          assert chain[j] == front[j];
        }
      }
    }
  }

  lemma DistinctCommentsDistinctIds(cs: seq<Comment>, a: Comment, b: Comment)
    requires WellFormed(cs) && a in cs && b in cs && a != b
    ensures a.id != b.id
  {
    var i :| 0 <= i < |cs| && cs[i] == a;
    var j :| 0 <= j < |cs| && cs[j] == b;
    if i < j {
      assert cs[i].id != cs[j].id;
    } else {
      assert cs[j].id != cs[i].id;
    }
  }

  /** A reply to the last comment of a chain is never already on it: on a
      well-formed list the reply structure has no cycles reachable from a
      top-level comment, which is why the recursion of `addReplies` ends. */
  lemma ExtendChain(cs: seq<Comment>, chain: seq<Comment>, k: Comment)
    requires WellFormed(cs) && Chain(cs, chain)
    requires k in cs && k.parentId == Some(chain[|chain| - 1].id)
    ensures k.id !in IdSet(chain)
    ensures Chain(cs, chain + [k])
    ensures IdSet(chain + [k]) == IdSet(chain) + {k.id}
    ensures k.id in IdSet(cs)
  {
    var n := |chain|;
    var last := chain[n - 1];
    ChainLinked(cs, chain);
    var m :| 0 <= m < |cs| && cs[m] == last;
    assert last.id > 0;
    forall i | 0 <= i < n ensures chain[i].id != k.id {
      if i == 0 {
        assert !IsRoot(k);
      } else {
        assert chain[i - 1].id != last.id;
      }
      DistinctCommentsDistinctIds(cs, chain[i], k);
    }
    var ext := chain + [k];
    assert ext[..n] == chain;
    assert forall c :: c in ext <==> c in chain || c == k;
  }

  /** `addReplies` for the last comment of a chain. */
  function Build(cs: seq<Comment>, chain: seq<Comment>): (r: Node)
    requires WellFormed(cs) && Chain(cs, chain)
    ensures r.comment == chain[|chain| - 1]
    ensures |r.replies| == |Children(cs, chain[|chain| - 1].id)|
    ensures forall i :: 0 <= i < |r.replies| ==> r.replies[i].comment == Children(cs, chain[|chain| - 1].id)[i]
    decreases IdSet(cs) - IdSet(chain), 1, 0
  {
    var last := chain[|chain| - 1];
    Node(last, BuildAll(cs, chain, Children(cs, last.id)))
  }

  /** `.map((c) => addReplies(map, c.id))` over the replies of the chain's
      last comment. */
  function BuildAll(cs: seq<Comment>, chain: seq<Comment>, kids: seq<Comment>): (r: seq<Node>)
    requires WellFormed(cs) && Chain(cs, chain)
    requires forall k :: k in kids ==> k in cs && k.parentId == Some(chain[|chain| - 1].id)
    ensures |r| == |kids|
    ensures forall i :: 0 <= i < |r| ==> r[i].comment == kids[i]
    decreases IdSet(cs) - IdSet(chain), 0, |kids|
  {
    if kids == [] then []
    else
      assert Chain(cs, chain + [kids[0]]) && IdSet(cs) - IdSet(chain + [kids[0]]) < IdSet(cs) - IdSet(chain) by {
        ExtendChain(cs, chain, kids[0]);
      }
      [Build(cs, chain + [kids[0]])] + BuildAll(cs, chain, kids[1..])
  }

  /** `buildCommentTree`: one tree per top-level comment, in list order. */
  function Forest(cs: seq<Comment>): (r: seq<Node>)
    requires WellFormed(cs)
    ensures |r| == |Roots(cs)|
    ensures forall i :: 0 <= i < |r| ==> r[i].comment == Roots(cs)[i]
  {
    var roots := Roots(cs);
    seq(|roots|, i requires 0 <= i < |roots| => Build(cs, [roots[i]]))
  }

  /** The i-th reply tree is the tree built for the i-th reply. */
  lemma {:induction false} BuildAllAt(cs: seq<Comment>, chain: seq<Comment>, kids: seq<Comment>, i: nat)
    requires WellFormed(cs) && Chain(cs, chain)
    requires forall k :: k in kids ==> k in cs && k.parentId == Some(chain[|chain| - 1].id)
    requires i < |kids|
    ensures Chain(cs, chain + [kids[i]])
    ensures BuildAll(cs, chain, kids)[i] == Build(cs, chain + [kids[i]])
    decreases i
  {
    ExtendChain(cs, chain, kids[i]);
    if i > 0 {
      BuildAllAt(cs, chain, kids[1..], i - 1);
    }
  }

  /** `c` is the comment of `n` or of some node below it. */
  ghost predicate Appears(c: Comment, n: Node)
    decreases n
  {
    n.comment == c || exists j :: 0 <= j < |n.replies| && Appears(c, n.replies[j])
  }

  /** `c` can be reached from a top-level comment by following replies. */
  ghost predicate Reachable(cs: seq<Comment>, c: Comment) {
    exists chain :: Chain(cs, chain) && chain[|chain| - 1] == c
  }

  /** Every comment in a built tree is in the list and is reachable. */
  lemma {:induction false} BuildSound(cs: seq<Comment>, chain: seq<Comment>, c: Comment)
    requires WellFormed(cs) && Chain(cs, chain)
    requires Appears(c, Build(cs, chain))
    ensures Reachable(cs, c)
    decreases IdSet(cs) - IdSet(chain)
  {
    var n := Build(cs, chain);
    if n.comment == c {
      assert Chain(cs, chain) && chain[|chain| - 1] == c;
    } else {
      var j :| 0 <= j < |n.replies| && Appears(c, n.replies[j]);
      var kids := Children(cs, chain[|chain| - 1].id);
      assert kids[j] in kids;
      BuildAllAt(cs, chain, kids, j);
      ExtendChain(cs, chain, kids[j]);
      BuildSound(cs, chain + [kids[j]], c);
    }
  }

  /** Whatever appears under a reply's tree appears under its parent's. */
  lemma ReplyAppears(cs: seq<Comment>, chain: seq<Comment>, kid: Comment, c: Comment)
    requires WellFormed(cs) && Chain(cs, chain)
    requires kid in cs && kid.parentId == Some(chain[|chain| - 1].id)
    requires Chain(cs, chain + [kid]) && Appears(c, Build(cs, chain + [kid]))
    ensures Appears(c, Build(cs, chain))
  {
    var kids := Children(cs, chain[|chain| - 1].id);
    assert kid in kids;
    var j :| 0 <= j < |kids| && kids[j] == kid;
    BuildAllAt(cs, chain, kids, j);
    assert Build(cs, chain).replies[j] == Build(cs, chain + [kid]);
  }

  /** What appears in the tree of a chain's last comment appears in the
      tree of its first. */
  lemma {:induction false} UpChain(cs: seq<Comment>, chain: seq<Comment>, c: Comment)
    requires WellFormed(cs) && Chain(cs, chain)
    requires Appears(c, Build(cs, chain))
    ensures Chain(cs, [chain[0]])
    ensures Appears(c, Build(cs, [chain[0]]))
    decreases |chain|
  {
    var n := |chain|;
    if n == 1 {
      assert chain == [chain[0]];
    } else {
      var front := chain[..n - 1];
      var last := chain[n - 1];
      assert front + [last] == chain;
      ReplyAppears(cs, front, last, c);
      UpChain(cs, front, c);
      assert front[0] == chain[0];
    }
  }

  /** Every comment in the forest is reachable. */
  lemma ForestSound(cs: seq<Comment>, c: Comment, i: nat)
    requires WellFormed(cs) && i < |Forest(cs)| && Appears(c, Forest(cs)[i])
    ensures Reachable(cs, c)
  {
    var roots := Roots(cs);
    assert roots[i] in roots;
    assert Chain(cs, [roots[i]]);
    BuildSound(cs, [roots[i]], c);
  }

  /** Every reachable comment is in the forest, under the tree of the
      chain's first comment. */
  lemma ForestComplete(cs: seq<Comment>, chain: seq<Comment>)
    requires WellFormed(cs) && Chain(cs, chain)
    ensures exists i :: 0 <= i < |Forest(cs)| && Appears(chain[|chain| - 1], Forest(cs)[i])
  {
    var roots := Roots(cs);
    UpChain(cs, chain, chain[|chain| - 1]);
    assert chain[0] in roots;
    var i :| 0 <= i < |roots| && roots[i] == chain[0];
    assert Forest(cs)[i] == Build(cs, [chain[0]]);
  }

  /** In the forest exactly the reachable comments appear: a comment shows
      up under some top-level comment if and only if following its parents
      leads to a top-level comment without repeating an id. */
  lemma ForestIsReachable(cs: seq<Comment>, c: Comment)
    requires WellFormed(cs)
    ensures (exists i :: 0 <= i < |Forest(cs)| && Appears(c, Forest(cs)[i])) <==> Reachable(cs, c)
  {
    if i :| 0 <= i < |Forest(cs)| && Appears(c, Forest(cs)[i]) {
      ForestSound(cs, c, i);
    }
    if Reachable(cs, c) {
      var chain :| Chain(cs, chain) && chain[|chain| - 1] == c;
      ForestComplete(cs, chain);
    }
  }

  /** A reply whose parent is not in the list (deleted, or on another post)
      is dropped from the forest together with everything under it. */
  lemma OrphanDropped(cs: seq<Comment>, c: Comment)
    requires WellFormed(cs)
    requires c.parentId.Some? && c.parentId.value != 0
    requires forall d :: d in cs ==> d.id != c.parentId.value
    ensures forall i :: 0 <= i < |Forest(cs)| ==> !Appears(c, Forest(cs)[i])
  {
    forall chain | Chain(cs, chain) ensures chain[|chain| - 1] != c {
      ChainLinked(cs, chain);
      if |chain| > 1 {
        assert chain[|chain| - 2] in cs;
      }
    }
    ForestIsReachable(cs, c);
  }
}

=== FILE: comments.dfy ===
/** `createComment`, `getCommentsByPost`, `updateComment` and
    `deleteComment` over the `post_comments` table. The caller's id and role
    come from the token. */
module Comments {
  import opened Common
  import opened Schema

  const CommentNotFound := "Comment not found"
  const NotAuthorized := "Not authorized"
  const CommentDeleted := "Comment deleted"
  const InternalError := "Internal server error"

  predicate UniqueIds(rows: seq<Comment>) {
    forall i, j :: 0 <= i < j < |rows| ==> rows[i].id != rows[j].id
  }

  predicate IdsBelow(t: Table<Comment>) {
    forall i :: 0 <= i < |t.rows| ==> t.rows[i].id < t.nextId
  }

  /** `parent_comment_id || null`: a missing, null or zero parent makes a
      top-level comment. */
  function StoredParent(parent: Option<int>): (r: Option<int>)
    ensures r.None? <==> parent.None? || parent.value == 0
    ensures r.Some? ==> r == parent
  {
    if parent.Some? && parent.value != 0 then parent else None
  }

  /** `createComment`: appends the row and returns it with 201. */
  function CreateComment(t: Table<Comment>, post: int, caller: int, parent: Option<int>,
                         content: Option<string>, now: int): (r: Step<Table<Comment>, Comment>)
    ensures r.reply.Ok? && r.reply.status == 201
    ensures r.state == Table(t.rows + [r.reply.value], t.nextId + 1)
    ensures && r.reply.value.id == t.nextId && r.reply.value.postId == post
            && r.reply.value.userId == caller && r.reply.value.content == content
            && r.reply.value.parentId == StoredParent(parent)
    ensures UniqueIds(t.rows) && IdsBelow(t) ==> UniqueIds(r.state.rows) && IdsBelow(r.state)
  {
    var row := Comment(t.nextId, post, caller, StoredParent(parent), content, now, now);
    Step(Table(t.rows + [row], t.nextId + 1), Ok(201, row))
  }

  /** A comment row with its author's username. */
  datatype Entry = Entry(comment: Comment, username: string)

  function UserName(users: seq<User>, id: int): (r: Option<string>)
    ensures r.Some? <==> exists u :: u in users && u.id == id
  {
    if users == [] then None
    else if users[0].id == id then Some(users[0].username)
    else UserName(users[1..], id)
  }

  /** A row the handler returns: on the post, with an author that still
      exists (the inner join drops the others). */
  predicate Kept(users: seq<User>, post: int, c: Comment) {
    c.postId == post && UserName(users, c.userId).Some?
  }

  /** The positions among the first n rows of the kept rows, ascending. */
  function KeptPositions(rows: seq<Comment>, users: seq<User>, post: int, n: nat): (r: seq<nat>)
    requires n <= |rows|
    ensures forall i :: 0 <= i < |r| ==> r[i] < n && Kept(users, post, rows[r[i]])
    ensures forall i, j :: 0 <= i < j < |r| ==> r[i] < r[j]
    ensures forall k :: 0 <= k < n && Kept(users, post, rows[k]) ==> k in r
  {
    if n == 0 then []
    else KeptPositions(rows, users, post, n - 1) + (if Kept(users, post, rows[n - 1]) then [n - 1] else [])
  }

  /** The joined rows among the first n rows, oldest first. */
  function EntriesUpTo(rows: seq<Comment>, users: seq<User>, post: int, n: nat): (r: seq<Entry>)
    requires n <= |rows|
    ensures
      var pos := KeptPositions(rows, users, post, n);
      && |r| == |pos|
      && forall i :: 0 <= i < |r| ==>
           r[i].comment == rows[pos[i]] && UserName(users, r[i].comment.userId) == Some(r[i].username)
  {
    if n == 0 then []
    else
      var rest := EntriesUpTo(rows, users, post, n - 1);
      var c := rows[n - 1];
      match UserName(users, c.userId)
      case Some(name) => if c.postId == post then rest + [Entry(c, name)] else rest
      case None => rest
  }

  /** `getCommentsByPost`: the post's comments joined with their authors, in
      ascending `created_at`, which is insertion order. The result lists
      exactly the kept rows, each once, in table order. */
  function CommentsByPost(rows: seq<Comment>, users: seq<User>, post: int): (r: seq<Entry>)
    ensures
      var pos := KeptPositions(rows, users, post, |rows|);
      && |r| == |pos|
      && forall i :: 0 <= i < |r| ==>
           r[i].comment == rows[pos[i]] && UserName(users, r[i].comment.userId) == Some(r[i].username)
  {
    EntriesUpTo(rows, users, post, |rows|)
  }

  /** The `getCommentsByPost` handler. The post id goes to the store as
      text: `None` stands for a path segment that is not a 32-bit integer
      (not a number, or outside the range of `integer`), which the store
      rejects with a 500. */
  function GetCommentsByPost(rows: seq<Comment>, users: seq<User>, post: Option<Int4>): (r: Reply<seq<Entry>>)
    ensures post.None? ==> r == Fail(500, InternalError)
    ensures post.Some? ==> r.Ok? && r.status == 200 && r.value == CommentsByPost(rows, users, post.value)
    ensures r.Ok? ==> forall e :: e in r.value ==> e.comment in rows && Kept(users, post.value, e.comment)
  {
    match post
    case None => Fail(500, InternalError)
    case Some(p) =>
      var es := CommentsByPost(rows, users, p);
      assert forall e :: e in es ==> e.comment in rows && Kept(users, p, e.comment) by {
        var pos := KeptPositions(rows, users, p, |rows|);
        forall e | e in es ensures e.comment in rows && Kept(users, p, e.comment) {
          var i :| 0 <= i < |es| && es[i] == e;
          assert e.comment == rows[pos[i]];
        }
      }
      Ok(200, es)
  }

  /** Who may change a comment: its author, or anyone whose role is
      `admin`. */
  predicate MayModify(c: Comment, caller: int, role: Option<string>) {
    c.userId == caller || role == Some("admin")
  }

  function FindId(rows: seq<Comment>, id: int): (r: Option<nat>)
    ensures r.None? <==> forall i :: 0 <= i < |rows| ==> rows[i].id != id
    ensures r.Some? ==> r.value < |rows| && rows[r.value].id == id
  {
    if rows == [] then None
    else if rows[0].id == id then Some(0)
    else match FindId(rows[1..], id)
      case None => None
      case Some(i) => Some(i + 1)
  }

  /** The 404 / 403 gate both `updateComment` and `deleteComment` run; `None`
      for the id stands for a path segment that is not a 32-bit integer (not a
      number, or outside the range of `integer`), which the store rejects.
      On success it yields the index of the comment. */
  function Authorize(rows: seq<Comment>, id: Option<Int4>, caller: int, role: Option<string>): (r: Reply<nat>)
    ensures id.None? ==> r == Fail(500, InternalError)
    ensures id.Some? && FindId(rows, id.value).None? ==> r == Fail(404, CommentNotFound)
    ensures id.Some? && FindId(rows, id.value).Some? ==>
      (r.Ok? <==> MayModify(rows[FindId(rows, id.value).value], caller, role))
    ensures r.Fail? && id.Some? && FindId(rows, id.value).Some? ==> r == Fail(403, NotAuthorized)
    ensures r.Ok? ==> r.value < |rows| && id.Some? && rows[r.value].id == id.value
  {
    match id
    case None => Fail(500, InternalError)
    case Some(k) =>
      match FindId(rows, k)
      case None => Fail(404, CommentNotFound)
      case Some(i) => if MayModify(rows[i], caller, role) then Ok(200, i) else Fail(403, NotAuthorized)
  }

  /** `updateComment`: sets `content` and `updated_at` of the row with the
      id; nothing else changes. */
  function UpdateComment(t: Table<Comment>, id: Option<Int4>, caller: int, role: Option<string>,
                         content: Option<string>, now: int): (r: Step<Table<Comment>, Comment>)
    ensures Authorize(t.rows, id, caller, role).Fail? ==>
      r.state == t && r.reply.Fail? && r.reply.status == Authorize(t.rows, id, caller, role).status
    ensures Authorize(t.rows, id, caller, role).Ok? ==> r.reply.Ok?
    ensures r.reply.Ok? ==>
      && r.reply.status == 200
      && r.state.nextId == t.nextId
      && |r.state.rows| == |t.rows|
      && r.reply.value in r.state.rows
      && r.reply.value.id == id.value && r.reply.value.content == content && r.reply.value.updatedAt == now
      && forall i :: 0 <= i < |t.rows| ==>
           if t.rows[i].id == id.value
           then r.state.rows[i] == t.rows[i].(content := content, updatedAt := now)
           else r.state.rows[i] == t.rows[i]
  {
    match Authorize(t.rows, id, caller, role)
    case Fail(status, message) => Step(t, Fail(status, message))
    case Ok(_, i) =>
      var k := id.value;
      var rows' := seq(|t.rows|, j requires 0 <= j < |t.rows| =>
        if t.rows[j].id == k then t.rows[j].(content := content, updatedAt := now) else t.rows[j]);
      assert rows'[i] == t.rows[i].(content := content, updatedAt := now);
      Step(Table(rows', t.nextId), Ok(200, rows'[i]))
  }

  /** The rows whose id is not `id`. */
  function WithoutId(rows: seq<Comment>, id: int): (r: seq<Comment>)
    ensures forall c :: c in r <==> c in rows && c.id != id
    ensures |r| <= |rows|
  {
    if rows == [] then []
    else
      var rest := WithoutId(rows[1..], id);
      if rows[0].id == id then rest else [rows[0]] + rest
  }

  /** `WithoutId` is a filter: the rows with another id, every occurrence,
      in table order, and nothing else. */
  lemma {:induction false} WithoutIdFilters(rows: seq<Comment>, id: int)
    ensures Subsequence(WithoutId(rows, id), rows)
    ensures forall c :: multiset(WithoutId(rows, id))[c] == if c.id != id then multiset(rows)[c] else 0
  {
    if rows != [] {
      assert rows == [rows[0]] + rows[1..];
      WithoutIdFilters(rows[1..], id);
      var t := WithoutId(rows[1..], id);
      if rows[0].id != id {
        assert ([rows[0]] + t)[1..] == t;
      }
    }
  }

  /** Removing rows keeps the remaining ids distinct. */
  lemma {:induction false} WithoutKeepsUnique(rows: seq<Comment>, id: int)
    requires UniqueIds(rows)
    ensures UniqueIds(WithoutId(rows, id))
  {
    if rows != [] {
      var rest := WithoutId(rows[1..], id);
      WithoutKeepsUnique(rows[1..], id);
      if rows[0].id != id {
        var r := [rows[0]] + rest;
        forall i, j | 0 <= i < j < |r| ensures r[i].id != r[j].id {
          assert r[j] == rest[j - 1] && r[j] in rows[1..];
          if i == 0 {
            var k :| 0 <= k < |rows[1..]| && rows[1..][k] == r[j];
            assert rows[k + 1] == r[j];
          } else {
            assert r[i] == rest[i - 1];
          }
        }
      }
    }
  }

  /** `deleteComment`: removes the comment with the id, and nothing else. */
  function DeleteComment(t: Table<Comment>, id: Option<Int4>, caller: int, role: Option<string>):
    (r: Step<Table<Comment>, string>)
    ensures Authorize(t.rows, id, caller, role).Fail? ==>
      r.state == t && r.reply.Fail? && r.reply.status == Authorize(t.rows, id, caller, role).status
    ensures Authorize(t.rows, id, caller, role).Ok? ==> r.reply.Ok?
    ensures r.reply.Ok? ==>
      && r.reply == Ok(200, CommentDeleted)
      && r.state.nextId == t.nextId
      && (forall c :: c in r.state.rows <==> c in t.rows && c.id != id.value)
      && Subsequence(r.state.rows, t.rows)
      && (forall c :: multiset(r.state.rows)[c] == if c.id != id.value then multiset(t.rows)[c] else 0)
      && (UniqueIds(t.rows) ==> |r.state.rows| == |t.rows| - 1 && UniqueIds(r.state.rows))
  {
    match Authorize(t.rows, id, caller, role)
    case Fail(status, message) => Step(t, Fail(status, message))
    case Ok(_, i) =>
      var rows' := WithoutId(t.rows, id.value);
      WithoutIdFilters(t.rows, id.value);
      assert UniqueIds(t.rows) ==> |rows'| == |t.rows| - 1 by {
        if UniqueIds(t.rows) { WithoutUniqueCount(t.rows, i); }
      }
      assert UniqueIds(t.rows) ==> UniqueIds(rows') by {
        if UniqueIds(t.rows) { WithoutKeepsUnique(t.rows, id.value); }
      }
      Step(Table(rows', t.nextId), Ok(200, CommentDeleted))
  }

  lemma {:induction false} WithoutUniqueCount(rows: seq<Comment>, i: nat)
    requires UniqueIds(rows) && i < |rows|
    ensures |WithoutId(rows, rows[i].id)| == |rows| - 1
  {
    if i == 0 {
      WithoutAbsent(rows[1..], rows[0].id);
    } else {
      WithoutUniqueCount(rows[1..], i - 1);
    }
  }

  lemma {:induction false} WithoutAbsent(rows: seq<Comment>, id: int)
    requires forall c :: c in rows ==> c.id != id
    ensures WithoutId(rows, id) == rows
  {
    if rows != [] {
      assert rows[0] in rows;
      WithoutAbsent(rows[1..], id);
    }
  }

  /** A caller who neither wrote the comment nor is an admin can change
      nothing: both handlers answer 403 and leave the table as it was. */
  lemma StrangerChangesNothing(t: Table<Comment>, id: Int4, caller: int, role: Option<string>,
                               content: Option<string>, now: int)
    requires FindId(t.rows, id).Some?
    requires !MayModify(t.rows[FindId(t.rows, id).value], caller, role)
    ensures UpdateComment(t, Some(id), caller, role, content, now) == Step(t, Fail(403, NotAuthorized))
    ensures DeleteComment(t, Some(id), caller, role) == Step(t, Fail(403, NotAuthorized))
  {
  }
}

=== FILE: common.dfy ===
/** Shared vocabulary of the model: optional values, the result of JavaScript's
    `parseInt`, HTTP replies, and the few JavaScript string operations the
    handlers and pages use (`toLowerCase` on ASCII, `trim`, `split`, `join`). */
module Common {

  datatype Option<T> = None | Some(value: T)

  /** The value `parseInt` produces: `NaN` or an integer. */
  datatype Parsed = NaN | Int(value: int)

  /** PostgreSQL `integer`, the type of every `SERIAL` key and of the
      columns that refer to one: the store refuses a value outside
      [-2^31, 2^31) with an error. */
  const Int4Min := -0x8000_0000
  const Int4Max := 0x7fff_ffff

  predicate IsInt4(n: int) {
    Int4Min <= n <= Int4Max
  }

  type Int4 = n: int | IsInt4(n)

  /** A parsed number the store accepts as an `integer`. */
  predicate FitsInt4(p: Parsed) {
    p.Int? && IsInt4(p.value)
  }

  /** JavaScript truthiness of a parsed number: `NaN` and `0` are falsy. */
  predicate Truthy(p: Parsed) {
    p.Int? && p.value != 0
  }

  /** JavaScript truthiness of an optional string: absent and `''` are falsy. */
  predicate Present(s: Option<string>) {
    s.Some? && s.value != ""
  }

  /** `parseInt(x) || fallback`. */
  function OrElse(p: Parsed, fallback: int): (r: int)
    ensures Truthy(p) ==> r == p.value
    ensures !Truthy(p) ==> r == fallback
  {
    if Truthy(p) then p.value else fallback
  }

  /** An HTTP reply: a success carrying a JSON body, or an error carrying the
      message of its `{ error: … }` body. */
  datatype Reply<T> = Ok(status: nat, value: T) | Fail(status: nat, message: string)

  /** What a handler leaves behind: the tables after the request and the reply. */
  datatype Step<S, T> = Step(state: S, reply: Reply<T>)

  function Min(a: int, b: int): int {
    if a <= b then a else b
  }

  /** The rows a query with `LIMIT limit OFFSET offset` returns from `rows`. */
  function Window<T>(rows: seq<T>, offset: nat, limit: nat): (r: seq<T>)
    ensures |r| == if offset >= |rows| then 0 else Min(limit, |rows| - offset)
    ensures forall i :: 0 <= i < |r| ==> r[i] == rows[offset + i]
  {
    if offset >= |rows| then [] else rows[offset..Min(offset + limit, |rows|)]
  }

  /** `(page - 1) * limit`, the first row of a page. */
  function PageOffset(page: int, limit: int): (r: int)
    ensures page >= 1 && limit >= 0 ==> r >= 0
    ensures page == 1 ==> r == 0
  {
    (page - 1) * limit
  }

  function Reverse<T>(s: seq<T>): (r: seq<T>)
    ensures |r| == |s|
    ensures forall i :: 0 <= i < |s| ==> r[i] == s[|s| - 1 - i]
  {
    seq(|s|, i requires 0 <= i < |s| => s[|s| - 1 - i])
  }

  /** The characters JavaScript's `trim` removes and `\s` matches: the
      Unicode white space characters and the line terminators. */
  predicate IsJsSpace(c: char) {
    var n := c as int;
    || (0x09 <= n <= 0x0D) || n == 0x20 || n == 0xA0 || n == 0x1680
    || (0x2000 <= n <= 0x200A) || n == 0x2028 || n == 0x2029
    || n == 0x202F || n == 0x205F || n == 0x3000 || n == 0xFEFF
  }

  /** `toLowerCase` restricted to ASCII: `A`-`Z` become `a`-`z`, every other
      character is kept. */
  function LowerChar(c: char): char {
    if 'A' <= c <= 'Z' then (c as int + 32) as char else c
  }

  function Lower(s: string): (r: string)
    ensures |r| == |s|
    ensures forall i :: 0 <= i < |s| ==> r[i] == LowerChar(s[i])
    ensures forall c :: c in r ==> !('A' <= c <= 'Z')
  {
    seq(|s|, i requires 0 <= i < |s| => LowerChar(s[i]))
  }

  /** `r` is `s` with some elements left out and the others in their order,
      as a filter leaves it. */
  predicate Subsequence<T(==)>(r: seq<T>, s: seq<T>)
    decreases |s|
  {
    if r == [] then true
    else if s == [] then false
    else (r[0] == s[0] && Subsequence(r[1..], s[1..])) || Subsequence(r, s[1..])
  }

  /** Dropping one element leaves a subsequence. */
  lemma {:induction false} DropOne<T>(s: seq<T>, i: nat)
    requires i < |s|
    ensures Subsequence(s[..i] + s[i + 1..], s)
  {
    var r := s[..i] + s[i + 1..];
    if i == 0 {
      assert r == s[1..];
      SubsequenceSelf(s[1..]);
    } else {
      assert r[1..] == s[1..][..i - 1] + s[1..][i..];
      DropOne(s[1..], i - 1);
      assert r[0] == s[0];
    }
  }

  /** Dropping one element takes one occurrence of it out of the multiset. */
  lemma DropOneCounts<T>(s: seq<T>, i: nat)
    requires i < |s|
    ensures multiset(s[..i] + s[i + 1..]) == multiset(s) - multiset{s[i]}
  {
    assert s == s[..i] + [s[i]] + s[i + 1..];
  }

  /** The multiset of a sequence is that of its front plus its last element. */
  lemma SnocCounts<T>(s: seq<T>)
    requires s != []
    ensures multiset(s) == multiset(s[..|s| - 1]) + multiset{s[|s| - 1]}
  {
    assert s == s[..|s| - 1] + [s[|s| - 1]];
  }

  lemma {:induction false} SubsequenceSelf<T>(s: seq<T>)
    ensures Subsequence(s, s)
  {
    if s != [] {
      SubsequenceSelf(s[1..]);
    }
  }

  /** Appending the same element to both sides keeps a subsequence, and so
      does appending it to the larger side only. */
  lemma {:induction false} SubsequenceSnoc<T>(r: seq<T>, s: seq<T>, x: T)
    requires Subsequence(r, s)
    ensures Subsequence(r, s + [x]) && Subsequence(r + [x], s + [x])
    decreases |s|
  {
    if s == [] {
      assert [x][1..] == [];
    } else {
      assert (s + [x])[0] == s[0] && (s + [x])[1..] == s[1..] + [x];
      if r == [] {
        SubsequenceSnoc(r, s[1..], x);
        assert r + [x] == [x];
      } else if r[0] == s[0] && Subsequence(r[1..], s[1..]) {
        SubsequenceSnoc(r[1..], s[1..], x);
        assert (r + [x])[0] == r[0] && (r + [x])[1..] == r[1..] + [x];
      } else {
        SubsequenceSnoc(r, s[1..], x);
      }
    }
  }

  /** The position of the first occurrence of `x` in `s`. */
  function FirstIndex<T(==)>(s: seq<T>, x: T): (i: nat)
    requires x in s
    ensures i < |s| && s[i] == x
  {
    if s[0] == x then 0 else 1 + FirstIndex(s[1..], x)
  }

  lemma {:induction false} FirstIndexIsFirst<T>(s: seq<T>, x: T)
    requires x in s
    ensures forall j :: 0 <= j < FirstIndex(s, x) ==> s[j] != x
  {
    if s[0] != x {
      FirstIndexIsFirst(s[1..], x);
      assert forall j :: 1 <= j < |s| ==> s[j] == s[1..][j - 1];
    }
  }

  /** Every element of `r` occurs in `s`, and `r` lists them in the order of
      their first occurrences in `s`. */
  predicate InFirstOccurrenceOrder<T(==)>(r: seq<T>, s: seq<T>) {
    && (forall x :: x in r ==> x in s)
    && forall i, j :: 0 <= i < j < |r| ==> FirstIndex(s, r[i]) < FirstIndex(s, r[j])
  }

  /** Order by first occurrence in `s` survives putting `s[0]` in front, and
      survives measuring in `s` rather than its tail. */
  lemma OrderAfterHead<T>(t: seq<T>, s: seq<T>)
    requires s != [] && s[0] !in t
    requires InFirstOccurrenceOrder(t, s[1..])
    ensures InFirstOccurrenceOrder(t, s)
    ensures InFirstOccurrenceOrder([s[0]] + t, s)
  {
    forall x | x in t ensures x in s && FirstIndex(s, x) == 1 + FirstIndex(s[1..], x) {
    }
    var r := [s[0]] + t;
    forall i, j | 0 <= i < j < |r| ensures FirstIndex(s, r[i]) < FirstIndex(s, r[j]) {
      assert r[j] == t[j - 1];
      if i > 0 {
        assert r[i] == t[i - 1];
      }
    }
  }

  /** The number of white space characters `trim` removes at the front. */
  function Leading(s: string): (k: nat)
    ensures k <= |s|
    ensures forall i :: 0 <= i < k ==> IsJsSpace(s[i])
    ensures k < |s| ==> !IsJsSpace(s[k])
  {
    if s != [] && IsJsSpace(s[0]) then 1 + Leading(s[1..]) else 0
  }

  /** Where the trailing white space after position `lo` begins. */
  function TrailingFrom(s: string, lo: nat): (e: nat)
    requires lo <= |s|
    ensures lo <= e <= |s|
    ensures forall i :: e <= i < |s| ==> IsJsSpace(s[i])
    ensures e > lo ==> !IsJsSpace(s[e - 1])
    decreases |s|
  {
    if |s| > lo && IsJsSpace(s[|s| - 1]) then TrailingFrom(s[..|s| - 1], lo) else |s|
  }

  /** JavaScript's `String.prototype.trim`. */
  function Trim(s: string): (r: string)
    ensures |r| <= |s|
    ensures r != [] ==> !IsJsSpace(r[0]) && !IsJsSpace(r[|r| - 1])
    ensures r == [] <==> forall i :: 0 <= i < |s| ==> IsJsSpace(s[i])
    ensures forall c :: c in r ==> c in s
    ensures s != [] && !IsJsSpace(s[0]) && !IsJsSpace(s[|s| - 1]) ==> r == s
    ensures exists k, e ::
      && 0 <= k <= e <= |s| && r == s[k..e]
      && (forall i :: 0 <= i < k ==> IsJsSpace(s[i]))
      && (forall i :: e <= i < |s| ==> IsJsSpace(s[i]))
  {
    var k := Leading(s);
    var e := TrailingFrom(s, k);
    var r := s[k..e];
    assert r == [] ==> e == k;
    assert forall c :: c in r ==> c in s by {
      forall c | c in r ensures c in s {
        var j :| 0 <= j < |r| && r[j] == c;
        assert s[k + j] == c;
      }
    }
    r
  }

  /** `s.split(sep)`: the pieces between separators, always at least one. */
  function Split(s: string, sep: char): (r: seq<string>)
    ensures |r| >= 1
    ensures forall i :: 0 <= i < |r| ==> sep !in r[i]
    ensures Join(r, sep) == s
  {
    if s == [] then [""]
    else
      var rest := Split(s[1..], sep);
      if s[0] == sep then [""] + rest
      else [[s[0]] + rest[0]] + rest[1..]
  }

  /** `pieces.join(sep)`. */
  function Join(pieces: seq<string>, sep: char): string
    requires |pieces| >= 1
  {
    if |pieces| == 1 then pieces[0] else pieces[0] + [sep] + Join(pieces[1..], sep)
  }

  /** Splitting a join of separator-free pieces gives the pieces back. */
  lemma {:induction false} SplitJoin(pieces: seq<string>, sep: char)
    requires |pieces| >= 1
    requires forall i :: 0 <= i < |pieces| ==> sep !in pieces[i]
    ensures Split(Join(pieces, sep), sep) == pieces
  {
    if |pieces| == 1 {
      SplitNoSeparator(pieces[0], sep);
    } else {
      SplitJoin(pieces[1..], sep);
      SplitPrefix(pieces[0], Join(pieces[1..], sep), sep);
    }
  }

  lemma {:induction false} SplitNoSeparator(s: string, sep: char)
    requires sep !in s
    ensures Split(s, sep) == [s]
  {
    if s != [] {
      SplitNoSeparator(s[1..], sep);
    }
  }

  lemma {:induction false} SplitPrefix(p: string, rest: string, sep: char)
    requires sep !in p
    ensures Split(p + [sep] + rest, sep) == [p] + Split(rest, sep)
  {
    if p == [] {
      assert p + [sep] + rest == [sep] + rest;
      assert ([sep] + rest)[1..] == rest;
    } else {
      assert (p + [sep] + rest)[1..] == p[1..] + [sep] + rest;
      SplitPrefix(p[1..], rest, sep);
      assert [p[0]] + p[1..] == p;
    }
  }

  function Sum(s: seq<int>): int {
    if s == [] then 0 else s[0] + Sum(s[1..])
  }

  lemma MulSucc(n: int, x: int)
    ensures (n + 1) * x == n * x + x
  {
  }

  /** Values between `lo` and `hi` sum to between `|s| * lo` and `|s| * hi`. */
  lemma {:induction false} SumBounds(s: seq<int>, lo: int, hi: int)
    requires forall x :: x in s ==> lo <= x <= hi
    ensures |s| * lo <= Sum(s) <= |s| * hi
  {
    if s != [] {
      assert forall x :: x in s[1..] ==> x in s;
      SumBounds(s[1..], lo, hi);
      assert s[0] in s;
      MulSucc(|s| - 1, lo);
      MulSucc(|s| - 1, hi);
    }
  }

  /** `m` is the mean of a non-empty `s`: taken once per element, it gives
      the sum. */
  predicate IsMean(m: real, s: seq<int>) {
    s != [] && m * (|s| as real) == Sum(s) as real
  }

  /** The arithmetic mean, as SQL's `AVG` computes it over a non-empty
      column. */
  function Average(s: seq<int>): (r: real)
    requires s != []
    ensures IsMean(r, s)
  {
    (Sum(s) as real) / (|s| as real)
  }

  /** The mean of values between `lo` and `hi` lies between them. */
  lemma AverageBounds(s: seq<int>, lo: int, hi: int)
    requires s != []
    requires forall x :: x in s ==> lo <= x <= hi
    ensures lo as real <= Average(s) <= hi as real
  {
    SumBounds(s, lo, hi);
    assert IsMean(Average(s), s);
    MeanBounds(Average(s), |s|, Sum(s), lo, hi);
  }

  lemma MeanBounds(a: real, n: int, sum: int, lo: int, hi: int)
    requires n > 0 && a * (n as real) == sum as real
    requires n * lo <= sum <= n * hi
    ensures lo as real <= a <= hi as real
  {
    MulCast(n, lo);
    MulCast(n, hi);
    QuotientBounds(a, n as real, lo as real, hi as real);
  }

  lemma MulCast(a: int, b: int)
    ensures (a * b) as real == (a as real) * (b as real)
  {
  }

  lemma QuotientBounds(a: real, n: real, lo: real, hi: real)
    requires n > 0.0
    requires n * lo <= a * n <= n * hi
    ensures lo <= a <= hi
  {
  }
}

=== FILE: dashboard_route.dfy ===
/** The GET handler of the dashboard route: the caller's posts (table
    order), their count, the sum of their views, one label per post, and
    the average rating over their feedback. */
module DashboardRoute {
  import opened Common
  import opened Schema

  /** One bar of the views chart. */
  datatype Bar = Bar(title: string, views: int)

  /** `avg_rating || "0.00"`: `NoRatings` is the `"0.00"` answer; the
      `numeric(10, 2)` rounding of the mean is not modelled. */
  datatype AvgRating = NoRatings | Mean(value: real)

  datatype Summary = Summary(totalViews: int, postCount: nat, avgRating: AvgRating, viewsPerPost: seq<Bar>)

  const LabelWidth := 12

  /** Titles longer than 12 characters are cut to 12 and get `...`. */
  function Label(title: string): (r: string)
    ensures |r| <= LabelWidth + 3
    ensures |title| <= LabelWidth ==> r == title
    ensures |title| > LabelWidth ==>
      |r| == LabelWidth + 3 && r[..LabelWidth] == title[..LabelWidth] && r[LabelWidth..] == "..."
  {
    if |title| > LabelWidth then title[..LabelWidth] + "..." else title
  }

  /** `SELECT id, title, view_count FROM posts WHERE author_id = $1`. */
  function Authored(rows: seq<Post>, caller: int): (r: seq<Post>)
    ensures forall p :: p in r <==> p in rows && p.authorId == Some(caller)
    ensures |r| <= |rows|
  {
    if rows == [] then []
    else
      var last := rows[|rows| - 1];
      assert forall p :: p in rows <==> p in rows[..|rows| - 1] || p == last;
      Authored(rows[..|rows| - 1], caller) + (if last.authorId == Some(caller) then [last] else [])
  }

  function SumViews(posts: seq<Post>): int {
    if posts == [] then 0 else posts[0].viewCount + SumViews(posts[1..])
  }

  function SumBars(bars: seq<Bar>): int {
    if bars == [] then 0 else bars[0].views + SumBars(bars[1..])
  }

  /** `SELECT id FROM posts WHERE author_id = $1`. */
  function AuthoredIds(rows: seq<Post>, caller: int): set<int> {
    set p | p in rows && p.authorId == Some(caller) :: p.id
  }

  /** `WHERE post_id IN (…)`: the feedback rows on one of the posts. */
  function Rated(feedback: seq<Feedback>, ids: set<int>): (r: seq<Feedback>)
    ensures forall f :: f in r <==> f in feedback && f.postId in ids
  {
    if feedback == [] then []
    else (if feedback[0].postId in ids then [feedback[0]] else []) + Rated(feedback[1..], ids)
  }

  /** `Rated` is that filter: every row on one of the posts, every
      occurrence, in table order, and nothing else. */
  lemma {:induction false} RatedFilters(feedback: seq<Feedback>, ids: set<int>)
    ensures Subsequence(Rated(feedback, ids), feedback)
    ensures forall f :: multiset(Rated(feedback, ids))[f] == if f.postId in ids then multiset(feedback)[f] else 0
  {
    if feedback != [] {
      assert feedback == [feedback[0]] + feedback[1..];
      RatedFilters(feedback[1..], ids);
      var t := Rated(feedback[1..], ids);
      if feedback[0].postId in ids {
        assert ([feedback[0]] + t)[1..] == t;
      } else {
        assert [] + t == t;
      }
    }
  }

  /** The ratings `AVG(rating)` runs over. */
  function Ratings(feedback: seq<Feedback>, ids: set<int>): (r: seq<int>)
    ensures |r| <= |feedback|
    ensures forall x :: x in r ==> exists f :: f in feedback && f.postId in ids && f.rating == x
  {
    if feedback == [] then []
    else (if feedback[0].postId in ids then [feedback[0].rating] else []) + Ratings(feedback[1..], ids)
  }

  /** They are the `rating` column of the rated rows. */
  lemma {:induction false} RatingsOfRated(feedback: seq<Feedback>, ids: set<int>)
    ensures Ratings(feedback, ids) == RatingColumn(Rated(feedback, ids))
  {
    if feedback != [] {
      RatingsOfRated(feedback[1..], ids);
      var t := Rated(feedback[1..], ids);
      if feedback[0].postId in ids {
        assert Rated(feedback, ids) == [feedback[0]] + t;
        RatingColumnCons(feedback[0], t);
      } else {
        assert Rated(feedback, ids) == t;
      }
    }
  }

  /** `AVG` of the ratings, `"0.00"` when there are none. */
  function AverageOf(rs: seq<int>): (r: AvgRating)
    ensures r.NoRatings? <==> rs == []
    ensures r.Mean? ==> IsMean(r.value, rs)
    ensures r.Mean? && (forall x :: x in rs ==> 1 <= x <= 5) ==> 1.0 <= r.value <= 5.0
  {
    if rs == [] then NoRatings
    else
      assert (forall x :: x in rs ==> 1 <= x <= 5) ==> 1.0 <= Average(rs) <= 5.0 by {
        if forall x :: x in rs ==> 1 <= x <= 5 {
          AverageBounds(rs, 1, 5);
        }
      }
      Mean(Average(rs))
  }

  /** The dashboard of `caller`. */
  function Dashboard(posts: seq<Post>, feedback: seq<Feedback>, caller: int): (r: Summary)
    ensures r.postCount == |Authored(posts, caller)|
    ensures |r.viewsPerPost| == r.postCount
    ensures forall i :: 0 <= i < r.postCount ==>
      var p := Authored(posts, caller)[i];
      r.viewsPerPost[i] == Bar(Label(p.title), p.viewCount)
    ensures r.totalViews == SumBars(r.viewsPerPost)
    ensures r.avgRating.NoRatings? <==>
      forall f :: f in feedback ==> forall p :: p in posts && p.authorId == Some(caller) ==> f.postId != p.id
    ensures r.avgRating == AverageOf(Ratings(feedback, AuthoredIds(posts, caller)))
  {
    var mine := Authored(posts, caller);
    var bars := seq(|mine|, i requires 0 <= i < |mine| => Bar(Label(mine[i].title), mine[i].viewCount));
    var ids := AuthoredIds(posts, caller);
    var rs := Ratings(feedback, ids);
    RatingsEmpty(feedback, ids);
    BarsSum(mine, bars);
    Summary(SumViews(mine), |mine|, AverageOf(rs), bars)
  }

  /** Ratings the validator admits give a dashboard average between 1
      and 5. */
  lemma DashboardAverageBounds(posts: seq<Post>, feedback: seq<Feedback>, caller: int)
    requires forall f :: f in feedback ==> 1 <= f.rating <= 5
    ensures Dashboard(posts, feedback, caller).avgRating.Mean? ==>
      1.0 <= Dashboard(posts, feedback, caller).avgRating.value <= 5.0
  {
    var rs := Ratings(feedback, AuthoredIds(posts, caller));
    assert forall x :: x in rs ==> 1 <= x <= 5;
  }

  lemma {:induction false} RatingsEmpty(feedback: seq<Feedback>, ids: set<int>)
    ensures Ratings(feedback, ids) == [] <==> forall f :: f in feedback ==> f.postId !in ids
  {
    if feedback != [] {
      RatingsEmpty(feedback[1..], ids);
      assert forall f :: f in feedback <==> f == feedback[0] || f in feedback[1..];
    }
  }

  /** The total is the sum over the bars: the labels change, the views do
      not. */
  lemma {:induction false} BarsSum(posts: seq<Post>, bars: seq<Bar>)
    requires |bars| == |posts|
    requires forall i :: 0 <= i < |posts| ==> bars[i].views == posts[i].viewCount
    ensures SumViews(posts) == SumBars(bars)
  {
    if posts != [] {
      BarsSum(posts[1..], bars[1..]);
    }
  }

  function AuthoredRows(rows: seq<Post>, caller: int): set<int> {
    set i | 0 <= i < |rows| && rows[i].authorId == Some(caller)
  }

  lemma AuthoredSnoc(rows: seq<Post>, p: Post, caller: int)
    ensures Authored(rows + [p], caller) ==
      Authored(rows, caller) + (if p.authorId == Some(caller) then [p] else [])
  {
    assert (rows + [p])[..|rows|] == rows;
  }

  /** `Authored` is that filter: every row of the caller, every
      occurrence, in table order, and nothing else. */
  lemma {:induction false} AuthoredFilters(rows: seq<Post>, caller: int)
    ensures Subsequence(Authored(rows, caller), rows)
    ensures
      forall p :: multiset(Authored(rows, caller))[p] == (if p.authorId == Some(caller) then multiset(rows)[p] else 0)
  {
    if rows != [] {
      var front := rows[..|rows| - 1];
      var last := rows[|rows| - 1];
      assert rows == front + [last];
      AuthoredFilters(front, caller);
      AuthoredSnoc(front, last, caller);
      var t := Authored(front, caller);
      SubsequenceSnoc(t, front, last);
      SnocCounts(rows);
      if last.authorId != Some(caller) {
        assert t + [] == t;
      }
    }
  }

  /** The count is the number of rows authored by the caller, counted
      independently as a set of row positions. */
  lemma {:induction false} PostCountIsAuthoredRows(rows: seq<Post>, caller: int)
    ensures |Authored(rows, caller)| == |AuthoredRows(rows, caller)|
  {
    if rows == [] {
      assert AuthoredRows(rows, caller) == {};
    } else {
      var n := |rows| - 1;
      var front := rows[..n];
      var last := rows[n];
      assert rows == front + [last];
      PostCountIsAuthoredRows(front, caller);
      AuthoredSnoc(front, last, caller);
      var before := AuthoredRows(front, caller);
      var after := AuthoredRows(rows, caller);
      assert forall i :: i in after <==> i in before || (i == n && last.authorId == Some(caller));
      if last.authorId == Some(caller) {
        assert after == before + {n};
      } else {
        assert after == before;
      }
    }
  }

  /** Views never go negative, so neither does the total. */
  lemma {:induction false} TotalViewsNonNegative(posts: seq<Post>, feedback: seq<Feedback>, caller: int)
    requires forall p :: p in posts ==> p.viewCount >= 0
    ensures Dashboard(posts, feedback, caller).totalViews >= 0
  {
    var mine := Authored(posts, caller);
    SumNonNegative(mine);
    var r := Dashboard(posts, feedback, caller);
    BarsSum(mine, r.viewsPerPost);
  }

  lemma {:induction false} SumNonNegative(posts: seq<Post>)
    requires forall p :: p in posts ==> p.viewCount >= 0
    ensures SumViews(posts) >= 0
  {
    if posts != [] {
      assert posts[0] in posts;
      assert forall p :: p in posts[1..] ==> p in posts;
      SumNonNegative(posts[1..]);
    }
  }
}

=== FILE: feed.dfy ===
/** The infinite-scroll `fetchMorePosts` of the trending page and of the
    following feed: one state record, a start step that may issue a
    request for the current page, and a finish step that applies its
    answer. The two pages differ only in their messages and in how a JSON
    object body (not an array) is treated. */
module Feed {
  import opened Common

  const PageSize := 6

  datatype Source = Trending | Following

  /** The page's state hooks, and `broken`: a state updater has thrown, so
      the next render fails. */
  datatype State<P> = State(posts: seq<P>, page: nat, hasMore: bool, loading: bool, error: Option<string>,
                            broken: bool)

  function Init<P>(): State<P> {
    State([], 1, true, false, None, false)
  }

  /** How a request ends: a JSON array, a JSON object, a non-OK status, or a
      thrown error (network, JSON parse) with its message. */
  datatype Answer<P> = Rows(items: seq<P>) | NotArray | NotOk | Thrown(message: string)

  const TrendingFailed := "Failed to fetch posts"
  const FollowingFailed := "Failed to fetch followed posts"
  const Unexpected := "Unexpected response format"

  /** `fetchMorePosts` up to the request: nothing while loading or when
      there is nothing more; otherwise `loading` is set and the current page
      is requested. */
  function Start<P>(s: State<P>): (r: (State<P>, Option<nat>))
    ensures s.loading || !s.hasMore ==> r == (s, None)
    ensures !s.loading && s.hasMore ==> r == (s.(loading := true), Some(s.page))
  {
    if s.loading || !s.hasMore then (s, None) else (s.(loading := true), Some(s.page))
  }

  /** Whether the answer is caught as a failure: every answer but an array,
      except an object on the trending page, which that page does not
      check. */
  predicate Failed<P>(src: Source, a: Answer<P>) {
    !a.Rows? && !(a.NotArray? && src == Trending)
  }

  /** The message a failed answer leaves in `error`. */
  function FailureMessage<P>(src: Source, a: Answer<P>): string
    requires Failed(src, a)
  {
    match a
    case NotOk => if src == Trending then TrendingFailed else FollowingFailed
    case NotArray => Unexpected
    case Thrown(m) => m
  }

  /** The rest of `fetchMorePosts`: an array is appended, `hasMore` becomes
      "the page was full" and the page number moves on; a failure only sets
      `error`. The trending page spreads an object body inside the posts
      updater, where the throw escapes the handler: `hasMore` becomes
      `data.length === 6`, false for an object, the page moves on, and the
      page breaks. `loading` is cleared either way; a stale `error` is never
      cleared. */
  function Finish<P>(src: Source, s: State<P>, a: Answer<P>): (r: State<P>)
    ensures !r.loading
    ensures a.Rows? ==>
      && r.posts == s.posts + a.items
      && r.page == s.page + 1
      && (r.hasMore <==> |a.items| == PageSize)
      && r.error == s.error && r.broken == s.broken
    ensures Failed(src, a) ==>
      && r.posts == s.posts && r.page == s.page && r.hasMore == s.hasMore
      && r.error == Some(FailureMessage(src, a)) && r.broken == s.broken
    ensures a.NotArray? && src == Trending ==>
      && r.posts == s.posts && r.page == s.page + 1 && !r.hasMore
      && r.error == s.error && r.broken
  {
    match a
    case Rows(items) => s.(posts := s.posts + items, page := s.page + 1, hasMore := |items| == PageSize, loading := false)
    case _ =>
      if Failed(src, a) then s.(loading := false, error := Some(FailureMessage(src, a)))
      else s.(page := s.page + 1, hasMore := false, loading := false, broken := true)
  }

  /** What can happen to the page: the sentinel scrolls into view, or the
      pending request ends. */
  datatype Event<P> = Scroll | Arrive(answer: Answer<P>)

  /** One event. An answer only lands while a request is pending. */
  function Next<P>(src: Source, s: State<P>, e: Event<P>): State<P> {
    match e
    case Scroll => Start(s).0
    case Arrive(a) => if s.loading then Finish(src, s, a) else s
  }

  function Run<P>(src: Source, s: State<P>, es: seq<Event<P>>): State<P>
    decreases |es|
  {
    if es == [] then s else Run(src, Next(src, s, es[0]), es[1..])
  }

  /** The states the page can reach: a request is only pending while there
      is more, and every page fetched so far was full while there is more to
      fetch. */
  predicate Counted<P>(s: State<P>) {
    && s.page >= 1
    && (s.loading ==> s.hasMore)
    && (s.hasMore ==> |s.posts| == PageSize * (s.page - 1))
  }

  /** `hasMore` never comes back once it is false, and from then on the
      posts and the page number stay as they are. */
  lemma {:induction false} EndIsFinal<P>(src: Source, s: State<P>, es: seq<Event<P>>)
    requires Counted(s) && !s.hasMore
    ensures
      var t := Run(src, s, es);
      !t.hasMore && t.posts == s.posts && t.page == s.page
    decreases |es|
  {
    if es != [] {
      var n := Next(src, s, es[0]);
      assert n == s;
      EndIsFinal(src, n, es[1..]);
    }
  }

  /** From the initial state, as long as there is more, the posts are
      exactly the full pages fetched so far. */
  lemma {:induction false} CountedHolds<P>(src: Source, s: State<P>, es: seq<Event<P>>)
    requires Counted(s)
    ensures Counted(Run(src, s, es))
    decreases |es|
  {
    if es != [] {
      var n := Next(src, s, es[0]);
      assert Counted(n) by {
        if es[0].Arrive? && s.loading && es[0].answer.Rows? && n.hasMore {
          assert |n.posts| == |s.posts| + PageSize;
          assert PageSize * (n.page - 1) == PageSize * (s.page - 1) + PageSize;
        }
      }
      CountedHolds(src, n, es[1..]);
    }
  }

  lemma InitCounted<P>()
    ensures Counted(Init<P>())
  {
  }

  /** A scroll while a request is pending issues no second request. */
  lemma NoDoubleRequest<P>(s: State<P>)
    ensures Start(Start(s).0).1 == None
  {
  }
}

=== FILE: feedback.dfy ===
/** `createFeedback`, `getFeedbackForPost`, `deleteFeedback` and
    `getAverageRating` over the `post_feedback` table, whose rows are unique
    on the pair (post, user). The caller id comes from the token. */
module Feedbacks {
  import opened Common
  import opened Schema

  const InvalidPagination := "Invalid pagination parameters"
  const FeedbackNotFound := "Feedback not found"
  const NotOwner := "Unauthorized to delete this feedback"
  const InternalError := "Internal server error"

  /** The table invariant `UNIQUE (post_id, user_id)` and the `SERIAL` ids. */
  predicate UniqueKeys(rows: seq<Feedback>) {
    forall i, j :: 0 <= i < j < |rows| ==>
      (rows[i].postId, rows[i].userId) != (rows[j].postId, rows[j].userId) && rows[i].id != rows[j].id
  }

  predicate IdsBelow(t: Table<Feedback>) {
    forall i :: 0 <= i < |t.rows| ==> t.rows[i].id < t.nextId
  }

  /** `comment || null`: an empty comment is stored as `NULL`. */
  function StoredComment(comment: Option<string>): (r: Option<string>)
    ensures r.Some? <==> Present(comment)
    ensures r.Some? ==> r == comment
  {
    if Present(comment) then comment else None
  }

  /** The row of `(post, user)`, if any. */
  function FindKey(rows: seq<Feedback>, post: int, user: int): (r: Option<nat>)
    ensures r.None? <==> forall i :: 0 <= i < |rows| ==> (rows[i].postId, rows[i].userId) != (post, user)
    ensures r.Some? ==> r.value < |rows| && rows[r.value].postId == post && rows[r.value].userId == user
    ensures r.Some? ==> forall i :: 0 <= i < r.value ==> (rows[i].postId, rows[i].userId) != (post, user)
  {
    if rows == [] then None
    else if rows[0].postId == post && rows[0].userId == user then Some(0)
    else match FindKey(rows[1..], post, user)
      case None => None
      case Some(i) => Some(i + 1)
  }

  /** The first row of a key is the one `FindKey` finds. */
  lemma FindKeyAt(rows: seq<Feedback>, post: int, user: int, i: nat)
    requires i < |rows| && rows[i].postId == post && rows[i].userId == user
    requires forall j :: 0 <= j < i ==> (rows[j].postId, rows[j].userId) != (post, user)
    ensures FindKey(rows, post, user) == Some(i)
  {
  }

  /** `createFeedback`: `INSERT … ON CONFLICT (post_id, user_id) DO UPDATE`
      sets the rating, the comment and `updated_at` of the existing row, or
      appends a new one; either way the row comes back with 201. The `SERIAL`
      default is drawn before the conflict is detected, so the counter moves
      on both paths. */
  function CreateFeedback(t: Table<Feedback>, post: int, caller: int, rating: int,
                          comment: Option<string>, now: int): (r: Step<Table<Feedback>, Feedback>)
    requires UniqueKeys(t.rows) && IdsBelow(t)
    ensures UniqueKeys(r.state.rows) && IdsBelow(r.state)
    ensures r.reply.Ok? && r.reply.status == 201
    ensures r.reply.value in r.state.rows
    ensures && r.reply.value.postId == post && r.reply.value.userId == caller
            && r.reply.value.rating == rating && r.reply.value.comment == StoredComment(comment)
    ensures FindKey(t.rows, post, caller).Some? ==>
      var i := FindKey(t.rows, post, caller).value;
      && r.state == Table(t.rows[i := r.reply.value], t.nextId + 1)
      && r.reply.value.id == t.rows[i].id && r.reply.value.createdAt == t.rows[i].createdAt
    ensures FindKey(t.rows, post, caller).None? ==>
      && r.state == Table(t.rows + [r.reply.value], t.nextId + 1)
      && r.reply.value.id == t.nextId && r.reply.value.createdAt == now
    ensures r.reply.value.updatedAt == now
  {
    match FindKey(t.rows, post, caller)
    case Some(i) =>
      var row := t.rows[i].(rating := rating, comment := StoredComment(comment), updatedAt := now);
      var rows' := t.rows[i := row];
      assert UniqueKeys(rows') by {
        forall a, b | 0 <= a < b < |rows'|
          ensures (rows'[a].postId, rows'[a].userId) != (rows'[b].postId, rows'[b].userId) && rows'[a].id != rows'[b].id
        {
          assert (rows'[a].postId, rows'[a].userId, rows'[a].id) == (t.rows[a].postId, t.rows[a].userId, t.rows[a].id);
          assert (rows'[b].postId, rows'[b].userId, rows'[b].id) == (t.rows[b].postId, t.rows[b].userId, t.rows[b].id);
        }
      }
      assert rows'[i] == row;
      Step(Table(rows', t.nextId + 1), Ok(201, row))
    case None =>
      var row := Feedback(t.nextId, post, caller, rating, StoredComment(comment), now, now);
      Step(Table(t.rows + [row], t.nextId + 1), Ok(201, row))
  }

  /** Submitting twice leaves the rows as one submission of the second
      rating and comment would: resubmitting overwrites. Only the id counter
      differs, having been drawn twice. */
  lemma ResubmitOverwrites(t: Table<Feedback>, post: int, caller: int, r1: int, c1: Option<string>,
                           r2: int, c2: Option<string>, now: int)
    requires UniqueKeys(t.rows) && IdsBelow(t)
    ensures
      var first := CreateFeedback(t, post, caller, r1, c1, now);
      var second := CreateFeedback(first.state, post, caller, r2, c2, now);
      && |second.state.rows| == |first.state.rows|
      && second.reply.value.id == first.reply.value.id
      && second.reply.value.rating == r2
      && second.reply.value.comment == StoredComment(c2)
      && second.state.rows == CreateFeedback(t, post, caller, r2, c2, now).state.rows
      && second.state.nextId == t.nextId + 2
  {
    if FindKey(t.rows, post, caller).Some? {
      ResubmitAfterUpdate(t, post, caller, r1, c1, r2, c2, now);
    } else {
      ResubmitAfterInsert(t, post, caller, r1, c1, r2, c2, now);
    }
  }

  lemma ResubmitAfterUpdate(t: Table<Feedback>, post: int, caller: int, r1: int, c1: Option<string>,
                            r2: int, c2: Option<string>, now: int)
    requires UniqueKeys(t.rows) && IdsBelow(t)
    requires FindKey(t.rows, post, caller).Some?
    ensures
      var first := CreateFeedback(t, post, caller, r1, c1, now);
      var second := CreateFeedback(first.state, post, caller, r2, c2, now);
      var direct := CreateFeedback(t, post, caller, r2, c2, now);
      && FindKey(first.state.rows, post, caller) == FindKey(t.rows, post, caller)
      && second.reply == direct.reply
      && second.state.rows == direct.state.rows
  {
    var i := FindKey(t.rows, post, caller).value;
    var first := CreateFeedback(t, post, caller, r1, c1, now);
    assert first.state.rows == t.rows[i := first.reply.value];
    FindKeyAt(first.state.rows, post, caller, i);
    var second := CreateFeedback(first.state, post, caller, r2, c2, now);
    var direct := CreateFeedback(t, post, caller, r2, c2, now);
    assert second.reply.value == direct.reply.value;
    assert t.rows[i := first.reply.value][i := second.reply.value] == t.rows[i := direct.reply.value];
  }

  lemma ResubmitAfterInsert(t: Table<Feedback>, post: int, caller: int, r1: int, c1: Option<string>,
                            r2: int, c2: Option<string>, now: int)
    requires UniqueKeys(t.rows) && IdsBelow(t)
    requires FindKey(t.rows, post, caller).None?
    ensures
      var first := CreateFeedback(t, post, caller, r1, c1, now);
      var second := CreateFeedback(first.state, post, caller, r2, c2, now);
      var direct := CreateFeedback(t, post, caller, r2, c2, now);
      && FindKey(first.state.rows, post, caller) == Some(|t.rows|)
      && second.reply.value == direct.reply.value.(id := second.reply.value.id)
      && second.reply.value.id == t.nextId
      && second.state.rows == direct.state.rows
  {
    var n := |t.rows|;
    var first := CreateFeedback(t, post, caller, r1, c1, now);
    var second := CreateFeedback(first.state, post, caller, r2, c2, now);
    var direct := CreateFeedback(t, post, caller, r2, c2, now);
    assert first.state.rows[n] == first.reply.value;
    assert forall j :: 0 <= j < n ==> first.state.rows[j] == t.rows[j];
    assert FindKey(first.state.rows, post, caller) == Some(n);
    assert second.reply.value == direct.reply.value;
    assert (t.rows + [first.reply.value])[n := second.reply.value] == t.rows + [direct.reply.value];
  }

  /** A pagination query value: absent (the default applies) or the
      `parseInt` of the given string. */
  function QueryInt(q: Option<Parsed>, default: int): Parsed {
    match q
    case None => Int(default)
    case Some(p) => p
  }

  /** A feedback row with the author's username, as the join returns it. */
  datatype Entry = Entry(feedback: Feedback, username: string)

  datatype Pagination = Pagination(total: nat, page: int, totalPages: nat, limit: int)

  datatype FeedbackPage = FeedbackPage(feedback: seq<Entry>, pagination: Pagination)

  /** `Math.ceil(total / limit)` for a positive limit. */
  function CeilDiv(total: nat, limit: nat): (r: nat)
    requires limit >= 1
    ensures r * limit >= total
    ensures r > 0 ==> (r - 1) * limit < total
    ensures r == 0 <==> total == 0
  {
    (total + limit - 1) / limit
  }

  function UserName(users: seq<User>, id: int): (r: Option<string>)
    ensures r.Some? <==> exists u :: u in users && u.id == id
    ensures r.Some? ==> exists u :: u in users && u.id == id && u.username == r.value
  {
    if users == [] then None
    else if users[0].id == id then Some(users[0].username)
    else UserName(users[1..], id)
  }

  /** The joined rows of one post, newest first (`created_at DESC` is the
      reverse of insertion order). Rows whose author is gone drop out of the
      inner join. */
  function PostEntries(rows: seq<Feedback>, users: seq<User>, post: int): (r: seq<Entry>)
    ensures |r| <= |rows|
  {
    if rows == [] then []
    else
      var last := rows[|rows| - 1];
      var rest := PostEntries(rows[..|rows| - 1], users, post);
      match UserName(users, last.userId)
      case Some(name) => if last.postId == post then [Entry(last, name)] + rest else rest
      case None => rest
  }

  /** Rows are appended as they are created, so their `created_at` never
      decreases along the table. */
  predicate CreatedInOrder(rows: seq<Feedback>) {
    forall i, j :: 0 <= i < j < |rows| ==> rows[i].createdAt <= rows[j].createdAt
  }

  /** `ORDER BY pf.created_at DESC`: newest first, when the table is in
      creation order. */
  lemma {:induction false} PostEntriesNewestFirst(rows: seq<Feedback>, users: seq<User>, post: int)
    ensures CreatedInOrder(rows) ==> NewestFirst(PostEntries(rows, users, post))
  {
    if rows != [] && CreatedInOrder(rows) {
      var init := rows[..|rows| - 1];
      var last := rows[|rows| - 1];
      assert CreatedInOrder(init);
      PostEntriesNewestFirst(init, users, post);
      PostEntriesExact(init, users, post);
      var rest := PostEntries(init, users, post);
      var name := UserName(users, last.userId);
      if name.Some? && last.postId == post {
        forall e | e in rest ensures e.feedback.createdAt <= last.createdAt {
          var k :| 0 <= k < |init| && init[k] == e.feedback;
          assert rows[k] == init[k];
        }
        NewestInFront(Entry(last, name.value), rest);
      }
    }
  }

  predicate NewestFirst(r: seq<Entry>) {
    forall i, j :: 0 <= i < j < |r| ==> r[i].feedback.createdAt >= r[j].feedback.createdAt
  }

  lemma NewestInFront(e: Entry, rest: seq<Entry>)
    requires NewestFirst(rest)
    requires forall x :: x in rest ==> x.feedback.createdAt <= e.feedback.createdAt
    ensures NewestFirst([e] + rest)
  {
    var r := [e] + rest;
    forall i, j | 0 <= i < j < |r| ensures r[i].feedback.createdAt >= r[j].feedback.createdAt {
      assert r[j] == rest[j - 1] && rest[j - 1] in rest;
      if i > 0 {
        assert r[i] == rest[i - 1];
      }
    }
  }

  /** The entries are exactly the post's rows whose author exists, each with
      that author's name. */
  lemma {:induction false} PostEntriesExact(rows: seq<Feedback>, users: seq<User>, post: int)
    ensures forall e :: e in PostEntries(rows, users, post) ==>
      && e.feedback in rows && e.feedback.postId == post
      && UserName(users, e.feedback.userId) == Some(e.username)
    ensures forall f :: f in rows && f.postId == post && UserName(users, f.userId).Some? ==>
      exists e :: e in PostEntries(rows, users, post) && e.feedback == f
  {
    if rows != [] {
      var init := rows[..|rows| - 1];
      PostEntriesExact(init, users, post);
      assert forall f :: f in rows ==> f == rows[|rows| - 1] || f in init;
      assert forall f :: f in init ==> f in rows;
    }
  }

  /** The feedback rows behind the entries. */
  function EntryRows(es: seq<Entry>): (r: seq<Feedback>)
    ensures |r| == |es| && forall i :: 0 <= i < |es| ==> r[i] == es[i].feedback
  {
    seq(|es|, i requires 0 <= i < |es| => es[i].feedback)
  }

  /** Whether the join keeps a row for `post`: it is on the post and its
      author still exists. */
  predicate Joined(users: seq<User>, post: int, f: Feedback) {
    f.postId == post && UserName(users, f.userId).Some?
  }

  /** One step of the join: the last row goes in front when it is kept. */
  lemma PostEntriesSnoc(rows: seq<Feedback>, users: seq<User>, post: int)
    requires rows != []
    ensures EntryRows(PostEntries(rows, users, post)) ==
      (if Joined(users, post, rows[|rows| - 1]) then [rows[|rows| - 1]] else [])
      + EntryRows(PostEntries(rows[..|rows| - 1], users, post))
  {
    if Joined(users, post, rows[|rows| - 1]) {
      SnocKept(rows, users, post);
    } else {
      SnocDropped(rows, users, post);
    }
  }

  lemma SnocKept(rows: seq<Feedback>, users: seq<User>, post: int)
    requires rows != [] && Joined(users, post, rows[|rows| - 1])
    ensures EntryRows(PostEntries(rows, users, post)) ==
      [rows[|rows| - 1]] + EntryRows(PostEntries(rows[..|rows| - 1], users, post))
  {
    var last := rows[|rows| - 1];
    var rest := PostEntries(rows[..|rows| - 1], users, post);
    var e := Entry(last, UserName(users, last.userId).value);
    assert PostEntries(rows, users, post) == [e] + rest;
    EntryRowsCons(e, rest);
  }

  lemma SnocDropped(rows: seq<Feedback>, users: seq<User>, post: int)
    requires rows != [] && !Joined(users, post, rows[|rows| - 1])
    ensures PostEntries(rows, users, post) == PostEntries(rows[..|rows| - 1], users, post)
  {
  }

  lemma EntryRowsCons(e: Entry, es: seq<Entry>)
    ensures EntryRows([e] + es) == [e.feedback] + EntryRows(es)
  {
    assert EntryRows([e] + es)[1..] == EntryRows(es);
  }

  /** The join keeps the order of the table read from its end:
      last-inserted first. */
  lemma {:induction false} PostEntriesOrder(rows: seq<Feedback>, users: seq<User>, post: int)
    ensures Subsequence(EntryRows(PostEntries(rows, users, post)), Reverse(rows))
  {
    if rows != [] {
      var init := rows[..|rows| - 1];
      var last := rows[|rows| - 1];
      PostEntriesOrder(init, users, post);
      PostEntriesSnoc(rows, users, post);
      var rest := EntryRows(PostEntries(init, users, post));
      var back := Reverse(rows);
      assert back[0] == last;
      assert back[1..] == Reverse(init);
      if Joined(users, post, last) {
        assert ([last] + rest)[1..] == rest;
      } else {
        assert [] + rest == rest;
      }
    }
  }

  /** The join is a filter: every row of the post whose author exists, as
      often as it occurs in the table, and nothing else. */
  lemma {:induction false} PostEntriesCounts(rows: seq<Feedback>, users: seq<User>, post: int)
    ensures forall f ::
      multiset(EntryRows(PostEntries(rows, users, post)))[f] == (if Joined(users, post, f) then multiset(rows)[f] else 0)
  {
    if rows != [] {
      var init := rows[..|rows| - 1];
      var last := rows[|rows| - 1];
      SnocCounts(rows);
      PostEntriesCounts(init, users, post);
      PostEntriesSnoc(rows, users, post);
      var rest := EntryRows(PostEntries(init, users, post));
      var head: seq<Feedback> := if Joined(users, post, last) then [last] else [];
      var joined := head + rest;
      assert multiset(joined) == multiset(head) + multiset(rest);
      forall f ensures multiset(joined)[f] == if Joined(users, post, f) then multiset(rows)[f] else 0 {
        if f == last {
          assert multiset(head)[f] == if Joined(users, post, f) then 1 else 0;
        } else {
          assert multiset(head)[f] == 0;
        }
      }
    }
  }

  /** `SELECT COUNT(*) … WHERE post_id = $1`. */
  function CountPost(rows: seq<Feedback>, post: int): (r: nat)
    ensures r <= |rows|
    ensures r == 0 <==> forall i :: 0 <= i < |rows| ==> rows[i].postId != post
  {
    if rows == [] then 0
    else (if rows[0].postId == post then 1 else 0) + CountPost(rows[1..], post)
  }

  /** The `post_id` column. */
  function PostIds(rows: seq<Feedback>): (r: seq<int>)
    ensures |r| == |rows| && forall i :: 0 <= i < |rows| ==> r[i] == rows[i].postId
  {
    seq(|rows|, i requires 0 <= i < |rows| => rows[i].postId)
  }

  /** The count is the number of rows of the post, authors gone or not. */
  lemma {:induction false} CountPostExact(rows: seq<Feedback>, post: int)
    ensures CountPost(rows, post) == multiset(PostIds(rows))[post]
  {
    if rows != [] {
      CountPostExact(rows[1..], post);
      assert PostIds(rows) == [rows[0].postId] + PostIds(rows[1..]);
    }
  }

  /** One page of a post's feedback, for validated `page` and `limit`: the
      rows from offset `(page - 1) * limit`, and the page count
      `Math.ceil(total / limit)` over all the post's rows. */
  function FeedbackPageOf(rows: seq<Feedback>, users: seq<User>, post: int, page: int, limit: int): (r: FeedbackPage)
    requires page >= 1 && limit >= 1
    ensures
      var p := r.pagination;
      var all := PostEntries(rows, users, post);
      var offset := PageOffset(page, limit);
      && p.page == page && p.limit == limit
      && p.total == CountPost(rows, post)
      && p.totalPages == CeilDiv(p.total, limit)
      && |r.feedback| == (if offset >= |all| then 0 else Min(limit, |all| - offset))
      && (forall i :: 0 <= i < |r.feedback| ==> offset + i < |all| && r.feedback[i] == all[offset + i])
  {
    var all := PostEntries(rows, users, post);
    var offset := PageOffset(page, limit);
    var window := Window(all, offset, limit);
    var total := CountPost(rows, post);
    FeedbackPage(window, Pagination(total, page, CeilDiv(total, limit), limit))
  }

  /** `getFeedbackForPost`: both query values are checked before any query.
      The post id goes to the store as text: `None` stands for a path segment
      that is not a 32-bit integer (not a number, or outside the range of
      `integer`), which the store rejects. */
  function GetFeedbackForPost(rows: seq<Feedback>, users: seq<User>, post: Option<Int4>,
                              pageQuery: Option<Parsed>, limitQuery: Option<Parsed>): (r: Reply<FeedbackPage>)
    ensures
      var page := QueryInt(pageQuery, 1);
      var limit := QueryInt(limitQuery, 10);
      var invalid := page.NaN? || limit.NaN? || page.value < 1 || limit.value < 1;
      && (invalid ==> r == Fail(400, InvalidPagination))
      && (!invalid && post.None? ==> r == Fail(500, InternalError))
      && (r.Ok? <==> !invalid && post.Some?)
      && (r.Ok? ==> r == Ok(200, FeedbackPageOf(rows, users, post.value, page.value, limit.value)))
    ensures pageQuery.None? && limitQuery.None? && post.Some? ==>
      r.Ok? && r.value.pagination.page == 1 && r.value.pagination.limit == 10
  {
    var page := QueryInt(pageQuery, 1);
    var limit := QueryInt(limitQuery, 10);
    if page.NaN? || limit.NaN? || page.value < 1 || limit.value < 1 then Fail(400, InvalidPagination)
    else if post.None? then Fail(500, InternalError)
    else Ok(200, FeedbackPageOf(rows, users, post.value, page.value, limit.value))
  }

  function FindId(rows: seq<Feedback>, id: int): (r: Option<nat>)
    ensures r.None? <==> forall i :: 0 <= i < |rows| ==> rows[i].id != id
    ensures r.Some? ==> r.value < |rows| && rows[r.value].id == id
  {
    if rows == [] then None
    else if rows[0].id == id then Some(0)
    else match FindId(rows[1..], id)
      case None => None
      case Some(i) => Some(i + 1)
  }

  /** The rows without the one at index i. */
  function RemoveAt(rows: seq<Feedback>, i: nat): (r: seq<Feedback>)
    requires i < |rows| && UniqueKeys(rows)
    ensures |r| == |rows| - 1
    ensures forall f :: f in r <==> f in rows && f.id != rows[i].id
    ensures UniqueKeys(r)
    ensures Subsequence(r, rows)
    ensures multiset(r) == multiset(rows) - multiset{rows[i]}
  {
    RemoveAtKeeps(rows, i);
    DropOne(rows, i);
    DropOneCounts(rows, i);
    rows[..i] + rows[i + 1..]
  }

  lemma RemoveAtKeeps(rows: seq<Feedback>, i: nat)
    requires i < |rows| && UniqueKeys(rows)
    ensures forall f :: f in rows[..i] + rows[i + 1..] <==> f in rows && f.id != rows[i].id
    ensures UniqueKeys(rows[..i] + rows[i + 1..])
  {
    var rest := rows[..i] + rows[i + 1..];
    assert forall j :: 0 <= j < |rest| ==> rest[j] == rows[if j < i then j else j + 1];
    forall f | f in rows && f.id != rows[i].id ensures f in rest {
      var j :| 0 <= j < |rows| && rows[j] == f;
      if j < i { assert rest[j] == f; } else { assert rest[j - 1] == f; }
    }
  }

  /** `deleteFeedback`. The id goes to the store as text: `None` stands for
      a path segment that is not a 32-bit integer (not a number, or outside
      the range of `integer`), which the store rejects. */
  function DeleteFeedback(t: Table<Feedback>, id: Option<Int4>, caller: int): (r: Step<Table<Feedback>, Feedback>)
    requires UniqueKeys(t.rows)
    ensures id.None? ==> r == Step(t, Fail(500, InternalError))
    ensures id.Some? && FindId(t.rows, id.value).None? ==> r == Step(t, Fail(404, FeedbackNotFound))
    ensures id.Some? && FindId(t.rows, id.value).Some? && t.rows[FindId(t.rows, id.value).value].userId != caller ==>
      r == Step(t, Fail(403, NotOwner))
    ensures id.Some? && FindId(t.rows, id.value).Some? && t.rows[FindId(t.rows, id.value).value].userId == caller ==>
      r.reply.Ok? && r.reply.value == t.rows[FindId(t.rows, id.value).value]
    ensures r.reply.Ok? ==>
      && r.reply.status == 200
      && r.reply.value in t.rows && r.reply.value.id == id.value && r.reply.value.userId == caller
      && r.state.nextId == t.nextId
      && |r.state.rows| == |t.rows| - 1
      && (forall f :: f in r.state.rows <==> f in t.rows && f.id != id.value)
      && Subsequence(r.state.rows, t.rows)
      && multiset(r.state.rows) == multiset(t.rows) - multiset{r.reply.value}
      && UniqueKeys(r.state.rows)
  {
    match id
    case None => Step(t, Fail(500, InternalError))
    case Some(k) =>
      match FindId(t.rows, k)
      case None => Step(t, Fail(404, FeedbackNotFound))
      case Some(i) =>
        if t.rows[i].userId != caller then Step(t, Fail(403, NotOwner))
        else
          var rest := RemoveAt(t.rows, i);
          Step(Table(rest, t.nextId), Ok(200, t.rows[i]))
  }

  /** `WHERE post_id = $1`: the post's rows, in table order. */
  function OnPost(rows: seq<Feedback>, post: int): (r: seq<Feedback>)
    ensures forall f :: f in r <==> f in rows && f.postId == post
  {
    if rows == [] then []
    else (if rows[0].postId == post then [rows[0]] else []) + OnPost(rows[1..], post)
  }

  /** `OnPost` is that filter: the post's rows, every occurrence, in table
      order, and nothing else; there are as many as the count says. */
  lemma {:induction false} OnPostFilters(rows: seq<Feedback>, post: int)
    ensures Subsequence(OnPost(rows, post), rows)
    ensures forall f :: multiset(OnPost(rows, post))[f] == if f.postId == post then multiset(rows)[f] else 0
  {
    if rows != [] {
      assert rows == [rows[0]] + rows[1..];
      OnPostFilters(rows[1..], post);
      var t := OnPost(rows[1..], post);
      if rows[0].postId == post {
        assert ([rows[0]] + t)[1..] == t;
      } else {
        assert [] + t == t;
      }
    }
  }

  /** The post's ratings, in table order. */
  function Ratings(rows: seq<Feedback>, post: int): (r: seq<int>)
    ensures |r| == CountPost(rows, post)
    ensures forall x :: x in r ==> exists f :: f in rows && f.postId == post && f.rating == x
  {
    if rows == [] then []
    else (if rows[0].postId == post then [rows[0].rating] else []) + Ratings(rows[1..], post)
  }

  /** They are the `rating` column of the post's rows. */
  lemma {:induction false} RatingsOfPost(rows: seq<Feedback>, post: int)
    ensures Ratings(rows, post) == RatingColumn(OnPost(rows, post))
  {
    if rows != [] {
      RatingsOfPost(rows[1..], post);
      var t := OnPost(rows[1..], post);
      if rows[0].postId == post {
        assert OnPost(rows, post) == [rows[0]] + t;
        RatingColumnCons(rows[0], t);
      } else {
        assert OnPost(rows, post) == t;
      }
    }
  }

  /** `getAverageRating`: the mean of the post's ratings, or 0 when it has
      none (`AVG` of no rows is `NULL`). As in `getFeedbackForPost`, the post
      id goes to the store as text, and `None` stands for a path segment
      that is not a 32-bit integer, which the store rejects. */
  function AverageRating(rows: seq<Feedback>, post: Option<Int4>): (r: Reply<real>)
    ensures post.None? <==> r.Fail?
    ensures r.Fail? ==> r == Fail(500, InternalError)
    ensures r.Ok? ==> r.status == 200
    ensures post.Some? && CountPost(rows, post.value) == 0 ==> r == Ok(200, 0.0)
    ensures post.Some? && CountPost(rows, post.value) > 0 ==> IsMean(r.value, Ratings(rows, post.value))
    ensures post.Some? && CountPost(rows, post.value) > 0 &&
            (forall f :: f in rows && f.postId == post.value ==> 1 <= f.rating <= 5) ==>
      1.0 <= r.value <= 5.0
  {
    if post.None? then Fail(500, InternalError)
    else
      var rs := Ratings(rows, post.value);
      if rs == [] then Ok(200, 0.0)
      else
        ValidRatingsAverage(rows, post.value);
        Ok(200, Average(rs))
  }

  lemma ValidRatingsAverage(rows: seq<Feedback>, post: int)
    requires Ratings(rows, post) != []
    ensures (forall f :: f in rows && f.postId == post ==> 1 <= f.rating <= 5) ==>
      1.0 <= Average(Ratings(rows, post)) <= 5.0
  {
    if forall f :: f in rows && f.postId == post ==> 1 <= f.rating <= 5 {
      AverageBounds(Ratings(rows, post), 1, 5);
    }
  }

}

=== FILE: follow_toggle.dfy ===
/** The suggested-users panel: which cards show "following", and
    `handleFollowToggle`, which sends a follow or unfollow request and then
    flips the card. */
module FollowToggle {
  import opened Common

  /** A suggested user as the panel receives it; `isFollowing` is false when
      the field is missing, and the suggestions endpoint never sends it. */
  datatype Suggested = Suggested(id: int, isFollowing: bool)

  datatype Panel = Panel(followingIds: set<int>, loadingIds: seq<int>, error: Option<string>)

  const NotLoggedIn := "You must be logged in"
  const UpdateFailed := "Failed to update follow status"

  /** `new Set(users.filter((u) => u.is_following).map((u) => u.id))`. */
  function InitialFollowing(users: seq<Suggested>): (r: set<int>)
    ensures forall x :: x in r <==> exists u :: u in users && u.isFollowing && u.id == x
  {
    set u | u in users && u.isFollowing :: u.id
  }

  datatype Method = Post | Delete

  /** The request a toggle sends, if any, and the panel while it is out. */
  datatype Started = Started(panel: Panel, request: Option<Method>, wasFollowing: bool)

  /** `handleFollowToggle` up to the request: without a token only the error
      is set; otherwise the id joins the loading list and the method is
      chosen by the current membership. */
  function StartToggle(p: Panel, id: int, hasToken: bool): (r: Started)
    ensures !hasToken ==> r.request.None? && r.panel == p.(error := Some(NotLoggedIn))
    ensures hasToken ==> r.request.Some?
    ensures hasToken ==> (r.request == Some(Delete) <==> id in p.followingIds)
    ensures hasToken ==> r.panel == p.(loadingIds := p.loadingIds + [id]) && r.wasFollowing == (id in p.followingIds)
  {
    if !hasToken then Started(p.(error := Some(NotLoggedIn)), None, false)
    else
      var following := id in p.followingIds;
      Started(p.(loadingIds := p.loadingIds + [id]), Some(if following then Delete else Post), following)
  }

  /** How the request ends: OK, a non-OK status with the server's `error`
      field (`None` when missing), or a thrown error. */
  datatype Reply = Done | Refused(error: Option<string>) | Broken

  /** `prev.filter((x) => x !== id)`. */
  function Drop(s: seq<int>, id: int): (r: seq<int>)
    ensures id !in r
    ensures forall x :: x in r <==> x in s && x != id
    ensures |r| <= |s|
  {
    if s == [] then []
    else (if s[0] == id then [] else [s[0]]) + Drop(s[1..], id)
  }

  /** `Drop` is that filter: every other id, every occurrence, in order. */
  lemma {:induction false} DropFilters(s: seq<int>, id: int)
    ensures Subsequence(Drop(s, id), s)
    ensures forall x :: multiset(Drop(s, id))[x] == if x != id then multiset(s)[x] else 0
  {
    if s != [] {
      assert s == [s[0]] + s[1..];
      DropFilters(s[1..], id);
      var t := Drop(s[1..], id);
      if s[0] != id {
        assert ([s[0]] + t)[1..] == t;
      } else {
        assert [] + t == t;
      }
    }
  }

  /** The rest of `handleFollowToggle`: on success the id's membership is
      flipped relative to what it was at the start, and no other id moves;
      on failure the set stays and `error` is set. Every copy of the id
      leaves the loading list either way. */
  function FinishToggle(p: Panel, id: int, wasFollowing: bool, reply: Reply): (r: Panel)
    ensures r.loadingIds == Drop(p.loadingIds, id)
    ensures reply.Done? ==> (id in r.followingIds <==> !wasFollowing) && r.error == p.error
    ensures reply.Done? ==> forall x :: x != id ==> (x in r.followingIds <==> x in p.followingIds)
    ensures !reply.Done? ==> r.followingIds == p.followingIds
    ensures reply.Refused? && Present(reply.error) ==> r.error == reply.error
    ensures reply.Refused? && !Present(reply.error) ==> r.error == Some(UpdateFailed)
    ensures reply.Broken? ==> r.error == Some(UpdateFailed)
  {
    var loading := Drop(p.loadingIds, id);
    match reply
    case Done =>
      var ids := if wasFollowing then p.followingIds - {id} else p.followingIds + {id};
      Panel(ids, loading, p.error)
    case Refused(e) => Panel(p.followingIds, loading, if Present(e) then e else Some(UpdateFailed))
    case Broken => Panel(p.followingIds, loading, Some(UpdateFailed))
  }

  /** One full toggle that the server accepts. */
  function Toggle(p: Panel, id: int): Panel {
    var s := StartToggle(p, id, true);
    FinishToggle(s.panel, id, s.wasFollowing, Done)
  }

  /** Two accepted toggles of the same id give back the set it started
      with, and leave the id out of the loading list. */
  lemma ToggleTwice(p: Panel, id: int)
    ensures Toggle(Toggle(p, id), id).followingIds == p.followingIds
    ensures id !in Toggle(Toggle(p, id), id).loadingIds
  {
  }

  /** A toggle that fails leaves the set as it was. */
  lemma FailedToggleKeepsSet(p: Panel, id: int, reply: Reply)
    requires !reply.Done?
    ensures
      var s := StartToggle(p, id, true);
      FinishToggle(s.panel, id, s.wasFollowing, reply).followingIds == p.followingIds
  {
  }

  /** The suggestions endpoint sends no `is_following`, so the panel starts
      with every card showing "follow". */
  lemma NothingFollowedAtFirst(ids: seq<int>)
    ensures InitialFollowing(seq(|ids|, i requires 0 <= i < |ids| => Suggested(ids[i], false))) == {}
  {
  }
}

=== FILE: follows.dfy ===
/** `followUser`, `unfollowUser`, `getFollowStatus`, `getFollowers` and
    `getFollowing` over the `follows` table, held as a set of edges: the
    table's primary key is the pair, so `ON CONFLICT DO NOTHING` makes the
    insert a set insertion. The caller id comes from the token and is a
    number; the target id is `parseInt` of the path segment, and a `NaN`
    target, or one outside the range of `integer`, makes the query fail,
    which the handlers answer with 500. */
module Follows {
  import opened Common
  import opened Schema

  const InternalError := "Internal server error"
  const SelfFollow := "You cannot follow yourself"
  const Followed := "Followed successfully"
  const Unfollowed := "Unfollowed successfully"

  /** `followUser`. `NaN` is never `===` to the caller, so it reaches the
      insert and fails there, as does an id the column cannot hold. */
  function Follow(edges: set<Edge>, caller: int, target: Parsed): (r: Step<set<Edge>, string>)
    ensures target == Int(caller) ==> r == Step(edges, Fail(400, SelfFollow))
    ensures target != Int(caller) && !FitsInt4(target) ==> r == Step(edges, Fail(500, InternalError))
    ensures FitsInt4(target) && target.value != caller ==>
      && r.reply == Ok(200, Followed)
      && r.state == edges + {Edge(caller, target.value)}
  {
    if target == Int(caller) then Step(edges, Fail(400, SelfFollow))
    else if !FitsInt4(target) then Step(edges, Fail(500, InternalError))
    else Step(edges + {Edge(caller, target.value)}, Ok(200, Followed))
  }

  /** `unfollowUser`: no self check, and success whether or not the edge was
      there. */
  function Unfollow(edges: set<Edge>, caller: int, target: Parsed): (r: Step<set<Edge>, string>)
    ensures !FitsInt4(target) ==> r == Step(edges, Fail(500, InternalError))
    ensures FitsInt4(target) ==>
      && r.reply == Ok(200, Unfollowed)
      && r.state == edges - {Edge(caller, target.value)}
  {
    if !FitsInt4(target) then Step(edges, Fail(500, InternalError))
    else Step(edges - {Edge(caller, target.value)}, Ok(200, Unfollowed))
  }

  /** `getFollowStatus`: `{ isFollowing }`. */
  function FollowStatus(edges: set<Edge>, caller: int, target: Parsed): (r: Reply<bool>)
    ensures !FitsInt4(target) <==> r.Fail?
    ensures r.Fail? ==> r == Fail(500, InternalError)
    ensures r.Ok? ==> r.status == 200 && (r.value <==> Edge(caller, target.value) in edges)
  {
    if !FitsInt4(target) then Fail(500, InternalError)
    else Ok(200, Edge(caller, target.value) in edges)
  }

  /** The columns both list queries select. */
  datatype Brief = Brief(id: int, username: string, avatarUrl: Option<string>)

  function BriefOf(u: User): Brief {
    Brief(u.id, u.username, u.avatarUrl)
  }

  /** The answer of `SELECT u.id, u.username, u.avatar_url` joined onto
      `users` from a set of ids: one brief per selected row, in table order,
      each copied from its row, and no brief twice under a primary key. */
  function UsersIn(rows: seq<User>, ids: set<int>): (r: seq<Brief>)
    ensures |r| == |WithIds(rows, ids)|
    ensures forall i :: 0 <= i < |r| ==> r[i] == BriefOf(WithIds(rows, ids)[i])
    ensures forall b :: b in r <==> exists u :: u in rows && u.id in ids && b == BriefOf(u)
    ensures IdsUnique(rows) ==> forall i, j :: 0 <= i < j < |r| ==> r[i] != r[j]
  {
    var us := WithIds(rows, ids);
    var r := seq(|us|, i requires 0 <= i < |us| => BriefOf(us[i]));
    assert forall b :: b in r <==> exists u :: u in us && b == BriefOf(u) by {
      forall b | b in r ensures exists u :: u in us && b == BriefOf(u) {
        var i :| 0 <= i < |r| && r[i] == b;
        assert us[i] in us;
      }
      forall b | exists u :: u in us && b == BriefOf(u) ensures b in r {
        var u :| u in us && b == BriefOf(u);
        var i :| 0 <= i < |us| && us[i] == u;
        assert r[i] == b;
      }
    }
    if IdsUnique(rows) then
      WithIdsKeepsUnique(rows, ids);
      r
    else r
  }

  /** The ids with an edge into `u`. */
  function FollowerIds(edges: set<Edge>, u: int): set<int> {
    set e | e in edges && e.following == u :: e.follower
  }

  /** The ids `u` has an edge to. */
  function FollowingIds(edges: set<Edge>, u: int): set<int> {
    set e | e in edges && e.follower == u :: e.following
  }

  /** `getFollowers`: one brief per user row with an edge into `u`. */
  function Followers(rows: seq<User>, edges: set<Edge>, u: Parsed): (r: Reply<seq<Brief>>)
    ensures !FitsInt4(u) <==> r.Fail?
    ensures r.Fail? ==> r == Fail(500, InternalError)
    ensures r.Ok? ==> r.status == 200 && r.value == UsersIn(rows, FollowerIds(edges, u.value))
    ensures r.Ok? ==> forall b :: b in r.value <==> exists x :: x in rows && Edge(x.id, u.value) in edges && b == BriefOf(x)
    ensures r.Ok? && IdsUnique(rows) ==> forall i, j :: 0 <= i < j < |r.value| ==> r.value[i] != r.value[j]
  {
    if !FitsInt4(u) then Fail(500, InternalError)
    else Ok(200, UsersIn(rows, FollowerIds(edges, u.value)))
  }

  /** `getFollowing`: one brief per user row `u` has an edge to. */
  function Following(rows: seq<User>, edges: set<Edge>, u: Parsed): (r: Reply<seq<Brief>>)
    ensures !FitsInt4(u) <==> r.Fail?
    ensures r.Fail? ==> r == Fail(500, InternalError)
    ensures r.Ok? ==> r.status == 200 && r.value == UsersIn(rows, FollowingIds(edges, u.value))
    ensures r.Ok? ==> forall b :: b in r.value <==> exists x :: x in rows && Edge(u.value, x.id) in edges && b == BriefOf(x)
    ensures r.Ok? && IdsUnique(rows) ==> forall i, j :: 0 <= i < j < |r.value| ==> r.value[i] != r.value[j]
  {
    if !FitsInt4(u) then Fail(500, InternalError)
    else Ok(200, UsersIn(rows, FollowingIds(edges, u.value)))
  }

  /** Following twice is the same as following once. */
  lemma FollowIdempotent(edges: set<Edge>, caller: int, target: Parsed)
    ensures Follow(Follow(edges, caller, target).state, caller, target) == Follow(edges, caller, target)
  {
  }

  /** Unfollowing an edge just followed gives back the edges there were,
      when the edge was not there before. */
  lemma FollowThenUnfollow(edges: set<Edge>, caller: int, target: Int4)
    requires target != caller
    requires Edge(caller, target) !in edges
    ensures Unfollow(Follow(edges, caller, Int(target)).state, caller, Int(target)).state == edges
  {
  }

  /** Following makes the status true; unfollowing makes it false. */
  lemma StatusAfterToggle(edges: set<Edge>, caller: int, target: Int4)
    requires target != caller
    ensures FollowStatus(Follow(edges, caller, Int(target)).state, caller, Int(target)) == Ok(200, true)
    ensures FollowStatus(Unfollow(edges, caller, Int(target)).state, caller, Int(target)) == Ok(200, false)
  {
  }

  /** After following, the caller is among the target's followers when the
      caller has a row. */
  lemma FollowMakesFollower(rows: seq<User>, edges: set<Edge>, caller: User, target: Int4)
    requires caller in rows && caller.id != target
    ensures
      var after := Follow(edges, caller.id, Int(target)).state;
      BriefOf(caller) in Followers(rows, after, Int(target)).value
  {
  }
}

=== FILE: oauth.dfy ===
/** The Google sign-in callback: find the user by the profile's first email,
    or create one under the first free username derived from the display
    name. Signing the session token is not part of this model. */
module OAuth {
  import opened Common
  import opened Schema
  import Suffix

  /** The parts of a Google profile the callback reads: the `value`s of
      `emails`, in order, and `displayName` (`""` when absent). */
  datatype Profile = Profile(emails: seq<string>, displayName: string)

  /** What the callback hands to `done`: the user the token is signed for,
      or an error. */
  datatype Outcome = Authenticated(user: User) | Rejected(message: string)

  datatype Verified = Verified(state: Table<User>, outcome: Outcome)

  const NoEmail := "No email found from Google"
  const MarkerHash := "oauth_google_user"
  const AvatarPrefix := "https://api.dicebear.com/8.x/shapes/svg?seed="

  /** `profile.emails?.[0]?.value`, with `!email` folded in: `None` when there
      is no first email or it is empty. */
  function ProfileEmail(p: Profile): Option<string> {
    if p.emails == [] || p.emails[0] == "" then None else Some(p.emails[0])
  }

  /** `.replace(/\s+/g, '')`. */
  function RemoveSpaces(s: string): (r: string)
    ensures forall i :: 0 <= i < |r| ==> !IsJsSpace(r[i])
    ensures (forall i :: 0 <= i < |s| ==> !IsJsSpace(s[i])) ==> r == s
  {
    if s == [] then []
    else (if IsJsSpace(s[0]) then [] else [s[0]]) + RemoveSpaces(s[1..])
  }

  /** `RemoveSpaces` is a filter: every other character, every occurrence,
      in order. */
  lemma {:induction false} RemoveSpacesFilters(s: string)
    ensures Subsequence(RemoveSpaces(s), s)
    ensures forall c :: multiset(RemoveSpaces(s))[c] == if IsJsSpace(c) then 0 else multiset(s)[c]
  {
    if s != [] {
      assert s == [s[0]] + s[1..];
      RemoveSpacesFilters(s[1..]);
      var t := RemoveSpaces(s[1..]);
      if !IsJsSpace(s[0]) {
        assert ([s[0]] + t)[1..] == t;
      } else {
        assert [] + t == t;
      }
    }
  }

  lemma {:induction false} RemoveSpacesMembers(s: string)
    ensures forall c :: c in RemoveSpaces(s) ==> c in s
  {
    if s != [] {
      RemoveSpacesMembers(s[1..]);
    }
  }

  lemma {:induction false} RemoveSpacesAppend(a: string, b: string)
    ensures RemoveSpaces(a + b) == RemoveSpaces(a) + RemoveSpaces(b)
  {
    if a == [] {
      assert a + b == b;
    } else {
      var ab := a + b;
      assert ab[0] == a[0] && ab[1..] == a[1..] + b;
      RemoveSpacesAppend(a[1..], b);
      var h := if IsJsSpace(a[0]) then [] else [a[0]];
      assert h + (RemoveSpaces(a[1..]) + RemoveSpaces(b)) == (h + RemoveSpaces(a[1..])) + RemoveSpaces(b);
    }
  }

  /** The default name has no capitals and no spaces. */
  lemma DefaultNameKept()
    ensures RemoveSpaces(Lower("user")) == "user"
  {
    var l := Lower("user");
    assert l[0] == 'u' && l[1] == 's' && l[2] == 'e' && l[3] == 'r';
    assert l == "user";
    assert forall i :: 0 <= i < |l| ==> !IsJsSpace(l[i]);
  }

  /** `(profile.displayName || 'user').toLowerCase().replace(/\s+/g, '')`. */
  function BaseUsername(displayName: string): (r: string)
    ensures r == RemoveSpaces(Lower(if displayName == "" then "user" else displayName))
    ensures forall i :: 0 <= i < |r| ==> !IsJsSpace(r[i]) && !('A' <= r[i] <= 'Z')
    ensures displayName == "" ==> r == "user"
  {
    var name := if displayName == "" then "user" else displayName;
    var lowered := Lower(name);
    var r := RemoveSpaces(lowered);
    RemoveSpacesMembers(lowered);
    assert forall i :: 0 <= i < |r| ==> r[i] in lowered;
    assert displayName == "" ==> r == "user" by {
      if displayName == "" {
        DefaultNameKept();
      }
    }
    r
  }

  /** `"Jane Doe"` gives `"janedoe"`. */
  lemma BaseUsernameExample()
    ensures BaseUsername("Jane Doe") == "janedoe"
  {
    calc {
      BaseUsername("Jane Doe");
      RemoveSpaces(Lower("Jane Doe"));
    == { LowerJaneDoe("Jane Doe"); }
      RemoveSpaces("jane doe");
    == { SplitAtSpace("jane", "doe", "jane doe"); }
      "jane" + "doe";
    }
  }

  /** Two space-free words with one space between lose the space. */
  lemma SplitAtSpace(a: string, b: string, s: string)
    requires s == a + " " + b
    requires forall i :: 0 <= i < |a| ==> !IsJsSpace(a[i])
    requires forall i :: 0 <= i < |b| ==> !IsJsSpace(b[i])
    ensures RemoveSpaces(s) == a + b
  {
    var sp := " ";
    var tail := sp + b;
    assert s == a + tail;
    RemoveSpacesAppend(a, tail);
    RemoveSpacesAppend(sp, b);
    OneSpace(sp);
    assert RemoveSpaces(a) == a;
    assert RemoveSpaces(b) == b;
    assert RemoveSpaces(tail) == b;
  }

  lemma OneSpace(sp: string)
    requires sp == " "
    ensures RemoveSpaces(sp) == ""
  {
    assert IsJsSpace(sp[0]) && sp[1..] == "";
  }

  lemma LowerJaneDoe(s: string)
    requires s == "Jane Doe"
    ensures Lower(s) == "jane doe"
  {
    var l := Lower(s);
    assert l[0] == 'j';
  }

  function Usernames(rows: seq<User>): set<string> {
    set i | 0 <= i < |rows| :: rows[i].username
  }

  predicate HasUsername(rows: seq<User>, name: string) {
    exists i :: 0 <= i < |rows| && rows[i].username == name
  }

  /** The username loop: `base`, `base1`, `base2`, … until one is unused. */
  function UniqueUsername(rows: seq<User>, base: string): (r: string)
    ensures !HasUsername(rows, r)
    ensures !HasUsername(rows, base) ==> r == base
    ensures Suffix.IsFirstFree(Usernames(rows), base, Suffix.Adjacent, r)
  {
    var r := Suffix.FirstFree(Usernames(rows), base, Suffix.Adjacent);
    assert forall i :: 0 <= i < |rows| ==> rows[i].username in Usernames(rows);
    r
  }

  /** The characters `encodeURIComponent` leaves alone. */
  predicate Unreserved(c: char) {
    || 'A' <= c <= 'Z' || 'a' <= c <= 'z' || '0' <= c <= '9'
    || c == '-' || c == '_' || c == '.' || c == '!' || c == '~'
    || c == '*' || c == '\'' || c == '(' || c == ')'
  }

  function HexDigit(d: nat): char
    requires d < 16
  {
    "0123456789ABCDEF"[d]
  }

  /** The UTF-8 encoding of one character. */
  function Utf8(c: char): (r: seq<nat>)
    ensures 1 <= |r| <= 4
    ensures forall i :: 0 <= i < |r| ==> r[i] < 256
  {
    var n := c as int;
    if n < 0x80 then [n]
    else if n < 0x800 then [0xC0 + n / 64, 0x80 + n % 64]
    else if n < 0x1_0000 then [0xE0 + n / 4096, 0x80 + (n / 64) % 64, 0x80 + n % 64]
    else [0xF0 + n / 0x4_0000, 0x80 + (n / 4096) % 64, 0x80 + (n / 64) % 64, 0x80 + n % 64]
  }

  /** Each byte as `%` and two upper-case hex digits. */
  function PercentBytes(bytes: seq<nat>): (r: string)
    requires forall i :: 0 <= i < |bytes| ==> bytes[i] < 256
    ensures |r| == 3 * |bytes|
    ensures forall i :: 0 <= i < |r| ==> Unreserved(r[i]) || r[i] == '%'
    ensures forall i :: 0 <= i < |bytes| ==>
      r[3 * i .. 3 * i + 3] == ['%', HexDigit(bytes[i] / 16), HexDigit(bytes[i] % 16)]
  {
    if bytes == [] then []
    else ['%', HexDigit(bytes[0] / 16), HexDigit(bytes[0] % 16)] + PercentBytes(bytes[1..])
  }

  /** `encodeURIComponent`: the result is URL-safe, and a string that is
      already URL-safe is left alone. */
  function EncodeUriComponent(s: string): (r: string)
    ensures |r| >= |s|
    ensures forall i :: 0 <= i < |r| ==> Unreserved(r[i]) || r[i] == '%'
    ensures (forall i :: 0 <= i < |s| ==> Unreserved(s[i])) ==> r == s
  {
    if s == [] then []
    else (if Unreserved(s[0]) then [s[0]] else PercentBytes(Utf8(s[0]))) + EncodeUriComponent(s[1..])
  }

  /** Characters are encoded one at a time: an unreserved one is kept, any
      other becomes the `%XX` escapes of its UTF-8 bytes. */
  lemma EncodeChar(c: char)
    ensures EncodeUriComponent([c]) == if Unreserved(c) then [c] else PercentBytes(Utf8(c))
  {
    assert [c][1..] == [];
  }

  lemma {:induction false} EncodeAppend(a: string, b: string)
    ensures EncodeUriComponent(a + b) == EncodeUriComponent(a) + EncodeUriComponent(b)
  {
    if a == [] {
      assert a + b == b;
    } else {
      assert (a + b)[1..] == a[1..] + b;
      EncodeAppend(a[1..], b);
    }
  }

  /** A space, one byte `0x20`, becomes `%20`. */
  lemma EncodeSpace()
    ensures EncodeUriComponent("a b") == "a%20b"
  {
    assert Utf8(' ') == [32];
    assert PercentBytes([32]) == "%20";
    EncodeChar('a');
    EncodeChar(' ');
    EncodeChar('b');
    EncodeAppend("a", " b");
    EncodeAppend(" ", "b");
    assert "a" + (" " + "b") == "a b";
  }

  /** The index of the first user with the email (`existing.rows[0]`). */
  function FindByEmail(rows: seq<User>, email: string): (r: Option<nat>)
    ensures r.None? <==> forall i :: 0 <= i < |rows| ==> rows[i].email != email
    ensures r.Some? ==> r.value < |rows| && rows[r.value].email == email
    ensures r.Some? ==> forall j :: 0 <= j < r.value ==> rows[j].email != email
  {
    if rows == [] then None
    else if rows[0].email == email then Some(0)
    else match FindByEmail(rows[1..], email)
      case None => None
      case Some(i) => Some(i + 1)
  }

  /** The verify callback of the Google strategy. */
  function GoogleVerify(t: Table<User>, p: Profile, now: int): (r: Verified)
    ensures ProfileEmail(p).None? ==> r == Verified(t, Rejected(NoEmail))
    ensures ProfileEmail(p).Some? && FindByEmail(t.rows, ProfileEmail(p).value).Some? ==>
      && r.state == t
      && r.outcome.Authenticated?
      && r.outcome.user in t.rows
      && r.outcome.user.email == ProfileEmail(p).value
    ensures ProfileEmail(p).Some? && FindByEmail(t.rows, ProfileEmail(p).value).None? ==>
      && r.outcome.Authenticated?
      && r.state == Table(t.rows + [r.outcome.user], t.nextId + 1)
      && r.outcome.user.id == t.nextId
      && r.outcome.user.email == ProfileEmail(p).value
      && r.outcome.user.passwordHash == MarkerHash
      && r.outcome.user.avatarUrl == Some(AvatarPrefix + EncodeUriComponent(r.outcome.user.username))
      && r.outcome.user.role.None? && r.outcome.user.bio.None?
      && r.outcome.user.createdAt == now && r.outcome.user.updatedAt == now
      && !HasUsername(t.rows, r.outcome.user.username)
      && Suffix.IsFirstFree(Usernames(t.rows), BaseUsername(p.displayName), Suffix.Adjacent, r.outcome.user.username)
  {
    match ProfileEmail(p)
    case None => Verified(t, Rejected(NoEmail))
    case Some(email) =>
      match FindByEmail(t.rows, email)
      case Some(i) => Verified(t, Authenticated(t.rows[i]))
      case None =>
        var username := UniqueUsername(t.rows, BaseUsername(p.displayName));
        var user := User(
          t.nextId, username, email, MarkerHash, None,
          Some(AvatarPrefix + EncodeUriComponent(username)), None, now, now);
        Verified(Table(t.rows + [user], t.nextId + 1), Authenticated(user))
  }

  /** Find-or-create is idempotent: a second sign-in with the same profile
      finds the user the first one returned and inserts nothing. */
  lemma SecondSignInReuses(t: Table<User>, p: Profile, now: int, later: int)
    requires ProfileEmail(p).Some?
    ensures
      var first := GoogleVerify(t, p, now);
      var second := GoogleVerify(first.state, p, later);
      && second.state == first.state
      && second.outcome == first.outcome
  {
    var email := ProfileEmail(p).value;
    if FindByEmail(t.rows, email).None? {
      CreatedUserIsFound(t, p, now);
    }
  }

  /** The row a first sign-in inserts is the one the next lookup finds. */
  lemma CreatedUserIsFound(t: Table<User>, p: Profile, now: int)
    requires ProfileEmail(p).Some? && FindByEmail(t.rows, ProfileEmail(p).value).None?
    ensures
      var first := GoogleVerify(t, p, now);
      FindByEmail(first.state.rows, ProfileEmail(p).value) == Some(|t.rows|)
      && first.state.rows[|t.rows|] == first.outcome.user
  {
    var first := GoogleVerify(t, p, now);
    FindAppended(t.rows, first.outcome.user);
  }

  lemma {:induction false} FindAppended(rows: seq<User>, u: User)
    requires FindByEmail(rows, u.email).None?
    ensures FindByEmail(rows + [u], u.email) == Some(|rows|)
  {
    if rows != [] {
      assert (rows + [u])[1..] == rows[1..] + [u];
      FindAppended(rows[1..], u);
    }
  }
}

=== FILE: posts.dfy ===
/** The post handlers: create, list, fetch by slug, update and delete, over
    the `posts` table, with slugs kept unique by `generateUniqueSlug`. */
module Posts {
  import opened Common
  import opened Schema
  import Slug
  import Suffix

  /** Every slug names at most one post. */
  predicate UniqueSlugs(rows: seq<Post>) {
    forall i, j :: 0 <= i < j < |rows| ==> rows[i].slug != rows[j].slug
  }

  predicate HasSlug(rows: seq<Post>, slug: string) {
    exists i :: 0 <= i < |rows| && rows[i].slug == slug
  }

  function Slugs(rows: seq<Post>): (r: seq<string>)
    ensures |r| == |rows|
    ensures forall i :: 0 <= i < |rows| ==> r[i] == rows[i].slug
  {
    seq(|rows|, i requires 0 <= i < |rows| => rows[i].slug)
  }

  /** The slugs the uniqueness query finds: every post's slug, except that a
      truthy `excludeSlug` is not counted. */
  function TakenSlugs(rows: seq<Post>, exclude: Option<string>): set<string> {
    set i | 0 <= i < |rows| && !(Present(exclude) && rows[i].slug == exclude.value) :: rows[i].slug
  }

  /** `generateUniqueSlug(baseSlug, excludeSlug)`. */
  function UniqueSlug(rows: seq<Post>, base: string, exclude: Option<string>): (r: string)
    ensures forall i :: 0 <= i < |rows| && rows[i].slug == r ==> Present(exclude) && r == exclude.value
    ensures (forall i :: 0 <= i < |rows| ==> rows[i].slug != base) ==> r == base
    ensures Suffix.IsFirstFree(TakenSlugs(rows, exclude), base, Suffix.Hyphen, r)
  {
    var taken := TakenSlugs(rows, exclude);
    var r := Suffix.FirstFree(taken, base, Suffix.Hyphen);
    assert forall i :: 0 <= i < |rows| && !(Present(exclude) && rows[i].slug == exclude.value) ==>
      rows[i].slug in taken;
    r
  }

  /** The excluded slug always counts as free, so it comes back as itself. */
  lemma UniqueSlugKeepsExcluded(rows: seq<Post>, slug: string)
    requires slug != ""
    ensures UniqueSlug(rows, slug, Some(slug)) == slug
  {
    assert slug !in TakenSlugs(rows, Some(slug));
    Suffix.FirstFreeUnique(TakenSlugs(rows, Some(slug)), slug, Suffix.Hyphen, 0);
  }

  /** The body of a create or update request; an absent field is `None`. */
  datatype PostInput = PostInput(
    title: Option<string>,
    content: Option<string>,
    tags: Option<seq<string>>,
    coverImage: Option<string>,
    isPublished: Option<bool>)

  const ServerError := "Internal server error"
  const NotFound := "Post not found"

  /** `createPost`. A missing title makes `slugify` throw, which the handler
      reports as a 500. */
  function CreatePost(t: Table<Post>, body: PostInput, now: int): (r: Step<Table<Post>, Post>)
    ensures body.title.None? ==> r == Step(t, Fail(500, ServerError))
    ensures body.title.Some? ==>
      && r.reply.Ok? && r.reply.status == 201
      && r.state.rows == t.rows + [r.reply.value]
      && r.reply.value.id == t.nextId && r.state.nextId == t.nextId + 1
      && r.reply.value.title == body.title.value
      && r.reply.value.content == body.content
      && r.reply.value.tags == (if body.tags.Some? then body.tags.value else [])
      && r.reply.value.coverImage == body.coverImage
      && r.reply.value.isPublished.None?
      && r.reply.value.slug == UniqueSlug(t.rows, Slug.Slugify(body.title.value), None)
      && !HasSlug(t.rows, r.reply.value.slug)
    ensures UniqueSlugs(t.rows) ==> UniqueSlugs(r.state.rows)
  {
    match body.title
    case None => Step(t, Fail(500, ServerError))
    case Some(title) =>
      var slug := UniqueSlug(t.rows, Slug.Slugify(title), None);
      var row := Post(
        t.nextId, slug, title, body.content,
        if body.tags.Some? then body.tags.value else [],
        body.coverImage, None, None, 0, now, now);
      Step(Table(t.rows + [row], t.nextId + 1), Ok(201, row))
  }

  /** `getPosts`: `limit` falls back to 10 and `page` to 1 when the parsed
      value is `NaN` or 0; a negative `LIMIT` or `OFFSET` is refused by the
      store, which the handler reports as a 500. Rows come newest first. */
  function GetPosts(rows: seq<Post>, limitQuery: Parsed, pageQuery: Parsed): (r: Reply<seq<Post>>)
    ensures
      var limit := OrElse(limitQuery, 10);
      var offset := PageOffset(OrElse(pageQuery, 1), limit);
      && (r.Fail? <==> limit < 0 || offset < 0)
      && (r.Ok? ==>
        && r.status == 200
        && |r.value| == (if offset >= |rows| then 0 else Min(limit, |rows| - offset))
        && forall i :: 0 <= i < |r.value| ==> r.value[i] == rows[|rows| - 1 - (offset + i)])
  {
    var limit := OrElse(limitQuery, 10);
    var offset := PageOffset(OrElse(pageQuery, 1), limit);
    if limit < 0 || offset < 0 then Fail(500, ServerError)
    else Ok(200, Window(Reverse(rows), offset, limit))
  }

  /** `page=1&limit=10` starts at offset 0 and `page=3` at offset 20; a missing
      or zero page and limit mean the ten newest posts. */
  lemma GetPostsDefaults(rows: seq<Post>)
    ensures PageOffset(OrElse(Int(1), 10), OrElse(Int(10), 10)) == 0
    ensures PageOffset(OrElse(Int(3), 1), OrElse(Int(10), 10)) == 20
    ensures GetPosts(rows, NaN, Int(0)) == GetPosts(rows, Int(10), Int(1))
  {
  }

  /** The index of the first post with the slug. */
  function FindBySlug(rows: seq<Post>, slug: string): (r: Option<nat>)
    ensures r.None? <==> !HasSlug(rows, slug)
    ensures r.Some? ==> r.value < |rows| && rows[r.value].slug == slug
    ensures r.Some? ==> forall j :: 0 <= j < r.value ==> rows[j].slug != slug
  {
    if rows == [] then None
    else if rows[0].slug == slug then Some(0)
    else match FindBySlug(rows[1..], slug)
      case None => None
      case Some(i) => Some(i + 1)
  }

  /** `getPostBySlug`. */
  function GetPostBySlug(rows: seq<Post>, slug: string): (r: Reply<Post>)
    ensures r.Fail? <==> !HasSlug(rows, slug)
    ensures r.Fail? ==> r == Fail(404, NotFound)
    ensures r.Ok? ==> r.status == 200 && r.value in rows && r.value.slug == slug
    ensures r.Ok? && UniqueSlugs(rows) ==> forall p :: p in rows && p.slug == slug ==> p == r.value
  {
    match FindBySlug(rows, slug)
    case None => Fail(404, NotFound)
    case Some(i) => Ok(200, rows[i])
  }

  /** The row `updatePost` writes over `row`: `title || old.title` and the like
      for title, content and cover image (an empty string keeps the old value),
      `tags || old.tags` (an empty array is truthy, so it is written), and
      `is_published ?? old.is_published` (an explicit `false` is written). */
  function Merge(row: Post, current: Post, body: PostInput, slug: string, now: int): Post {
    row.(
      title := if Present(body.title) then body.title.value else current.title,
      slug := slug,
      content := if Present(body.content) then body.content else current.content,
      tags := if body.tags.Some? then body.tags.value else current.tags,
      coverImage := if Present(body.coverImage) then body.coverImage else current.coverImage,
      isPublished := if body.isPublished.Some? then body.isPublished else current.isPublished,
      updatedAt := now)
  }

  /** `updatePost`: the new slug comes from the new title when one is given,
      otherwise from the current slug, with the current slug excluded from the
      uniqueness check. The `UPDATE … WHERE slug = $7` touches every row with
      the current slug. There is no ownership check. */
  function UpdatePost(t: Table<Post>, slug: string, body: PostInput, now: int): (r: Step<Table<Post>, Post>)
    ensures r.reply.Fail? <==> !HasSlug(t.rows, slug)
    ensures r.reply.Fail? ==> r == Step(t, Fail(404, NotFound))
    ensures r.reply.Ok? ==>
      var prior := t.rows[FindBySlug(t.rows, slug).value];
      var base := if Present(body.title) then Slug.Slugify(body.title.value) else slug;
      var newSlug := UniqueSlug(t.rows, base, Some(slug));
      var p := r.reply.value;
      && r.reply.status == 200
      && r.state.nextId == t.nextId
      && |r.state.rows| == |t.rows|
      && (forall i :: 0 <= i < |t.rows| && t.rows[i].slug != slug ==> r.state.rows[i] == t.rows[i])
      && (forall i :: 0 <= i < |t.rows| && t.rows[i].slug == slug ==>
            r.state.rows[i] == Merge(t.rows[i], prior, body, newSlug, now))
      && p in r.state.rows
      && p.id == prior.id && p.authorId == prior.authorId && p.createdAt == prior.createdAt
      && p.slug == newSlug && p.updatedAt == now
      && p.title == (if Present(body.title) then body.title.value else prior.title)
      && p.content == (if Present(body.content) then body.content else prior.content)
      && p.tags == (if body.tags.Some? then body.tags.value else prior.tags)
      && p.coverImage == (if Present(body.coverImage) then body.coverImage else prior.coverImage)
      && p.isPublished == (if body.isPublished.Some? then body.isPublished else prior.isPublished)
      && (body.isPublished == Some(false) ==> p.isPublished == Some(false))
      && (slug != "" && !Present(body.title) ==> p.slug == slug)
    ensures UniqueSlugs(t.rows) ==> UniqueSlugs(r.state.rows)
  {
    match FindBySlug(t.rows, slug)
    case None => Step(t, Fail(404, NotFound))
    case Some(i) =>
      var current := t.rows[i];
      var base := if Present(body.title) then Slug.Slugify(body.title.value) else slug;
      var newSlug := UniqueSlug(t.rows, base, Some(slug));
      var rows := Rewrite(t.rows, slug, current, body, newSlug, now);
      assert slug != "" && !Present(body.title) ==> newSlug == slug by {
        if slug != "" && !Present(body.title) {
          UniqueSlugKeepsExcluded(t.rows, slug);
        }
      }
      assert UniqueSlugs(t.rows) ==> UniqueSlugs(rows) by {
        if UniqueSlugs(t.rows) {
          RewriteKeepsUnique(t.rows, slug, current, body, newSlug, now);
        }
      }
      var p := rows[i];
      assert p == Merge(current, current, body, newSlug, now) && p in rows;
      Step(Table(rows, t.nextId), Ok(200, p))
  }

  /** The rows after `UPDATE … WHERE slug = $7`. */
  function Rewrite(rows: seq<Post>, slug: string, current: Post, body: PostInput, newSlug: string, now: int): (r: seq<Post>)
    ensures |r| == |rows|
    ensures forall j :: 0 <= j < |rows| && rows[j].slug != slug ==> r[j] == rows[j]
    ensures forall j :: 0 <= j < |rows| && rows[j].slug == slug ==> r[j] == Merge(rows[j], current, body, newSlug, now)
  {
    seq(|rows|, j requires 0 <= j < |rows| =>
      if rows[j].slug == slug then Merge(rows[j], current, body, newSlug, now) else rows[j])
  }

  /** The new slug is free among the other rows, so unique slugs stay
      unique. */
  lemma RewriteKeepsUnique(rows: seq<Post>, slug: string, current: Post, body: PostInput, newSlug: string, now: int)
    requires UniqueSlugs(rows)
    requires forall j :: 0 <= j < |rows| && rows[j].slug != slug ==> rows[j].slug != newSlug
    ensures UniqueSlugs(Rewrite(rows, slug, current, body, newSlug, now))
  {
    var r := Rewrite(rows, slug, current, body, newSlug, now);
    forall i, j | 0 <= i < j < |r| ensures r[i].slug != r[j].slug {
      assert rows[i].slug != rows[j].slug;
    }
  }

  /** The rows whose slug is not `slug`, in order. */
  function Without(rows: seq<Post>, slug: string): (r: seq<Post>)
    ensures forall p :: p in r <==> p in rows && p.slug != slug
    ensures |r| <= |rows|
    ensures UniqueSlugs(rows) ==> UniqueSlugs(r)
  {
    if rows == [] then []
    else if rows[0].slug == slug then Without(rows[1..], slug)
    else
      assert UniqueSlugs(rows) ==> forall p :: p in Without(rows[1..], slug) ==> p.slug != rows[0].slug;
      [rows[0]] + Without(rows[1..], slug)
  }

  /** `Without` is a filter: the rows with another slug, every occurrence,
      in table order, and nothing else. */
  lemma {:induction false} WithoutFilters(rows: seq<Post>, slug: string)
    ensures Subsequence(Without(rows, slug), rows)
    ensures forall p :: multiset(Without(rows, slug))[p] == if p.slug != slug then multiset(rows)[p] else 0
  {
    if rows != [] {
      assert rows == [rows[0]] + rows[1..];
      WithoutFilters(rows[1..], slug);
      var t := Without(rows[1..], slug);
      if rows[0].slug != slug {
        assert ([rows[0]] + t)[1..] == t;
      }
    }
  }

  lemma {:induction false} WithoutRemovesOne(rows: seq<Post>, slug: string)
    requires UniqueSlugs(rows) && HasSlug(rows, slug)
    ensures |Without(rows, slug)| == |rows| - 1
  {
    if rows[0].slug == slug {
      assert !HasSlug(rows[1..], slug);
      WithoutNone(rows[1..], slug);
    } else {
      WithoutRemovesOne(rows[1..], slug);
    }
  }

  lemma {:induction false} WithoutNone(rows: seq<Post>, slug: string)
    requires !HasSlug(rows, slug)
    ensures Without(rows, slug) == rows
  {
    if rows != [] {
      WithoutNone(rows[1..], slug);
    }
  }

  /** `deletePost`: removes the rows with the slug, or answers 404 when there
      are none. There is no ownership check. */
  function DeletePost(t: Table<Post>, slug: string): (r: Step<Table<Post>, string>)
    ensures r.reply.Fail? <==> !HasSlug(t.rows, slug)
    ensures r.reply.Fail? ==> r == Step(t, Fail(404, NotFound))
    ensures r.reply.Ok? ==>
      && r.reply.status == 200
      && (forall p :: p in r.state.rows <==> p in t.rows && p.slug != slug)
      && Subsequence(r.state.rows, t.rows)
      && (forall p :: multiset(r.state.rows)[p] == if p.slug != slug then multiset(t.rows)[p] else 0)
      && (UniqueSlugs(t.rows) ==> |r.state.rows| == |t.rows| - 1)
      && r.state.nextId == t.nextId
    ensures UniqueSlugs(t.rows) ==> UniqueSlugs(r.state.rows)
  {
    if !HasSlug(t.rows, slug) then Step(t, Fail(404, NotFound))
    else
      WithoutFilters(t.rows, slug);
      assert UniqueSlugs(t.rows) ==> |Without(t.rows, slug)| == |t.rows| - 1 by {
        if UniqueSlugs(t.rows) {
          WithoutRemovesOne(t.rows, slug);
        }
      }
      Step(t.(rows := Without(t.rows, slug)), Ok(200, "Post deleted successfully"))
  }

  /** The table after `n` identical create requests. */
  function CreateTimes(t: Table<Post>, body: PostInput, n: nat, now: int): Table<Post> {
    if n == 0 then t else CreatePost(CreateTimes(t, body, n - 1, now), body, now).state
  }

  /** Creating n posts whose titles share a base slug, into a table holding
      none of that base's variants, yields the slugs base, base-1, …,
      base-(n-1), in that order. */
  lemma {:induction false} RepeatedCreate(t: Table<Post>, body: PostInput, n: nat, now: int)
    requires body.title.Some?
    requires forall k: nat :: !HasSlug(t.rows, Suffix.Candidate(Slug.Slugify(body.title.value), Suffix.Hyphen, k))
    ensures Slugs(CreateTimes(t, body, n, now).rows)
      == Slugs(t.rows) + Suffix.Candidates(Slug.Slugify(body.title.value), Suffix.Hyphen, n)
  {
    var base := Slug.Slugify(body.title.value);
    if n > 0 {
      RepeatedCreate(t, body, n - 1, now);
      var before := CreateTimes(t, body, n - 1, now);
      var previous := Suffix.Candidates(base, Suffix.Hyphen, n - 1);
      var c := Suffix.Candidate(base, Suffix.Hyphen, n - 1);
      NextSlug(t.rows, before.rows, base, n - 1);
      var step := CreatePost(before, body, now);
      var row := step.reply.value;
      assert row.slug == c && step.state.rows == before.rows + [row];
      SlugsSnoc(before.rows, row);
      CandidatesSnoc(Slugs(t.rows), base, n);
      calc {
        Slugs(CreateTimes(t, body, n, now).rows);
        Slugs(before.rows + [row]);
        Slugs(before.rows) + [c];
        (Slugs(t.rows) + previous) + [c];
        Slugs(t.rows) + Suffix.Candidates(base, Suffix.Hyphen, n);
      }
    }
  }

  lemma CandidatesSnoc(front: seq<string>, base: string, n: nat)
    requires n > 0
    ensures front + Suffix.Candidates(base, Suffix.Hyphen, n)
      == (front + Suffix.Candidates(base, Suffix.Hyphen, n - 1)) + [Suffix.Candidate(base, Suffix.Hyphen, n - 1)]
  {
    var previous := Suffix.Candidates(base, Suffix.Hyphen, n - 1);
    assert previous + [Suffix.Candidate(base, Suffix.Hyphen, n - 1)] == Suffix.Candidates(base, Suffix.Hyphen, n);
  }

  lemma SlugsSnoc(rows: seq<Post>, p: Post)
    ensures Slugs(rows + [p]) == Slugs(rows) + [p.slug]
  {
  }

  /** After the first m variants were appended to a table holding none, the
      next create gets the m-th. */
  lemma NextSlug(initial: seq<Post>, rows: seq<Post>, base: string, m: nat)
    requires forall k: nat :: !HasSlug(initial, Suffix.Candidate(base, Suffix.Hyphen, k))
    requires Slugs(rows) == Slugs(initial) + Suffix.Candidates(base, Suffix.Hyphen, m)
    ensures UniqueSlug(rows, base, None) == Suffix.Candidate(base, Suffix.Hyphen, m)
  {
    var taken := TakenSlugs(rows, None);
    EarlierVariantsTaken(initial, rows, base, m);
    NextVariantFree(initial, rows, base, m);
    Suffix.FirstFreeUnique(taken, base, Suffix.Hyphen, m);
  }

  lemma EarlierVariantsTaken(initial: seq<Post>, rows: seq<Post>, base: string, m: nat)
    requires Slugs(rows) == Slugs(initial) + Suffix.Candidates(base, Suffix.Hyphen, m)
    ensures forall j :: 0 <= j < m ==> Suffix.Candidate(base, Suffix.Hyphen, j) in TakenSlugs(rows, None)
  {
    var previous := Suffix.Candidates(base, Suffix.Hyphen, m);
    var slugs := Slugs(rows);
    var n0 := |initial|;
    forall j | 0 <= j < m
      ensures Suffix.Candidate(base, Suffix.Hyphen, j) in TakenSlugs(rows, None)
    {
      assert slugs[n0 + j] == previous[j];
      assert rows[n0 + j].slug in TakenSlugs(rows, None);
    }
  }

  lemma NextVariantFree(initial: seq<Post>, rows: seq<Post>, base: string, m: nat)
    requires forall k: nat :: !HasSlug(initial, Suffix.Candidate(base, Suffix.Hyphen, k))
    requires Slugs(rows) == Slugs(initial) + Suffix.Candidates(base, Suffix.Hyphen, m)
    ensures Suffix.Candidate(base, Suffix.Hyphen, m) !in TakenSlugs(rows, None)
  {
    var previous := Suffix.Candidates(base, Suffix.Hyphen, m);
    var slugs := Slugs(rows);
    var n0 := |initial|;
    var c := Suffix.Candidate(base, Suffix.Hyphen, m);
    forall i | 0 <= i < |rows| ensures rows[i].slug != c {
      if i < n0 {
        assert slugs[i] == Slugs(initial)[i] == initial[i].slug;
        assert !HasSlug(initial, c);
      } else {
        assert slugs[i] == previous[i - n0];
        if rows[i].slug == c {
          Suffix.CandidateInjective(base, Suffix.Hyphen, i - n0, m);
        }
      }
    }
  }
}

=== FILE: profile.dfy ===
/** The PUT `/profile` handler: reject a username or email another user
    already has, then merge the given fields into the caller's row. Body
    fields are `None` when missing or `null`. */
module Profile {
  import opened Common
  import opened Schema

  const InUse := "Username or email already in use"
  const Updated := "Profile updated"

  datatype Changes = Changes(avatarUrl: Option<string>, bio: Option<string>,
                             username: Option<string>, email: Option<string>)

  /** `(username = $1 OR email = $2) AND id != $3`; a `NULL` parameter
      compares as unknown and matches nothing. */
  predicate Clashes(u: User, c: Changes, caller: int) {
    && u.id != caller
    && ((c.username.Some? && u.username == c.username.value) || (c.email.Some? && u.email == c.email.value))
  }

  function HasClash(rows: seq<User>, c: Changes, caller: int): (r: bool)
    ensures r <==> exists u :: u in rows && Clashes(u, c, caller)
  {
    if rows == [] then false
    else Clashes(rows[0], c, caller) || HasClash(rows[1..], c, caller)
  }

  /** `COALESCE(NULLIF($1, ''), col)`: keep the column when the value is
      missing or empty. */
  function KeepIfBlank(given: Option<string>, current: Option<string>): (r: Option<string>)
    ensures Present(given) ==> r == given
    ensures !Present(given) ==> r == current
  {
    if Present(given) then given else current
  }

  /** `COALESCE($n, col)`: keep the column only when the value is missing;
      an empty string is written. */
  function KeepIfMissing(given: Option<string>, current: string): (r: string)
    ensures given.Some? ==> r == given.value
    ensures given.None? ==> r == current
  {
    if given.Some? then given.value else current
  }

  function Apply(u: User, c: Changes, now: int): User {
    u.(avatarUrl := KeepIfBlank(c.avatarUrl, u.avatarUrl),
       bio := KeepIfBlank(c.bio, u.bio),
       username := KeepIfMissing(c.username, u.username),
       email := KeepIfMissing(c.email, u.email),
       updatedAt := now)
  }

  /** The handler. With no clash it answers "Profile updated" even when no
      row has the caller's id. */
  function UpdateProfile(rows: seq<User>, caller: int, c: Changes, now: int): (r: Step<seq<User>, string>)
    ensures HasClash(rows, c, caller) ==> r == Step(rows, Fail(400, InUse))
    ensures !HasClash(rows, c, caller) ==> r.reply == Ok(200, Updated)
    ensures |r.state| == |rows|
    ensures forall i :: 0 <= i < |rows| && rows[i].id != caller ==> r.state[i] == rows[i]
    ensures r.reply.Ok? ==> forall i :: 0 <= i < |rows| && rows[i].id == caller ==>
      && r.state[i].id == caller
      && r.state[i].passwordHash == rows[i].passwordHash && r.state[i].role == rows[i].role
      && r.state[i].createdAt == rows[i].createdAt && r.state[i].updatedAt == now
      && (Present(c.avatarUrl) ==> r.state[i].avatarUrl == c.avatarUrl)
      && (!Present(c.avatarUrl) ==> r.state[i].avatarUrl == rows[i].avatarUrl)
      && (Present(c.bio) ==> r.state[i].bio == c.bio)
      && (!Present(c.bio) ==> r.state[i].bio == rows[i].bio)
      && (c.username.Some? ==> r.state[i].username == c.username.value)
      && (c.username.None? ==> r.state[i].username == rows[i].username)
      && (c.email.Some? ==> r.state[i].email == c.email.value)
      && (c.email.None? ==> r.state[i].email == rows[i].email)
  {
    if HasClash(rows, c, caller) then Step(rows, Fail(400, InUse))
    else
      var rows' := seq(|rows|, i requires 0 <= i < |rows| => if rows[i].id == caller then Apply(rows[i], c, now) else rows[i]);
      Step(rows', Ok(200, Updated))
  }

  predicate UniqueIds(rows: seq<User>) {
    forall i, j :: 0 <= i < j < |rows| ==> rows[i].id != rows[j].id
  }

  /** The table's `UNIQUE` constraints on `username` and `email`. */
  predicate UniqueNames(rows: seq<User>) {
    forall i, j :: 0 <= i < j < |rows| ==> rows[i].username != rows[j].username && rows[i].email != rows[j].email
  }

  /** Because of the clash check, an accepted update never makes two users
      share a username or an email. */
  lemma {:induction false} UpdateKeepsNamesUnique(rows: seq<User>, caller: int, c: Changes, now: int)
    requires UniqueIds(rows) && UniqueNames(rows)
    ensures UniqueIds(UpdateProfile(rows, caller, c, now).state)
    ensures UniqueNames(UpdateProfile(rows, caller, c, now).state)
  {
    var rows' := UpdateProfile(rows, caller, c, now).state;
    if !HasClash(rows, c, caller) {
      forall i, j | 0 <= i < j < |rows'|
        ensures rows'[i].id != rows'[j].id
        ensures rows'[i].username != rows'[j].username && rows'[i].email != rows'[j].email
      {
        assert rows'[i].id == rows[i].id && rows'[j].id == rows[j].id;
        if rows[i].id == caller {
          assert !Clashes(rows[j], c, caller);
        } else if rows[j].id == caller {
          assert !Clashes(rows[i], c, caller);
        }
      }
    }
  }

  /** The caller's current username and email never count as a clash with
      themselves: sending them back unchanged is accepted when no other user
      holds them. */
  lemma OwnNamesAreNoClash(rows: seq<User>, i: nat, now: int)
    requires UniqueIds(rows) && UniqueNames(rows) && i < |rows|
    ensures
      var u := rows[i];
      UpdateProfile(rows, u.id, Changes(None, None, Some(u.username), Some(u.email)), now).reply == Ok(200, Updated)
  {
    var u := rows[i];
    var c := Changes(None, None, Some(u.username), Some(u.email));
    forall v | v in rows ensures !Clashes(v, c, u.id) {
      var j :| 0 <= j < |rows| && rows[j] == v;
      if j != i {
        assert v.username != u.username && v.email != u.email;
      }
    }
  }
}

=== FILE: schema.dfy ===
/** The rows of the tables the handlers read and write. A table is held in
    insertion order; `SERIAL` ids come from a counter kept beside the rows.
    Columns whose value is left to the table's default (a role, the
    publication flag) are `None` until a request sets them. */
module Schema {
  import opened Common

  datatype User = User(
    id: int,
    username: string,
    email: string,
    passwordHash: string,
    role: Option<string>,
    avatarUrl: Option<string>,
    bio: Option<string>,
    createdAt: int,
    updatedAt: int)

  datatype Post = Post(
    id: int,
    slug: string,
    title: string,
    content: Option<string>,
    tags: seq<string>,
    coverImage: Option<string>,
    isPublished: Option<bool>,
    authorId: Option<int>,
    viewCount: int,
    createdAt: int,
    updatedAt: int)

  /** A row of `post_feedback`: one rating of a post by a user. */
  datatype Feedback = Feedback(
    id: int,
    postId: int,
    userId: int,
    rating: int,
    comment: Option<string>,
    createdAt: int,
    updatedAt: int)

  /** `id` is the primary key of `users`. */
  predicate IdsUnique(rows: seq<User>) {
    forall i, j :: 0 <= i < j < |rows| ==> rows[i].id != rows[j].id
  }

  /** The user rows whose id is in `ids`, in table order: what both
      `WHERE id = ANY($1)` and a join from a set of ids onto `users.id`
      select. */
  function WithIds(rows: seq<User>, ids: set<int>): (r: seq<User>)
    ensures forall u :: u in r <==> u in rows && u.id in ids
  {
    if rows == [] then []
    else (if rows[0].id in ids then [rows[0]] else []) + WithIds(rows[1..], ids)
  }

  /** `WithIds` is that filter: every row whose id is listed, every
      occurrence, in table order, and nothing else. */
  lemma {:induction false} WithIdsFilters(rows: seq<User>, ids: set<int>)
    ensures Subsequence(WithIds(rows, ids), rows)
    ensures forall u :: multiset(WithIds(rows, ids))[u] == if u.id in ids then multiset(rows)[u] else 0
  {
    if rows != [] {
      assert rows == [rows[0]] + rows[1..];
      WithIdsFilters(rows[1..], ids);
      var t := WithIds(rows[1..], ids);
      if rows[0].id in ids {
        assert ([rows[0]] + t)[1..] == t;
      } else {
        assert [] + t == t;
      }
    }
  }

  /** With a primary key, the selected rows have distinct ids too. */
  lemma {:induction false} WithIdsKeepsUnique(rows: seq<User>, ids: set<int>)
    requires IdsUnique(rows)
    ensures IdsUnique(WithIds(rows, ids))
  {
    if rows != [] {
      var rest := rows[1..];
      assert IdsUnique(rest) by {
        forall i, j | 0 <= i < j < |rest| ensures rest[i].id != rest[j].id {
          assert rest[i] == rows[i + 1] && rest[j] == rows[j + 1];
        }
      }
      WithIdsKeepsUnique(rest, ids);
      var t := WithIds(rest, ids);
      if rows[0].id in ids {
        var r := [rows[0]] + t;
        forall i, j | 0 <= i < j < |r| ensures r[i].id != r[j].id {
          assert r[j] == t[j - 1];
          if i == 0 {
            assert t[j - 1] in rest;
            var k :| 0 <= k < |rest| && rest[k] == t[j - 1];
            assert rows[k + 1] == t[j - 1];
          } else {
            assert r[i] == t[i - 1];
          }
        }
        assert WithIds(rows, ids) == r;
      } else {
        assert WithIds(rows, ids) == t;
      }
    }
  }

  /** The `rating` column of some feedback rows, in their order. */
  function RatingColumn(fs: seq<Feedback>): (r: seq<int>)
    ensures |r| == |fs| && forall i :: 0 <= i < |fs| ==> r[i] == fs[i].rating
  {
    seq(|fs|, i requires 0 <= i < |fs| => fs[i].rating)
  }

  lemma RatingColumnCons(f: Feedback, fs: seq<Feedback>)
    ensures RatingColumn([f] + fs) == [f.rating] + RatingColumn(fs)
  {
    assert RatingColumn([f] + fs)[1..] == RatingColumn(fs);
  }

  /** A row of `post_comments`; `parentId` is `None` for a top-level comment. */
  datatype Comment = Comment(
    id: int,
    postId: int,
    userId: int,
    parentId: Option<int>,
    content: Option<string>,
    createdAt: int,
    updatedAt: int)

  /** A row of `follows`: `follower` follows `following`. */
  datatype Edge = Edge(follower: int, following: int)

  /** A table: its rows in insertion order and the next `SERIAL` id. */
  datatype Table<T> = Table(rows: seq<T>, nextId: int)
}

=== FILE: search.dfy ===
/** The GET handler of the search route: the trimmed query, wrapped in `%`,
    is matched with `ILIKE` against post titles and contents and against
    usernames; at most five posts (newest first) and five users (by
    username) come back. */
module Search {
  import opened Common
  import opened Schema

  const TermRequired := "Search term is required"
  const MaxHits := 5

  /** PostgreSQL `LIKE` with the default escape character `\`: `%` matches
      any run, `_` any one character, `\x` the character x. A pattern ending
      in a lone `\` is refused by the store; the handler never builds one,
      since its patterns end in `%`, and here a lone `\` matches itself. */
  function Like(s: string, p: string): bool
    decreases |s| + |p|
  {
    if p == [] then s == []
    else if p[0] == '%' then Like(s, p[1..]) || (s != [] && Like(s[1..], p))
    else if s == [] then false
    else if p[0] == '_' then Like(s[1..], p[1..])
    else if p[0] == '\\' && |p| >= 2 then s[0] == p[1] && Like(s[1..], p[2..])
    else s[0] == p[0] && Like(s[1..], p[1..])
  }

  /** `ILIKE`: `LIKE` after lowering both sides (ASCII letters only). */
  predicate ILike(s: string, p: string) {
    Like(Lower(s), Lower(p))
  }

  /** A term with none of the characters `LIKE` treats specially. */
  predicate Literal(t: string) {
    forall i :: 0 <= i < |t| ==> t[i] != '%' && t[i] != '_' && t[i] != '\\'
  }

  /** `t` occurs in `s` at position i. */
  predicate OccursAt(s: string, t: string, i: int) {
    0 <= i && i + |t| <= |s| && s[i..i + |t|] == t
  }

  /** `t` occurs in `s` at some position. */
  ghost predicate Contains(s: string, t: string) {
    exists i :: OccursAt(s, t, i)
  }

  /** The pattern the handler builds: `%${q.trim()}%`. */
  function Pattern(term: string): string {
    "%" + term + "%"
  }

  lemma {:induction false} LikeAnything(s: string)
    ensures Like(s, "%")
    decreases |s|
  {
    if s != [] {
      LikeAnything(s[1..]);
    }
  }

  lemma {:induction false} LikePrefix(s: string, t: string)
    requires Literal(t)
    ensures Like(s, t + "%") <==> |t| <= |s| && s[..|t|] == t
    decreases |t|
  {
    if t == [] {
      LikeAnything(s);
      assert t + "%" == "%";
    } else {
      assert (t + "%")[0] == t[0];
      assert (t + "%")[1..] == t[1..] + "%";
      assert Literal(t[1..]);
      if s != [] {
        LikePrefix(s[1..], t[1..]);
        if |t| <= |s| {
          assert s[..|t|] == [s[0]] + s[1..][..|t| - 1];
          assert t == [t[0]] + t[1..];
        }
      }
    }
  }

  lemma {:induction false} LikeAfterAny(s: string, q: string)
    ensures Like(s, "%" + q) <==> exists i :: 0 <= i <= |s| && Like(s[i..], q)
    decreases |s|
  {
    assert ("%" + q)[0] == '%' && ("%" + q)[1..] == q;
    assert s[0..] == s;
    if s != [] {
      LikeAfterAny(s[1..], q);
      assert forall i :: 1 <= i <= |s| ==> s[i..] == s[1..][i - 1..];
      if Like(s[1..], "%" + q) {
        var i :| 0 <= i <= |s[1..]| && Like(s[1..][i..], q);
        assert s[i + 1..] == s[1..][i..];
      }
    }
  }

  /** For a term free of wildcards, the pattern `%term%` matches exactly the
      strings that contain the term. */
  lemma LikeContains(s: string, t: string)
    requires Literal(t)
    ensures Like(s, Pattern(t)) <==> Contains(s, t)
  {
    assert Pattern(t) == "%" + (t + "%");
    LikeAfterAny(s, t + "%");
    forall i | 0 <= i <= |s|
      ensures Like(s[i..], t + "%") <==> OccursAt(s, t, i)
    {
      LikePrefix(s[i..], t);
      if i + |t| <= |s| {
        assert s[i..][..|t|] == s[i..i + |t|];
      }
    }
    if Contains(s, t) {
      var i :| OccursAt(s, t, i);
      assert Like(s[i..], t + "%");
    }
  }

  /** The same for `ILIKE`: a literal term matches exactly the strings that
      contain it once both are lowered. */
  lemma ILikeContains(s: string, t: string)
    requires Literal(t)
    ensures ILike(s, Pattern(t)) <==> Contains(Lower(s), Lower(t))
  {
    assert Lower(Pattern(t)) == Pattern(Lower(t));
    assert Literal(Lower(t));
    LikeContains(Lower(s), Lower(t));
  }

  /** A post is a hit when its title or its content matches. */
  predicate PostMatches(p: Post, pattern: string) {
    ILike(p.title, pattern) || (p.content.Some? && ILike(p.content.value, pattern))
  }

  /** The positions among the first n rows of the matching posts, newest
      first: `created_at DESC` puts a later row before an earlier one. */
  function NewestMatching(rows: seq<Post>, pattern: string, n: nat): (r: seq<nat>)
    requires n <= |rows|
    ensures forall i :: 0 <= i < |r| ==> r[i] < n && PostMatches(rows[r[i]], pattern)
    ensures forall i, j :: 0 <= i < j < |r| ==> r[i] > r[j]
    ensures forall k :: 0 <= k < n && PostMatches(rows[k], pattern) ==> k in r
  {
    if n == 0 then []
    else
      var rest := NewestMatching(rows, pattern, n - 1);
      if PostMatches(rows[n - 1], pattern) then
        var r := [n - 1] + rest;
        assert forall i :: 1 <= i < |r| ==> r[i] == rest[i - 1];
        r
      else rest
  }

  /** Lexicographic order on code points. */
  predicate NameLeq(a: string, b: string) {
    a == [] || (b != [] && (a[0] < b[0] || (a[0] == b[0] && NameLeq(a[1..], b[1..]))))
  }

  lemma {:induction false} NameLeqTotal(a: string, b: string)
    ensures NameLeq(a, b) || NameLeq(b, a)
  {
    if a != [] && b != [] && a[0] == b[0] {
      NameLeqTotal(a[1..], b[1..]);
    }
  }

  lemma {:induction false} NameLeqTrans(a: string, b: string, c: string)
    requires NameLeq(a, b) && NameLeq(b, c)
    ensures NameLeq(a, c)
  {
    if a != [] && b != [] && c != [] && a[0] == b[0] && b[0] == c[0] {
      NameLeqTrans(a[1..], b[1..], c[1..]);
    }
  }

  /** The columns the user query selects. */
  datatype UserHit = UserHit(id: int, username: string, avatarUrl: Option<string>)

  predicate SortedByName(s: seq<UserHit>) {
    forall i, j :: 0 <= i < j < |s| ==> NameLeq(s[i].username, s[j].username)
  }

  function Insert(x: UserHit, s: seq<UserHit>): (r: seq<UserHit>)
    ensures multiset(r) == multiset(s) + multiset{x}
  {
    if s == [] then [x]
    else if NameLeq(x.username, s[0].username) then [x] + s
    else
      assert s == [s[0]] + s[1..];
      [s[0]] + Insert(x, s[1..])
  }

  /** A name no greater than every name of a sorted list can go in front. */
  lemma ConsSorted(h: UserHit, s: seq<UserHit>)
    requires SortedByName(s)
    requires forall j :: 0 <= j < |s| ==> NameLeq(h.username, s[j].username)
    ensures SortedByName([h] + s)
  {
    var r := [h] + s;
    forall i, j | 0 <= i < j < |r| ensures NameLeq(r[i].username, r[j].username) {
      assert r[j] == s[j - 1];
      if i > 0 {
        assert r[i] == s[i - 1];
      }
    }
  }

  /** A lower bound of a list and of `x` is a lower bound of the list with
      `x` inserted. */
  lemma InsertBound(y: string, x: UserHit, s: seq<UserHit>)
    requires NameLeq(y, x.username)
    requires forall j :: 0 <= j < |s| ==> NameLeq(y, s[j].username)
    ensures forall j :: 0 <= j < |Insert(x, s)| ==> NameLeq(y, Insert(x, s)[j].username)
  {
    var r := Insert(x, s);
    forall j | 0 <= j < |r| ensures NameLeq(y, r[j].username) {
      assert r[j] in multiset(r);
      if r[j] != x {
        assert r[j] in multiset(s);
        var k :| 0 <= k < |s| && s[k] == r[j];
      }
    }
  }

  lemma {:induction false} InsertSorted(x: UserHit, s: seq<UserHit>)
    requires SortedByName(s)
    ensures SortedByName(Insert(x, s))
  {
    if s == [] {
    } else if NameLeq(x.username, s[0].username) {
      forall j | 0 <= j < |s| ensures NameLeq(x.username, s[j].username) {
        if j > 0 {
          NameLeqTrans(x.username, s[0].username, s[j].username);
        }
      }
      ConsSorted(x, s);
    } else {
      NameLeqTotal(x.username, s[0].username);
      InsertSorted(x, s[1..]);
      InsertBound(s[0].username, x, s[1..]);
      ConsSorted(s[0], Insert(x, s[1..]));
    }
  }

  /** `ORDER BY username ASC`, as an insertion sort. */
  function SortByName(s: seq<UserHit>): (r: seq<UserHit>)
    ensures SortedByName(r)
    ensures multiset(r) == multiset(s)
  {
    if s == [] then []
    else
      assert s == [s[0]] + s[1..];
      var rest := SortByName(s[1..]);
      InsertSorted(s[0], rest);
      Insert(s[0], rest)
  }

  function MatchingUsers(rows: seq<User>, pattern: string): (r: seq<UserHit>)
    ensures forall h :: h in r <==> exists u :: u in rows && ILike(u.username, pattern) && h == UserHit(u.id, u.username, u.avatarUrl)
  {
    if rows == [] then []
    else
      var u := rows[0];
      var rest := MatchingUsers(rows[1..], pattern);
      assert forall v :: v in rows <==> v == u || v in rows[1..];
      if ILike(u.username, pattern) then [UserHit(u.id, u.username, u.avatarUrl)] + rest else rest
  }

  /** The columns the post query selects. */
  datatype PostHit = PostHit(id: int, title: string, slug: string)

  datatype Results = Results(posts: seq<PostHit>, users: seq<UserHit>)

  function Take<T>(s: seq<T>, n: nat): (r: seq<T>)
    ensures |r| == Min(n, |s|)
    ensures r == s[..|r|]
  {
    if |s| <= n then s else s[..n]
  }

  /** The first five matching posts, newest first, with the selected
      columns. */
  function TopPosts(posts: seq<Post>, pattern: string): (r: seq<PostHit>)
    ensures
      var newest := NewestMatching(posts, pattern, |posts|);
      && |r| == Min(MaxHits, |newest|)
      && forall i :: 0 <= i < |r| ==>
           var p := posts[newest[i]];
           r[i] == PostHit(p.id, p.title, p.slug)
  {
    var newest := Take(NewestMatching(posts, pattern, |posts|), MaxHits);
    seq(|newest|, i requires 0 <= i < |newest| => PostHit(posts[newest[i]].id, posts[newest[i]].title, posts[newest[i]].slug))
  }

  /** The first five matching users by username. */
  function TopUsers(users: seq<User>, pattern: string): (r: seq<UserHit>)
    ensures |r| <= MaxHits
    ensures SortedByName(r)
    ensures forall h :: h in r ==> ILike(h.username, pattern)
    ensures |r| == Min(MaxHits, |MatchingUsers(users, pattern)|)
    ensures Smallest(r, multiset(MatchingUsers(users, pattern)))
    ensures |r| < MaxHits ==>
      forall u :: u in users && ILike(u.username, pattern) ==> UserHit(u.id, u.username, u.avatarUrl) in r
  {
    var matching := MatchingUsers(users, pattern);
    var sorted := SortByName(matching);
    var top := Take(sorted, MaxHits);
    TakeSmallest(sorted, MaxHits);
    TopOfSorted(matching, sorted, top);
    top
  }

  /** What the first five of the sorted matches keep of the matches. */
  lemma TopOfSorted(matching: seq<UserHit>, sorted: seq<UserHit>, top: seq<UserHit>)
    requires multiset(sorted) == multiset(matching)
    requires |top| == Min(MaxHits, |sorted|) && top == sorted[..|top|]
    ensures |top| == Min(MaxHits, |matching|)
    ensures forall h :: h in top ==> h in matching
    ensures |top| < MaxHits ==> forall h :: h in matching ==> h in top
  {
    assert |sorted| == |multiset(sorted)| == |multiset(matching)| == |matching|;
    forall h | h in top ensures h in matching {
      assert h in sorted;
      assert h in multiset(sorted);
    }
    if |top| < MaxHits {
      assert top == sorted;
      forall h | h in matching ensures h in top {
        assert h in multiset(matching);
      }
    }
  }

  /** `r` is drawn from the hits `all`, and every hit it leaves out has a
      name no smaller than any name in `r`: `ORDER BY … LIMIT` keeps the
      least. */
  predicate Smallest(r: seq<UserHit>, all: multiset<UserHit>) {
    && multiset(r) <= all
    && forall h, k :: h in all && 0 <= k < |r| && multiset(r)[h] < all[h] ==> NameLeq(r[k].username, h.username)
  }

  lemma TakeSmallest(s: seq<UserHit>, n: nat)
    requires SortedByName(s)
    ensures Smallest(Take(s, n), multiset(s))
  {
    var t := Take(s, n);
    var rest := s[|t|..];
    assert s == t + rest;
    assert multiset(s) == multiset(t) + multiset(rest);
    forall h, k | h in multiset(s) && 0 <= k < |t| && multiset(t)[h] < multiset(s)[h]
      ensures NameLeq(t[k].username, h.username)
    {
      assert h in multiset(rest);
      var m :| 0 <= m < |rest| && rest[m] == h;
      assert s[|t| + m] == h && s[k] == t[k];
    }
  }



  /** The handler. `q` is `None` when the query string has no `q`. */
  function SearchAll(posts: seq<Post>, users: seq<User>, q: Option<string>): (r: Reply<Results>)
    ensures r.Fail? <==> q.None? || forall i :: 0 <= i < |q.value| ==> IsJsSpace(q.value[i])
    ensures r.Fail? ==> r == Fail(400, TermRequired)
    ensures r.Ok? ==>
      var pattern := Pattern(Trim(q.value));
      && r.status == 200
      && r.value.posts == TopPosts(posts, pattern)
      && r.value.users == TopUsers(users, pattern)
  {
    if q.None? || Trim(q.value) == [] then Fail(400, TermRequired)
    else
      var pattern := Pattern(Trim(q.value));
      Ok(200, Results(TopPosts(posts, pattern), TopUsers(users, pattern)))
  }

  /** With a term free of wildcards, a post is a hit for the term's
      pattern exactly when its title or content contains the term, ignoring
      ASCII case. */
  lemma PostHitContainsTerm(p: Post, t: string)
    requires Literal(t)
    ensures PostMatches(p, Pattern(t)) <==>
      Contains(Lower(p.title), Lower(t)) || (p.content.Some? && Contains(Lower(p.content.value), Lower(t)))
  {
    ILikeContains(p.title, t);
    if p.content.Some? {
      ILikeContains(p.content.value, t);
    }
  }

  /** With a query free of wildcards, every user returned has a username
      containing the trimmed query, ignoring ASCII case. */
  lemma UserHitsContainTerm(posts: seq<Post>, users: seq<User>, q: string)
    requires Trim(q) != [] && Literal(Trim(q))
    ensures SearchAll(posts, users, Some(q)).Ok?
    ensures forall h :: h in SearchAll(posts, users, Some(q)).value.users ==>
      Contains(Lower(h.username), Lower(Trim(q)))
  {
    forall h | h in SearchAll(posts, users, Some(q)).value.users
      ensures Contains(Lower(h.username), Lower(Trim(q)))
    {
      ILikeContains(h.username, Trim(q));
    }
  }

  /** A whitespace-only query is refused like a missing one. */
  lemma BlankQueryRefused(posts: seq<Post>, users: seq<User>)
    ensures SearchAll(posts, users, Some("  \t")) == Fail(400, TermRequired)
    ensures SearchAll(posts, users, Some("")) == Fail(400, TermRequired)
    ensures SearchAll(posts, users, None) == Fail(400, TermRequired)
  {
    assert IsJsSpace(' ') && IsJsSpace('\t');
  }
}

=== FILE: slugify.dfy ===
/** `slugify(title)`: lower-case the title, turn every maximal run of
    characters outside `[a-z0-9]` into one hyphen, then strip a leading and a
    trailing hyphen. */
module Slug {
  import opened Common

  predicate IsSlugChar(c: char) {
    'a' <= c <= 'z' || '0' <= c <= '9'
  }

  /** An ASCII letter or digit, of either case. */
  predicate IsAsciiAlnum(c: char) {
    IsSlugChar(LowerChar(c))
  }

  predicate NoDoubleHyphen(s: string) {
    forall i :: 0 <= i < |s| - 1 ==> !(s[i] == '-' && s[i + 1] == '-')
  }

  predicate OnlySlugCharsAndHyphens(s: string) {
    forall i :: 0 <= i < |s| ==> IsSlugChar(s[i]) || s[i] == '-'
  }

  /** The shape of every slug `slugify` returns. */
  predicate WellFormed(s: string) {
    && OnlySlugCharsAndHyphens(s)
    && NoDoubleHyphen(s)
    && (s != [] ==> s[0] != '-' && s[|s| - 1] != '-')
  }

  /** The letters and digits of `s`, in order: what a slug keeps of a title. */
  function Alnums(s: string): string {
    if s == [] then [] else (if IsSlugChar(s[0]) then [s[0]] else []) + Alnums(s[1..])
  }

  /** Drops the maximal leading run of characters outside `[a-z0-9]`. */
  function SkipRun(s: string): (r: string)
    ensures |r| <= |s| && r == s[|s| - |r|..]
    ensures s != [] && !IsSlugChar(s[0]) ==> |r| < |s|
    ensures r == [] || IsSlugChar(r[0])
    ensures Alnums(r) == Alnums(s)
  {
    if s != [] && !IsSlugChar(s[0]) then
      var r := SkipRun(s[1..]);
      assert Alnums(s) == Alnums(s[1..]);
      assert s[1..][|s| - 1 - |r|..] == s[|s| - |r|..];
      r
    else s
  }

  /** `.replace(/[^a-z0-9]+/g, '-')`. */
  function Collapse(s: string): (r: string)
    ensures OnlySlugCharsAndHyphens(r)
    ensures NoDoubleHyphen(r)
    ensures s != [] && IsSlugChar(s[0]) ==> r != [] && r[0] == s[0]
    decreases |s|
  {
    if s == [] then []
    else if IsSlugChar(s[0]) then [s[0]] + Collapse(s[1..])
    else "-" + Collapse(SkipRun(s))
  }

  /** `.replace(/(^-|-$)/g, '')`: a hyphen at the start and a hyphen at the
      end go, and nothing else does. */
  function TrimHyphens(s: string): (r: string)
    ensures OnlySlugCharsAndHyphens(s) && NoDoubleHyphen(s) ==> WellFormed(r)
    ensures Alnums(r) == Alnums(s)
    ensures
      var i := if s != [] && s[0] == '-' then 1 else 0;
      var j := if |s| > i && s[|s| - 1] == '-' then |s| - 1 else |s|;
      r == s[i..j]
  {
    var a := if s != [] && s[0] == '-' then s[1..] else s;
    DropLeadingHyphen(s, a);
    if a != [] && a[|a| - 1] == '-' then
      AlnumsSnoc(a[..|a| - 1], '-');
      assert a[..|a| - 1] + ['-'] == a;
      a[..|a| - 1]
    else a
  }

  /** Dropping a leading hyphen keeps the letters, digits and slug shape. */
  lemma DropLeadingHyphen(s: string, a: string)
    requires a == if s != [] && s[0] == '-' then s[1..] else s
    ensures Alnums(a) == Alnums(s)
    ensures OnlySlugCharsAndHyphens(s) && NoDoubleHyphen(s) ==>
      OnlySlugCharsAndHyphens(a) && NoDoubleHyphen(a) && (a != [] ==> a[0] != '-')
  {
    if s != [] && s[0] == '-' {
      assert forall k :: 0 <= k < |a| ==> a[k] == s[k + 1];
    }
  }

  /** `slugify(title)`: the words of the lowered title, joined by single
      hyphens. */
  function Slugify(title: string): (r: string)
    ensures WellFormed(r)
    ensures Alnums(r) == Alnums(Lower(title))
    ensures r == Hyphenate(Words(Lower(title)))
  {
    TrimCollapse(Lower(title));
    CollapseAlnums(Lower(title));
    TrimHyphens(Collapse(Lower(title)))
  }

  /** `Collapse` keeps the letters and digits, in order. */
  lemma {:induction false} CollapseAlnums(s: string)
    ensures Alnums(Collapse(s)) == Alnums(s)
    decreases |s|
  {
    if s != [] {
      if IsSlugChar(s[0]) {
        CollapseAlnums(s[1..]);
      } else {
        CollapseAlnums(SkipRun(s));
      }
    }
  }

  /** The two replacements together leave exactly the hyphenated words. */
  lemma TrimCollapse(s: string)
    ensures TrimHyphens(Collapse(s)) == Hyphenate(Words(s))
  {
    CollapseWords(s);
    WordsEmpty(s);
    var ws := Words(s);
    if ws != [] {
      HyphenateEnds(ws);
    }
    TrimAroundWords(s, Hyphenate(ws), Collapse(s));
  }

  /** The case split of `TrimCollapse`, over plain values. */
  lemma TrimAroundWords(s: string, h: string, c: string)
    requires h == [] ==> !HasSlugChar(s)
    requires h != [] ==> IsSlugChar(h[0]) && IsSlugChar(h[|h| - 1])
    requires c == Before(s) + h + After(s)
    ensures TrimHyphens(c) == h
  {
    if h == [] {
      assert c == Before(s);
    } else {
      TrimHyphensAround(Before(s), h, After(s));
    }
  }

  /** The maximal leading run of `[a-z0-9]`. */
  function Run(s: string): (w: string)
    ensures |w| <= |s| && w == s[..|w|]
    ensures forall i :: 0 <= i < |w| ==> IsSlugChar(w[i])
    ensures |w| < |s| ==> !IsSlugChar(s[|w|])
  {
    if s != [] && IsSlugChar(s[0]) then [s[0]] + Run(s[1..]) else []
  }

  /** The words of `s`: its maximal runs of `[a-z0-9]`, in order. */
  function Words(s: string): (ws: seq<string>)
    ensures forall i :: 0 <= i < |ws| ==> ws[i] != [] && forall j :: 0 <= j < |ws[i]| ==> IsSlugChar(ws[i][j])
    decreases |s|
  {
    if s == [] then []
    else if !IsSlugChar(s[0]) then Words(s[1..])
    else
      var w := Run(s);
      [w] + Words(s[|w|..])
  }

  /** Words joined with single hyphens; no words give the empty string. */
  function Hyphenate(ws: seq<string>): string {
    if ws == [] then [] else Join(ws, '-')
  }

  /** The hyphen `Collapse` leaves for a run at the start of `s`. */
  function Before(s: string): string {
    if s != [] && !IsSlugChar(s[0]) then "-" else ""
  }

  /** The hyphen `Collapse` leaves for a run at the end of `s`, when that
      run is not also the one at the start. */
  function After(s: string): string {
    if s != [] && !IsSlugChar(s[|s| - 1]) && HasSlugChar(s) then "-" else ""
  }

  predicate HasSlugChar(s: string) {
    exists i :: 0 <= i < |s| && IsSlugChar(s[i])
  }

  lemma {:induction false} CollapseWord(w: string, rest: string)
    requires forall i :: 0 <= i < |w| ==> IsSlugChar(w[i])
    ensures Collapse(w + rest) == w + Collapse(rest)
    decreases |w|
  {
    if w != [] {
      var x := w + rest;
      assert x[0] == w[0] && x[1..] == w[1..] + rest;
      CollapseWord(w[1..], rest);
      PrependHead(w, Collapse(x), Collapse(w[1..] + rest), Collapse(rest));
    } else {
      assert w + rest == rest;
    }
  }

  /** The step of `CollapseWord`, over plain values. */
  lemma PrependHead(w: string, a: string, b: string, c: string)
    requires w != [] && a == [w[0]] + b && b == w[1..] + c
    ensures a == w + c
  {
    assert [w[0]] + w[1..] == w;
  }

  lemma {:induction false} WordsSkipRun(s: string)
    ensures Words(SkipRun(s)) == Words(s)
    decreases |s|
  {
    if s != [] && !IsSlugChar(s[0]) {
      WordsSkipRun(s[1..]);
    }
  }

  lemma {:induction false} WordsEmpty(s: string)
    ensures Words(s) == [] <==> forall i :: 0 <= i < |s| ==> !IsSlugChar(s[i])
    decreases |s|
  {
    if s != [] && !IsSlugChar(s[0]) {
      WordsEmpty(s[1..]);
      assert forall i :: 1 <= i < |s| ==> s[i] == s[1..][i - 1];
    }
  }

  lemma HyphenateCons(w: string, ws: seq<string>)
    requires ws != []
    ensures Hyphenate([w] + ws) == w + "-" + Hyphenate(ws)
  {
    assert ([w] + ws)[1..] == ws;
  }

  /** Hyphenated words start and end with a letter or digit. */
  lemma {:induction false} HyphenateEnds(ws: seq<string>)
    requires ws != []
    requires forall i :: 0 <= i < |ws| ==> ws[i] != [] && forall j :: 0 <= j < |ws[i]| ==> IsSlugChar(ws[i][j])
    ensures var h := Hyphenate(ws); h != [] && IsSlugChar(h[0]) && IsSlugChar(h[|h| - 1])
  {
    var w := ws[0];
    assert IsSlugChar(w[0]) && IsSlugChar(w[|w| - 1]);
    if |ws| > 1 {
      var t := Hyphenate(ws[1..]);
      HyphenateEnds(ws[1..]);
      HyphenateCons(w, ws[1..]);
      assert ws == [w] + ws[1..];
      var h := w + "-" + t;
      assert h[0] == w[0];
      assert h[|h| - 1] == t[|t| - 1];
    }
  }

  /** `Collapse` keeps the words and leaves exactly one hyphen where each
      run of other characters was: between two words, and at either end when
      the string starts or ends with such a run. */
  lemma {:induction false} CollapseWords(s: string)
    ensures Collapse(s) == Before(s) + Hyphenate(Words(s)) + After(s)
    decreases |s|
  {
    if s == [] {
    } else if !IsSlugChar(s[0]) {
      var j := SkipRun(s);
      CollapseWords(j);
      WordsSkipRun(s);
      WordsEmpty(s);
      WordsEmpty(j);
      CollapseAfterRun(s, j, Hyphenate(Words(s)), Collapse(s), Collapse(j));
    } else {
      var w := Run(s);
      var rest := s[|w|..];
      assert s == w + rest;
      CollapseWord(w, rest);
      CollapseWords(rest);
      assert Words(s) == [w] + Words(rest);
      WordsEmpty(rest);
      CollapseAfterWord(s, w, rest, Words(rest), Collapse(s), Collapse(rest));
    }
  }

  /** The step of `CollapseWords` at a run of other characters. */
  lemma CollapseAfterRun(s: string, j: string, h: string, cs: string, cj: string)
    requires s != [] && !IsSlugChar(s[0])
    requires |j| < |s| && j == s[|s| - |j|..] && (j == [] || IsSlugChar(j[0]))
    requires HasSlugChar(j) == HasSlugChar(s)
    requires cs == "-" + cj
    requires cj == Before(j) + h + After(j)
    ensures cs == Before(s) + h + After(s)
  {
    if j != [] {
      assert s[|s| - 1] == j[|j| - 1];
    }
    assert After(s) == After(j);
  }

  /** The step of `CollapseWords` at a word. */
  lemma CollapseAfterWord(s: string, w: string, rest: string, ws: seq<string>, cs: string, cr: string)
    requires w != [] && forall i :: 0 <= i < |w| ==> IsSlugChar(w[i])
    requires s == w + rest && (rest == [] || !IsSlugChar(rest[0]))
    requires ws == [] <==> !HasSlugChar(rest)
    requires cs == w + cr
    requires cr == Before(rest) + Hyphenate(ws) + After(rest)
    ensures cs == Before(s) + Hyphenate([w] + ws) + After(s)
  {
    assert IsSlugChar(s[0]) && HasSlugChar(s);
    if rest == [] {
      LastWord(s, w, cs);
    } else if ws == [] {
      LastWordThenRun(s, w, rest, cs);
    } else {
      assert s[|s| - 1] == rest[|rest| - 1];
      assert After(s) == After(rest);
      HyphenateCons(w, ws);
    }
  }

  lemma LastWord(s: string, w: string, cs: string)
    requires w != [] && forall i :: 0 <= i < |w| ==> IsSlugChar(w[i])
    requires s == w + [] && cs == w + (Before([]) + Hyphenate([]) + After([]))
    ensures cs == Before(s) + Hyphenate([w]) + After(s)
  {
    assert s[|s| - 1] == w[|w| - 1];
    assert Hyphenate([w]) == w;
  }

  lemma LastWordThenRun(s: string, w: string, rest: string, cs: string)
    requires w != [] && forall i :: 0 <= i < |w| ==> IsSlugChar(w[i])
    requires s == w + rest && rest != [] && !IsSlugChar(rest[0]) && !HasSlugChar(rest)
    requires cs == w + (Before(rest) + Hyphenate([]) + After(rest))
    ensures cs == Before(s) + Hyphenate([w]) + After(s)
  {
    assert s[|s| - 1] == rest[|rest| - 1];
    assert !IsSlugChar(rest[|rest| - 1]);
    assert HasSlugChar(s) by {
      assert IsSlugChar(s[0]);
    }
    assert After(s) == "-";
    assert Hyphenate([w]) == w;
  }

  lemma TrimHyphensAround(b: string, h: string, a: string)
    requires b == "" || b == "-"
    requires a == "" || a == "-"
    requires h != [] && IsSlugChar(h[0]) && IsSlugChar(h[|h| - 1])
    ensures TrimHyphens(b + h + a) == h
  {
    var s := b + h + a;
    assert s[|b|..|b| + |h|] == h;
  }

  lemma {:induction false} AlnumsSnoc(s: string, c: char)
    ensures Alnums(s + [c]) == Alnums(s) + (if IsSlugChar(c) then [c] else [])
  {
    if s != [] {
      assert (s + [c])[1..] == s[1..] + [c];
      AlnumsSnoc(s[1..], c);
    }
  }

  /** No letter or digit in `s` exactly when `Alnums(s)` is empty. */
  lemma {:induction false} AlnumsEmpty(s: string)
    ensures Alnums(s) == [] <==> forall i :: 0 <= i < |s| ==> !IsSlugChar(s[i])
  {
    if s != [] {
      AlnumsEmpty(s[1..]);
      assert forall i :: 1 <= i < |s| ==> s[i] == s[1..][i - 1];
    }
  }

  /** `Collapse` leaves a string that is already hyphen-separated alone. */
  lemma {:induction false} CollapseFixed(s: string)
    requires OnlySlugCharsAndHyphens(s) && NoDoubleHyphen(s)
    ensures Collapse(s) == s
    decreases |s|
  {
    if s != [] {
      if IsSlugChar(s[0]) {
        CollapseFixed(s[1..]);
      } else {
        assert SkipRun(s) == SkipRun(s[1..]);
        if |s| > 1 {
          assert IsSlugChar(s[1]);
        }
        assert SkipRun(s[1..]) == s[1..];
        CollapseFixed(s[1..]);
      }
    }
  }

  /** A well-formed slug is a fixed point of `slugify`. */
  lemma SlugifyFixed(s: string)
    requires WellFormed(s)
    ensures Slugify(s) == s
  {
    assert Lower(s) == s;
    CollapseFixed(s);
  }

  /** `slugify(slugify(x)) == slugify(x)`. */
  lemma SlugifyIdempotent(title: string)
    ensures Slugify(Slugify(title)) == Slugify(title)
  {
    SlugifyFixed(Slugify(title));
  }

  /** A string of lower-case ASCII letters and digits is its own slug. */
  lemma SlugifyKeepsAlnum(s: string)
    requires forall i :: 0 <= i < |s| ==> IsSlugChar(s[i])
    ensures Slugify(s) == s
  {
    SlugifyFixed(s);
  }

  /** The slug is empty exactly when the title has no ASCII letter or digit;
      nothing rejects such a title. */
  lemma SlugifyEmpty(title: string)
    ensures Slugify(title) == [] <==> forall i :: 0 <= i < |title| ==> !IsAsciiAlnum(title[i])
  {
    var r := Slugify(title);
    AlnumsEmpty(r);
    AlnumsEmpty(Lower(title));
    if r != [] {
      assert IsSlugChar(r[0]);
    }
  }
}

=== FILE: suffix.dfy ===
/** The "first free name" search both the slug generator and the OAuth
    username allocation run: try `base`, then `base` followed by the suffixes
    1, 2, 3, … (with a hyphen for slugs, directly for usernames) until a
    candidate is not taken. */
module Suffix {

  /** How the numeric suffix is attached: `base-1` or `base1`. */
  datatype Separator = Hyphen | Adjacent

  function DigitChar(d: nat): char
    requires d < 10
  {
    ('0' as int + d) as char
  }

  predicate IsDigit(c: char) {
    '0' <= c <= '9'
  }

  /** The decimal numeral of `n`, as template literals print it. */
  function NatToString(n: nat): (r: string)
    ensures r != []
    ensures forall i :: 0 <= i < |r| ==> IsDigit(r[i])
    decreases n
  {
    if n < 10 then [DigitChar(n)] else NatToString(n / 10) + [DigitChar(n % 10)]
  }

  /** Reads a numeral back; the inverse of `NatToString`. */
  function StringToNat(s: string): nat
    requires forall i :: 0 <= i < |s| ==> IsDigit(s[i])
  {
    if s == [] then 0
    else
      assert IsDigit(s[|s| - 1]);
      StringToNat(s[..|s| - 1]) * 10 + (s[|s| - 1] as int - '0' as int)
  }

  lemma {:induction false} NatToStringRoundTrip(n: nat)
    ensures StringToNat(NatToString(n)) == n
    decreases n
  {
    var s := NatToString(n);
    if n >= 10 {
      NatToStringRoundTrip(n / 10);
      assert s[..|s| - 1] == NatToString(n / 10);
    }
  }

  lemma NatToStringInjective(a: nat, b: nat)
    requires NatToString(a) == NatToString(b)
    ensures a == b
  {
    NatToStringRoundTrip(a);
    NatToStringRoundTrip(b);
  }

  /** The k-th name tried: `base` for k = 0, then the suffixed forms. */
  function Candidate(base: string, sep: Separator, k: nat): string {
    if k == 0 then base
    else if sep == Hyphen then base + "-" + NatToString(k)
    else base + NatToString(k)
  }

  /** The first n names tried, in order. */
  function Candidates(base: string, sep: Separator, n: nat): (r: seq<string>)
    ensures |r| == n
    ensures forall k :: 0 <= k < n ==> r[k] == Candidate(base, sep, k)
  {
    seq(n, k requires 0 <= k < n => Candidate(base, sep, k))
  }

  /** No name is tried twice. */
  lemma CandidateInjective(base: string, sep: Separator, j: nat, k: nat)
    requires Candidate(base, sep, j) == Candidate(base, sep, k)
    ensures j == k
  {
    if j != 0 && k != 0 {
      var n := if sep == Hyphen then |base| + 1 else |base|;
      assert Candidate(base, sep, j)[n..] == NatToString(j);
      assert Candidate(base, sep, k)[n..] == NatToString(k);
      NatToStringInjective(j, k);
    }
  }

  /** The names tried before the k-th. */
  function Tried(base: string, sep: Separator, k: nat): set<string> {
    set j | 0 <= j < k :: Candidate(base, sep, j)
  }

  lemma TriedStep(base: string, sep: Separator, k: nat)
    ensures Tried(base, sep, k + 1) == Tried(base, sep, k) + {Candidate(base, sep, k)}
    ensures Candidate(base, sep, k) !in Tried(base, sep, k)
  {
    if Candidate(base, sep, k) in Tried(base, sep, k) {
      var j :| 0 <= j < k && Candidate(base, sep, j) == Candidate(base, sep, k);
      CandidateInjective(base, sep, j, k);
    }
  }

  /** The index of the first free candidate at or after k. It exists because
      `taken` is finite and no candidate repeats: each taken candidate leaves
      the set of taken names still to be tried. */
  function FirstFreeFrom(taken: set<string>, base: string, sep: Separator, k: nat): (r: nat)
    ensures k <= r
    ensures Candidate(base, sep, r) !in taken
    ensures forall j :: k <= j < r ==> Candidate(base, sep, j) in taken
    decreases taken - Tried(base, sep, k)
  {
    if Candidate(base, sep, k) !in taken then k
    else
      TriedStep(base, sep, k);
      FirstFreeFrom(taken, base, sep, k + 1)
  }

  /** `name` is the first free candidate: it is free and every earlier
      candidate is taken. */
  ghost predicate IsFirstFree(taken: set<string>, base: string, sep: Separator, name: string) {
    exists k: nat ::
      && name == Candidate(base, sep, k)
      && name !in taken
      && forall j :: 0 <= j < k ==> Candidate(base, sep, j) in taken
  }

  /** The name the search settles on. */
  function FirstFree(taken: set<string>, base: string, sep: Separator): (r: string)
    ensures r !in taken
    ensures base !in taken ==> r == base
    ensures IsFirstFree(taken, base, sep, r)
  {
    Candidate(base, sep, FirstFreeFrom(taken, base, sep, 0))
  }

  /** At most one candidate is the first free one. */
  lemma FirstFreeUnique(taken: set<string>, base: string, sep: Separator, k: nat)
    requires Candidate(base, sep, k) !in taken
    requires forall j :: 0 <= j < k ==> Candidate(base, sep, j) in taken
    ensures FirstFree(taken, base, sep) == Candidate(base, sep, k)
  {
  }

  /** The loop itself: query one candidate at a time until one is free. */
  method Search(taken: set<string>, base: string, sep: Separator) returns (name: string)
    ensures name !in taken
    ensures name == FirstFree(taken, base, sep)
  {
    var k := 0;
    name := base;
    while name in taken
      invariant name == Candidate(base, sep, k)
      invariant forall j :: 0 <= j < k ==> Candidate(base, sep, j) in taken
      decreases taken - Tried(base, sep, k)
    {
      TriedStep(base, sep, k);
      k := k + 1;
      name := Candidate(base, sep, k);
    }
    FirstFreeUnique(taken, base, sep, k);
  }
}

=== FILE: trend.dfy ===
/** The views trend on the dashboard page: the bars the dashboard route
    returns are cut in two halves, and the second half's views are compared
    with the first half's. */
module Trend {
  import opened DashboardRoute

  /** `viewsPerPost.slice(0, length / 2)`: `slice` truncates the fractional
      bound, so the cut is at floor(n / 2). */
  function FirstHalf(bars: seq<Bar>): (r: seq<Bar>)
    ensures |r| == |bars| / 2
    ensures r == bars[..|r|]
  {
    bars[..|bars| / 2]
  }

  function SecondHalf(bars: seq<Bar>): (r: seq<Bar>)
    ensures |r| == |bars| - |bars| / 2
    ensures r == bars[|bars| / 2..]
  {
    bars[|bars| / 2..]
  }

  lemma {:induction false} SumBarsAppend(a: seq<Bar>, b: seq<Bar>)
    ensures SumBars(a + b) == SumBars(a) + SumBars(b)
  {
    if a == [] {
      assert a + b == b;
    } else {
      assert (a + b)[1..] == a[1..] + b;
      SumBarsAppend(a[1..], b);
    }
  }

  /** The two halves make up the whole list, so their sums add up to the
      total views. */
  lemma HalvesCover(bars: seq<Bar>)
    ensures FirstHalf(bars) + SecondHalf(bars) == bars
    ensures SumBars(FirstHalf(bars)) + SumBars(SecondHalf(bars)) == SumBars(bars)
  {
    assert FirstHalf(bars) + SecondHalf(bars) == bars;
    SumBarsAppend(FirstHalf(bars), SecondHalf(bars));
  }

  function Abs(x: real): real {
    if x < 0.0 then -x else x
  }

  /** The arrow and the percentage under the Views card. */
  datatype Change = Change(up: bool, percent: real)

  function ViewsTrend(bars: seq<Bar>): (r: Change)
    ensures var first := SumBars(FirstHalf(bars));
      var second := SumBars(SecondHalf(bars));
      && (r.up <==> second >= first)
      && r.percent >= 0.0
      && (first <= 0 ==> r.percent == 0.0)
      && (first > 0 ==> r.percent * (first as real) == Abs((second - first) as real) * 100.0)
  {
    var first := SumBars(FirstHalf(bars));
    var second := SumBars(SecondHalf(bars));
    var diff := second - first;
    var percent := if first > 0 then Abs(diff as real / first as real) * 100.0 else 0.0;
    assert first > 0 ==> percent * (first as real) == Abs(diff as real) * 100.0 by {
      if first > 0 {
        PercentScale(diff as real, first as real);
      }
    }
    Change(diff >= 0, percent)
  }

  lemma PercentScale(d: real, f: real)
    requires f > 0.0
    ensures Abs(d / f) * 100.0 * f == Abs(d) * 100.0
  {
    var q := d / f;
    assert q * f == d;
    if d < 0.0 {
      assert q < 0.0;
    } else {
      assert q >= 0.0;
    }
  }

  /** A list whose second half has no fewer views than its first shows an
      upward trend; in particular equal halves do. */
  lemma FlatIsUp(bars: seq<Bar>)
    requires SumBars(FirstHalf(bars)) == SumBars(SecondHalf(bars))
    ensures ViewsTrend(bars) == Change(true, 0.0)
  {
  }

  /** The Views/Post card: `...` while loading or when there are no bars,
      otherwise total views over the number of bars (`Math.round` is not
      modelled). */
  datatype Tile = Placeholder | Shown(value: real)

  function ViewsPerPostTile(loading: bool, totalViews: int, bars: seq<Bar>): (r: Tile)
    ensures r.Placeholder? <==> loading || bars == []
    ensures r.Shown? ==> r.value * (|bars| as real) == totalViews as real
  {
    if loading || bars == [] then Placeholder
    else
      var v := totalViews as real / |bars| as real;
      assert v * (|bars| as real) == totalViews as real;
      Shown(v)
  }
}

=== FILE: users.dfy ===
/** `getUserById` and `getSuggestedUsers`. */
module Users {
  import opened Common
  import opened Schema

  /** The columns `getUserById` selects: no email and no password hash. */
  datatype PublicUser = PublicUser(
    id: int, username: string, role: Option<string>, avatarUrl: Option<string>,
    bio: Option<string>, createdAt: int, updatedAt: int)

  function Public(u: User): PublicUser {
    PublicUser(u.id, u.username, u.role, u.avatarUrl, u.bio, u.createdAt, u.updatedAt)
  }

  function FindById(rows: seq<User>, id: int): (r: Option<nat>)
    ensures r.None? <==> forall i :: 0 <= i < |rows| ==> rows[i].id != id
    ensures r.Some? ==> r.value < |rows| && rows[r.value].id == id
  {
    if rows == [] then None
    else if rows[0].id == id then Some(0)
    else match FindById(rows[1..], id)
      case None => None
      case Some(i) => Some(i + 1)
  }

  /** `getUserById`: the id is validated before any query; a positive id
      past the range of `integer` makes the query fail, which the handler
      answers with 500. */
  function GetUserById(rows: seq<User>, id: Parsed): (r: Reply<PublicUser>)
    ensures id.NaN? || id.value <= 0 ==> r == Fail(400, "Invalid user ID")
    ensures id.Int? && id.value > Int4Max ==> r == Fail(500, "Server error")
    ensures FitsInt4(id) && id.value > 0 && (forall i :: 0 <= i < |rows| ==> rows[i].id != id.value) ==>
      r == Fail(404, "User not found")
    ensures r.Ok? ==> r.status == 200 && exists u :: u in rows && u.id == id.value && r.value == Public(u)
    ensures FitsInt4(id) && id.value > 0 && (exists i :: 0 <= i < |rows| && rows[i].id == id.value) ==> r.Ok?
    ensures FitsInt4(id) && id.value > 0 && IdsUnique(rows) ==>
      forall u :: u in rows && u.id == id.value ==> r == Ok(200, Public(u))
  {
    if id.NaN? || id.value <= 0 then Fail(400, "Invalid user ID")
    else if id.value > Int4Max then Fail(500, "Server error")
    else match FindById(rows, id.value)
      case None => Fail(404, "User not found")
      case Some(i) => Ok(200, Public(rows[i]))
  }

  predicate NoDuplicates(s: seq<int>) {
    forall i, j :: 0 <= i < j < |s| ==> s[i] != s[j]
  }

  /** `Array.from(new Set(s))` after the ids in `seen`: each id once, at its
      first occurrence. */
  function DedupeAfter(s: seq<int>, seen: set<int>): (r: seq<int>)
    ensures NoDuplicates(r)
    ensures forall x :: x in r <==> x in s && x !in seen
  {
    if s == [] then []
    else if s[0] in seen then DedupeAfter(s[1..], seen)
    else [s[0]] + DedupeAfter(s[1..], seen + {s[0]})
  }

  /** The ids come out in the order of their first occurrences. */
  lemma {:induction false} DedupeOrder(s: seq<int>, seen: set<int>)
    ensures InFirstOccurrenceOrder(DedupeAfter(s, seen), s)
  {
    if s != [] {
      var seen' := if s[0] in seen then seen else seen + {s[0]};
      DedupeOrder(s[1..], seen');
      OrderAfterHead(DedupeAfter(s[1..], seen'), s);
    }
  }

  lemma {:induction false} DedupeAppend(a: seq<int>, b: seq<int>, seen: set<int>)
    ensures DedupeAfter(a + b, seen) == DedupeAfter(a, seen) + DedupeAfter(b, seen + set x | x in a)
  {
    if a == [] {
      assert a + b == b;
      assert seen + (set x | x in a) == seen;
    } else {
      assert (a + b)[1..] == a[1..] + b;
      var seen' := if a[0] in seen then seen else seen + {a[0]};
      DedupeAppend(a[1..], b, seen');
      assert seen' + (set x | x in a[1..]) == seen + (set x | x in a);
    }
  }

  /** `.filter((id) => !followingIds.includes(id))`. */
  function Unfollowed(s: seq<int>, following: set<int>): (r: seq<int>)
    ensures forall x :: x in r <==> x in s && x !in following
    ensures NoDuplicates(s) ==> NoDuplicates(r)
  {
    if s == [] then []
    else if s[0] in following then Unfollowed(s[1..], following)
    else [s[0]] + Unfollowed(s[1..], following)
  }

  /** `Unfollowed` is that filter: it keeps every occurrence of an id outside
      `following`, drops every other, and leaves the order alone. */
  lemma {:induction false} UnfollowedFilters(s: seq<int>, following: set<int>)
    ensures Subsequence(Unfollowed(s, following), s)
    ensures forall x :: multiset(Unfollowed(s, following))[x] == if x in following then 0 else multiset(s)[x]
  {
    if s != [] {
      assert s == [s[0]] + s[1..];
      UnfollowedFilters(s[1..], following);
      var t := Unfollowed(s[1..], following);
      if s[0] !in following {
        assert ([s[0]] + t)[1..] == t;
      }
    }
  }

  /** Filtering keeps an order by first occurrence. */
  lemma {:induction false} UnfollowedKeepsOrder(q: seq<int>, following: set<int>, s: seq<int>)
    requires InFirstOccurrenceOrder(q, s)
    ensures InFirstOccurrenceOrder(Unfollowed(q, following), s)
  {
    if q != [] {
      assert InFirstOccurrenceOrder(q[1..], s) by {
        forall i, j | 0 <= i < j < |q[1..]| ensures FirstIndex(s, q[1..][i]) < FirstIndex(s, q[1..][j]) {
          assert q[1..][i] == q[i + 1] && q[1..][j] == q[j + 1];
        }
      }
      UnfollowedKeepsOrder(q[1..], following, s);
      var t := Unfollowed(q[1..], following);
      if q[0] !in following {
        var r := [q[0]] + t;
        forall i, j | 0 <= i < j < |r| ensures FirstIndex(s, r[i]) < FirstIndex(s, r[j]) {
          if i == 0 {
            assert r[j] in q[1..];
            var k :| 0 <= k < |q[1..]| && q[1..][k] == r[j];
            assert q[k + 1] == r[j];
          } else {
            assert r[i] == t[i - 1] && r[j] == t[j - 1];
          }
        }
      }
    }
  }

  lemma {:induction false} UnfollowedAppend(a: seq<int>, b: seq<int>, following: set<int>)
    ensures Unfollowed(a + b, following) == Unfollowed(a, following) + Unfollowed(b, following)
  {
    if a == [] {
      assert a + b == b;
    } else {
      assert (a + b)[1..] == a[1..] + b;
      UnfollowedAppend(a[1..], b, following);
    }
  }

  const SuggestionLimit := 12

  /** Every id from `first` comes before every id that is not from it. */
  predicate FirstSourceFirst(r: seq<int>, first: seq<int>) {
    forall i, j :: 0 <= i < j < |r| && r[j] in first ==> r[i] in first
  }

  /** The whole merged list before the cut at 12: every id of either list
      outside `following`, once, in the order of its first occurrence in
      `fof` followed by `popular`. */
  function Merged(fof: seq<int>, popular: seq<int>, following: set<int>): (r: seq<int>)
    ensures NoDuplicates(r)
    ensures forall x :: x in r <==> (x in fof || x in popular) && x !in following
    ensures FirstSourceFirst(r, fof)
  {
    var merged := Unfollowed(DedupeAfter(fof + popular, {}), following);
    DedupeAppend(fof, popular, {});
    var front := Unfollowed(DedupeAfter(fof, {}), following);
    var back := Unfollowed(DedupeAfter(popular, {} + set x | x in fof), following);
    UnfollowedAppend(DedupeAfter(fof, {}), DedupeAfter(popular, {} + set x | x in fof), following);
    assert merged == front + back;
    assert forall x :: x in back ==> x !in fof;
    assert forall i :: 0 <= i < |merged| && merged[i] in fof ==> i < |front|;
    merged
  }

  /** The merged ids follow their first occurrences in `fof` then `popular`;
      with the membership and no-repeat facts this fixes the list. */
  lemma MergedOrder(fof: seq<int>, popular: seq<int>, following: set<int>)
    ensures InFirstOccurrenceOrder(Merged(fof, popular, following), fof + popular)
  {
    DedupeOrder(fof + popular, {});
    UnfollowedKeepsOrder(DedupeAfter(fof + popular, {}), following, fof + popular);
  }

  /** The merge of `getSuggestedUsers`: friends-of-friends ids, then popular
      ids, without repeats, without ids the caller follows, at most 12. */
  function MergeSuggestions(fof: seq<int>, popular: seq<int>, following: set<int>): (r: seq<int>)
    ensures var m := Merged(fof, popular, following); r == m[..Min(SuggestionLimit, |m|)]
    ensures |r| <= SuggestionLimit
    ensures NoDuplicates(r)
    ensures forall x :: x in r ==> x !in following && (x in fof || x in popular)
    ensures |r| < SuggestionLimit ==>
      forall x :: (x in fof || x in popular) && x !in following ==> x in r
    ensures FirstSourceFirst(r, fof)
  {
    var merged := Merged(fof, popular, following);
    var r := if |merged| <= SuggestionLimit then merged else merged[..SuggestionLimit];
    assert forall i :: 0 <= i < |r| ==> r[i] == merged[i];
    assert forall x :: x in r ==> x in merged;
    r
  }

  /** The ids the caller follows. */
  function FollowingOf(edges: set<Edge>, u: int): set<int> {
    set e | e in edges && e.follower == u :: e.following
  }

  /** What `SELECT DISTINCT following_id … WHERE follower_id = ANY($1) AND
      following_id != $2` returns, as a set. */
  function FriendsOfFriends(edges: set<Edge>, caller: int): set<int> {
    set e | e in edges && e.follower in FollowingOf(edges, caller) && e.following != caller :: e.following
  }

  function FollowerCount(edges: set<Edge>, u: int): nat {
    |set e | e in edges && e.following == u|
  }

  /** A valid answer of the popular-users query: at most 20 distinct ids of
      users other than the caller, by descending follower count. */
  predicate IsPopularAnswer(rows: seq<User>, edges: set<Edge>, caller: int, popular: seq<int>) {
    && |popular| <= 20
    && NoDuplicates(popular)
    && (forall i :: 0 <= i < |popular| ==> popular[i] != caller && exists u :: u in rows && u.id == popular[i])
    && (forall i, j :: 0 <= i < j < |popular| ==> FollowerCount(edges, popular[i]) >= FollowerCount(edges, popular[j]))
  }

  /** The columns `getSuggestedUsers` returns per user. */
  datatype Card = Card(id: int, username: string, avatarUrl: Option<string>, bio: Option<string>)

  /** The columns `id, username, avatar_url, bio` of one row. */
  function CardOf(u: User): Card {
    Card(u.id, u.username, u.avatarUrl, u.bio)
  }

  /** The answer of `SELECT id, username, avatar_url, bio FROM users WHERE
      id = ANY($1)`: one card per selected row, in table order, each copied
      from its row. */
  function Cards(rows: seq<User>, ids: set<int>): (r: seq<Card>)
    ensures |r| == |WithIds(rows, ids)|
    ensures forall i :: 0 <= i < |r| ==> r[i] == CardOf(WithIds(rows, ids)[i])
    ensures forall c :: c in r <==> exists u :: u in rows && u.id in ids && c == CardOf(u)
    ensures forall c :: c in r ==> c.id in ids
  {
    var us := WithIds(rows, ids);
    var r := seq(|us|, i requires 0 <= i < |us| => CardOf(us[i]));
    assert forall c :: c in r <==> exists u :: u in us && c == CardOf(u) by {
      forall c | c in r ensures exists u :: u in us && c == CardOf(u) {
        var i :| 0 <= i < |r| && r[i] == c;
        assert us[i] in us;
      }
      forall c | exists u :: u in us && c == CardOf(u) ensures c in r {
        var u :| u in us && c == CardOf(u);
        var i :| 0 <= i < |us| && us[i] == u;
        assert r[i] == c;
      }
    }
    r
  }

  /** `getSuggestedUsers`. The two id lists come from the store, in its order:
      `fof` answers the friends-of-friends query and `popular` the popularity
      query. The caller id comes from the token. */
  function GetSuggestedUsers(rows: seq<User>, edges: set<Edge>, caller: Parsed,
                             fof: seq<int>, popular: seq<int>): (r: Reply<seq<Card>>)
    requires caller.Int? ==> NoDuplicates(fof) && forall x :: x in fof <==> x in FriendsOfFriends(edges, caller.value)
    requires caller.Int? ==> IsPopularAnswer(rows, edges, caller.value, popular)
    ensures !Truthy(caller) ==> r == Fail(400, "Invalid user ID")
    ensures Truthy(caller) ==>
      var merged := MergeSuggestions(fof, popular, FollowingOf(edges, caller.value));
      r == Ok(200, if merged == [] then [] else Cards(rows, set x | x in merged))
    ensures Truthy(caller) ==>
      var merged := MergeSuggestions(fof, popular, FollowingOf(edges, caller.value));
      forall c :: c in r.value <==> exists u :: u in rows && u.id in merged && c == CardOf(u)
    ensures r.Ok? ==>
      && r.status == 200
      && forall c :: c in r.value ==> c.id != caller.value && c.id !in FollowingOf(edges, caller.value)
  {
    if !Truthy(caller) then Fail(400, "Invalid user ID")
    else
      var merged := MergeSuggestions(fof, popular, FollowingOf(edges, caller.value));
      if merged == [] then Ok(200, [])
      else Ok(200, Cards(rows, set x | x in merged))
  }
}

=== FILE: validate_feedback.dfy ===
/** The `validateFeedback` middleware: a presence check on `post_id`,
    `user_id` and `rating`, then a range check on `rating`. Body fields are
    JSON numbers or missing. */
module ValidateFeedback {

  datatype Field = Absent | Number(value: real)

  /** JavaScript truthiness of a missing field or a number. */
  predicate Truthy(f: Field) {
    f.Number? && f.value != 0.0
  }

  /** Either the request goes on to the handler or it is answered here. */
  datatype Verdict = Next | Reject(status: nat, message: string)

  const Required := "post_id, user_id, and rating are required"
  const OutOfRange := "rating must be between 1 and 5"

  function Validate(postId: Field, userId: Field, rating: Field): (r: Verdict)
    ensures r == Next <==> Truthy(postId) && Truthy(userId) && Truthy(rating) && 1.0 <= rating.value <= 5.0
    ensures !(Truthy(postId) && Truthy(userId) && Truthy(rating)) ==> r == Reject(400, Required)
    ensures Truthy(postId) && Truthy(userId) && Truthy(rating) && !(1.0 <= rating.value <= 5.0) ==>
      r == Reject(400, OutOfRange)
  {
    if !Truthy(postId) || !Truthy(userId) || !Truthy(rating) then Reject(400, Required)
    else if rating.value < 1.0 || rating.value > 5.0 then Reject(400, OutOfRange)
    else Next
  }

  /** A zero rating is reported as missing, not as out of range, because the
      presence check runs first. */
  lemma ZeroRatingIsMissing(postId: Field, userId: Field)
    ensures Validate(postId, userId, Number(0.0)) == Reject(400, Required)
  {
  }

  /** Every rejection carries one of the two messages with status 400. */
  lemma RejectionsAre400(postId: Field, userId: Field, rating: Field)
    ensures Validate(postId, userId, rating).Reject? ==>
      Validate(postId, userId, rating) in {Reject(400, Required), Reject(400, OutOfRange)}
  {
  }
}

=== FILE: write_form.dfy ===
/** `handleSubmit` of the editor page: refuse a blank title or content,
    otherwise build the request body, with the tag field split on commas. */
module WriteForm {
  import opened Common

  const Required := "Title and content are required"
  const SomethingWrong := "Something went wrong"

  /** The editor's fields; `coverImage` is `None` until an upload
      succeeds. */
  datatype Draft = Draft(title: string, content: string, description: string, tags: string,
                         coverImage: Option<string>)

  /** The JSON body of `POST /api/posts`. */
  datatype Body = Body(title: string, content: string, description: string, tags: seq<string>,
                       coverImage: string, isPublished: bool)

  datatype Submission = Refused(error: string) | Send(body: Body)

  /** No leading or trailing whitespace. */
  predicate Trimmed(s: string) {
    s == [] || (!IsJsSpace(s[0]) && !IsJsSpace(s[|s| - 1]))
  }

  /** Each piece is free of commas and of surrounding whitespace. */
  predicate Clean(pieces: seq<string>) {
    forall i :: 0 <= i < |pieces| ==> ',' !in pieces[i] && Trimmed(pieces[i])
  }

  predicate CommaFree(pieces: seq<string>) {
    forall i :: 0 <= i < |pieces| ==> ',' !in pieces[i]
  }

  /** `.map((t) => t.trim())`. */
  function TrimEach(pieces: seq<string>): (r: seq<string>)
    ensures |r| == |pieces|
    ensures forall i :: 0 <= i < |r| ==> r[i] == Trim(pieces[i])
  {
    seq(|pieces|, i requires 0 <= i < |pieces| => Trim(pieces[i]))
  }

  /** Trimming comma-free pieces gives clean ones. */
  lemma TrimEachClean(pieces: seq<string>)
    requires CommaFree(pieces)
    ensures Clean(TrimEach(pieces))
  {
    var r := TrimEach(pieces);
    forall i | 0 <= i < |r| ensures ',' !in r[i] && Trimmed(r[i]) {
      assert r[i] == Trim(pieces[i]);
      assert ',' !in pieces[i];
    }
  }

  /** `.filter(Boolean)` on strings: drop the empty ones, keep the order. */
  function NonEmpty(pieces: seq<string>): (r: seq<string>)
    ensures |r| <= |pieces|
    ensures forall i :: 0 <= i < |r| ==> r[i] != ""
    ensures forall t :: t in r <==> t in pieces && t != ""
    ensures (forall i :: 0 <= i < |pieces| ==> pieces[i] != "") ==> r == pieces
    ensures Clean(pieces) ==> Clean(r)
  {
    if pieces == [] then []
    else (if pieces[0] == "" then [] else [pieces[0]]) + NonEmpty(pieces[1..])
  }

  /** `NonEmpty` is that filter: every non-empty piece, every occurrence, in
      order, and no empty one. */
  lemma {:induction false} NonEmptyFilters(pieces: seq<string>)
    ensures Subsequence(NonEmpty(pieces), pieces)
    ensures forall t :: multiset(NonEmpty(pieces))[t] == if t == "" then 0 else multiset(pieces)[t]
  {
    if pieces != [] {
      assert pieces == [pieces[0]] + pieces[1..];
      NonEmptyFilters(pieces[1..]);
      var t := NonEmpty(pieces[1..]);
      if pieces[0] != "" {
        assert ([pieces[0]] + t)[1..] == t;
      } else {
        assert [] + t == t;
      }
    }
  }

  /** Filtering a concatenation filters each part. */
  lemma {:induction false} NonEmptyAppend(a: seq<string>, b: seq<string>)
    ensures NonEmpty(a + b) == NonEmpty(a) + NonEmpty(b)
  {
    if a == [] {
      assert a + b == b;
    } else {
      assert (a + b)[1..] == a[1..] + b;
      NonEmptyAppend(a[1..], b);
    }
  }

  /** `tags.split(',').map((t) => t.trim()).filter(Boolean)`. */
  function ParseTags(input: string): (r: seq<string>)
    ensures forall i :: 0 <= i < |r| ==> r[i] != ""
    ensures Clean(r)
  {
    var pieces := Split(input, ',');
    assert CommaFree(pieces);
    TrimEachClean(pieces);
    NonEmpty(TrimEach(pieces))
  }

  /** The tags of a comma-joined field are its pieces, each trimmed, the
      empty ones dropped, in the order typed. */
  lemma ParseTagsPieces(pieces: seq<string>)
    requires |pieces| >= 1 && CommaFree(pieces)
    ensures ParseTags(Join(pieces, ',')) == NonEmpty(TrimEach(pieces))
  {
    SplitJoin(pieces, ',');
  }

  /** `"react, dafny"` gives the two tags. */
  lemma ParseTagsExample()
    ensures ParseTags("react, dafny") == ["react", "dafny"]
  {
    var ps := ["react", " dafny"];
    JoinTwo("react", " dafny", "react, dafny");
    ParseTagsPieces(ps);
    TrimEachTwo(ps);
  }

  lemma JoinTwo(a: string, b: string, joined: string)
    requires joined == a + [','] + b
    ensures Join([a, b], ',') == joined
  {
    assert [a, b][1..] == [b];
  }

  lemma TrimEachTwo(ps: seq<string>)
    requires ps == ["react", " dafny"]
    ensures TrimEach(ps) == ["react", "dafny"]
  {
    TrimLeadingSpace(ps[1]);
    TrimKeeps(ps[0]);
  }

  /** A piece with no space at either end is its own trim. */
  lemma TrimKeeps(s: string)
    requires s != [] && !IsJsSpace(s[0]) && !IsJsSpace(s[|s| - 1])
    ensures Trim(s) == s
  {
  }

  lemma TrimLeadingSpace(s: string)
    requires s == " dafny"
    ensures Trim(s) == "dafny"
  {
    assert Leading(s[1..]) == 0;
    assert Leading(s) == 1;
    assert TrailingFrom(s, 1) == |s|;
  }

  /** An empty piece between commas gives no tag. */
  lemma ParseTagsSkipsEmpty()
    ensures ParseTags("a,,b") == ["a", "b"]
  {
    var ps := ["a", "", "b"];
    assert Join(ps, ',') == "a,,b";
    SkipsEmptyPiece(ps);
  }

  /** `ParseTagsSkipsEmpty` over the pieces, each step a lemma of its own. */
  lemma SkipsEmptyPiece(ps: seq<string>)
    requires ps == ["a", "", "b"]
    ensures ParseTags(Join(ps, ',')) == ["a", "b"]
  {
    ParseTagsPieces(ps);
    TrimEachUnchanged(ps);
    NonEmptyMiddle(ps);
  }

  lemma TrimEachUnchanged(ps: seq<string>)
    requires ps == ["a", "", "b"]
    ensures TrimEach(ps) == ps
  {
    TrimKeeps(ps[0]);
    TrimKeeps(ps[2]);
    assert Trim(ps[1]) == [];
  }

  lemma NonEmptyMiddle(ps: seq<string>)
    requires ps == ["a", "", "b"]
    ensures NonEmpty(ps) == ["a", "b"]
  {
    assert ps[1..] == ["", "b"] && ps[1..][1..] == ["b"];
  }

  /** A list of non-empty, comma-free, trimmed tags survives being joined
      with commas and parsed again. */
  lemma ParseTagsJoin(tags: seq<string>)
    requires |tags| >= 1
    requires forall i :: 0 <= i < |tags| ==> tags[i] != ""
    requires Clean(tags)
    ensures ParseTags(Join(tags, ',')) == tags
  {
    assert CommaFree(tags);
    SplitJoin(tags, ',');
    var trimmed := TrimEach(tags);
    forall i | 0 <= i < |tags| ensures trimmed[i] == tags[i] {
      assert tags[i] != [] && Trimmed(tags[i]);
    }
    assert trimmed == tags;
  }

  lemma NoTags()
    ensures ParseTags("") == []
  {
    assert Split("", ',') == [""];
    assert TrimEach([""]) == [Trim("")];
  }

  /** `handleSubmit` up to the request: a title or content that is blank
      after trimming is refused; otherwise the body is sent with the fields
      as typed (not trimmed), `''` for a missing cover, and `is_published`
      set. */
  function Submit(d: Draft): (r: Submission)
    ensures r.Refused? <==> Trim(d.title) == [] || Trim(d.content) == []
    ensures r.Refused? ==> r.error == Required
    ensures r.Send? ==>
      && r.body.title == d.title && r.body.content == d.content && r.body.description == d.description
      && r.body.tags == ParseTags(d.tags)
      && r.body.isPublished
      && (Present(d.coverImage) ==> r.body.coverImage == d.coverImage.value)
      && (!Present(d.coverImage) ==> r.body.coverImage == "")
  {
    if Trim(d.title) == [] || Trim(d.content) == [] then Refused(Required)
    else Send(Body(d.title, d.content, d.description, ParseTags(d.tags),
                   if Present(d.coverImage) then d.coverImage.value else "", true))
  }

  const PublishFailed := "Failed to publish post"

  /** How the request ended: the server answered (`response.ok`, the body's
      `error` and `slug`), or `fetch` or `response.json()` threw an error
      with the given message. */
  datatype Response = Answered(ok: bool, error: Option<string>, slug: string) | Threw(message: string)

  /** What the page does next: go to the new post, or show an error. */
  datatype Outcome = Navigate(path: string) | ShowError(message: string)

  /** The `try`/`catch` after the request: a failed answer throws
      `res?.error || 'Something went wrong'`, and the `catch` shows
      `err.message || 'Failed to publish post'`. */
  function AfterResponse(resp: Response): (r: Outcome)
    ensures resp.Answered? && resp.ok ==> r == Navigate("/post/" + resp.slug)
    ensures resp.Answered? && !resp.ok && Present(resp.error) ==> r == ShowError(resp.error.value)
    ensures resp.Answered? && !resp.ok && !Present(resp.error) ==> r == ShowError(SomethingWrong)
    ensures resp.Threw? && resp.message != "" ==> r == ShowError(resp.message)
    ensures resp.Threw? && resp.message == "" ==> r == ShowError(PublishFailed)
    ensures r.ShowError? ==> r.message != ""
  {
    match resp
    case Answered(ok, error, slug) =>
      if ok then Navigate("/post/" + slug)
      else Catch(if Present(error) then error.value else SomethingWrong)
    case Threw(message) => Catch(message)
  }

  /** The `catch` block: `setError(err.message || 'Failed to publish post')`. */
  function Catch(message: string): (r: Outcome)
    ensures r.ShowError? && r.message != ""
    ensures message != "" ==> r.message == message
  {
    ShowError(if message != "" then message else PublishFailed)
  }
}
